=== FILE: README.md ===
# Budget-Projet, modelled in Dafny

Budget-Projet is a desktop application that keeps the books of a purchasing
department. It holds these tables in one SQLite file:

- clients and their contacts;
- contracts with an end-of-term alert flag;
- yearly budgets per client and nature ("Fonctionnement" / "Investissement"),
  holding the amount granted, the amount spent and the amount still available;
- purchase orders ("bons de commande"), numbered `BC-YYYY-NNNN`, which debit a
  budget once validated;
- projects, with their investment lines and sourcing contacts;
- a to-do list that the contracts feed with renewal tasks.

This project models the business layer, the database triggers and the schema
constraints. It also models the validators, the formatters and the record
defaults. The modules:

- **Core values** (pure):
  - `Models`: the records, their defaults, the enumerations and the outcome of
    an operation.
  - `Text`: the string functions the code relies on, such as `strip`,
    `lower`, `int()`, `str()` and text order.
  - `Dates`: Python's `date`, with `toordinal`, `strptime` and `strftime`.
  - `Validators`: the validators.
  - `Formatters`: the formatters.
- **Storage**:
  - `Tables.Database` is a class holding one map per table (id to record) and
    one AUTOINCREMENT counter per table. Its predicates hold the schema's keys,
    UNIQUE and CHECK constraints.
  - Its methods are the INSERT/UPDATE/DELETE statements. The two triggers are
    among them: the insert trigger of `budgets` and the imputation trigger of
    `bons_commande`.
  - `Sorting.Select` is a SELECT ... WHERE ... ORDER BY over a map.
- **Managers**: one module per manager class (`BudgetManager`, `BcNumbering`
  and `BcManager`, `ContratManager`, `TodoManager`, `AlertManager`,
  `ClientManager`, `ContactManager`, `ProjetManager`).
  - An operation that changes a table is a method on the `Database`. It states
    the outcome and the whole new table.
  - A query is a function whose contract says which rows it returns and in what
    order.
  - The loops of the source stay loops, with their invariants:
    - the carry-over of budgets to a new year;
    - the sweep that refreshes the contracts' alert flags;
    - the contract-to-to-do synchronisation;
    - the purchase-order statistics.

## Conventions

- **Identifiers.** Ids are natural numbers. Id 0 stands for a missing
  (`None`) id, because the code only tests ids for truth. AUTOINCREMENT keys
  start at 1.
- **Amounts.** Amounts are exact `real` numbers.
- **Clock.** The current day, the current year and the current time are
  parameters (`today`, `currentYear`, `now`).
- **Enumerations.** The enumerations (natures, purchase-order types, contract
  and project states, priorities, investment types) are the schema's CHECK
  lists in `database/db_manager.py:59-203`. `utils/constants.py` is not part of
  this model.
- **Outcomes.** Every manager returns `(success, message[, id])`. That is an
  `Outcome`:
  - `Created(id)` or `Done` for success;
  - `Failed(error)`, with one `Error` case per kind of message;
  - `FailedWithoutId(error)` for the one branch of `create_projet` that
    returns a pair instead of a triple.
- **Query order.** A query lists the matching rows sorted by its ORDER BY
  columns, with the row id as a final tie-break. SQLite leaves the order of
  ties unspecified; the model fixes one.
- **Joins.** The inner JOINs on `clients` are a membership test on the client
  table. `get_all_contrats` uses LEFT JOINs and so lists a contract whatever
  its client.

## Where the code and its description differ (the model follows the code)

- **`update_budget`** (`business/budget_manager.py:134-144`): it does not
  recompute `montant_disponible`. An edit of the granted amount leaves the
  available amount stale (`BudgetManager.EditedBudgetBalance`).
- **`delete_budget`** (`business/budget_manager.py:149-156`): it has no guard
  on purchase orders charged to the budget.
- **`report_budgets`** (`business/budget_manager.py:158-192`): it carries a
  whole year over to another: every budget of `from_year` that has no
  counterpart. It has no guard on the amount left over, and a negative
  leftover is refused by `create_budget` and silently skipped.
- **`valider_bc`** calls `check_disponibilite` on the budget manager it is
  given, and `BudgetManager` defines no such method. So, as written, every
  existing draft order makes the call raise `AttributeError`, before the
  UPDATE. No order is ever validated, and the imputation trigger never fires.
  `BcManager.ValiderBcAsWritten` models that. `BcManager.ValiderBc` models the
  intended validation, with the availability check as its parameter `check`
  (see Findings).
- **Foreign keys.** `PRAGMA foreign_keys` is switched on only on the connection
  that creates the schema (`database/db_manager.py:57`). Foreign keys are
  therefore neither enforced nor cascaded; the model has no cascade.
- **UPDATE and DELETE on a missing id.** Such a statement changes nothing, and
  the operations still report success. `update_contrat`, `update_client`,
  `update_contact`, `update_todo` and `update_projet` report success with the
  table unchanged. The deletes of budgets, contacts, projects and to-dos do the
  same.

## Model

| member | source | states |
|---|---|---|
| Validators.ValidateEmail | utils/validators.py:9-14 | the empty address passes; an address of the `local@domain.tld` shape of the regular expression passes, with or without one final newline; an accepted address without a final newline has that shape |
| Validators.ValidateTelephone | utils/validators.py:17-23 | a number passes iff it is empty, or made only of digits, blanks and `+-().` with at least ten digits |
| Validators.ValidateDate | utils/validators.py:44-52 | the empty text passes; a non-empty text passes iff `strptime(s, "%Y-%m-%d")` succeeds; an accepted non-empty text has 8 to 10 characters, and a canonical one parses to a date that prints back to it |
| Validators.PrintedDateValid | utils/validators.py:44-52 | every date printed by `isoformat` passes `validate_date` |
| Validators.ValidateDateRange | utils/validators.py:55-59 | the range is refused iff both dates are given and the end comes before the start |
| Validators.ValidateCodePostal | utils/validators.py:62-66 | a code passes iff it is empty, or five ASCII digits with at most a final newline after them (what `$` lets through) |
| Validators.ValidateRequiredField | utils/validators.py:69-73 | a value passes iff it holds a character that is not white space |
| Validators.ValidateUniqueField | utils/validators.py:76-80 | a value passes iff it is not among the existing ones |
| ClientManager.UniqueFieldIsNomFree | utils/validators.py:76-80 | given the list of client names on file, the validator accepts a name iff no client holds it, the test `create_client` runs at business/client_manager.py:50-53 |
| ProjetManager.UniqueFieldIsNomFree | utils/validators.py:76-80 | given the list of project names on file, the validator accepts a name iff no project holds it, the test of business/projet_manager.py:55-61 |
| Validators.ValidateNumeroBc | utils/validators.py:83-86 | a number passes iff it is `BC-`, four digits, a dash and four digits, optionally followed by one final newline (`$` under `re.match`) |
| Validators.GenerateNumeroBc | utils/validators.py:89-91 | the number starts with `BC-` and its last field reads back as the sequence |
| Validators.GenerateNumeroBcValid | utils/validators.py:83-91 | for a four-digit year and a sequence up to 9999 the generated number is valid, and its fields read back as year and sequence |
| Validators.NumeroBcIsGenerated | utils/validators.py:83-91 | every well-formed number without a final newline whose year does not start with 0 is the one generated from its own year and sequence |
| Dates.OrdinalMonotonic | utils/validators.py:55-59 | day numbers order dates exactly as Python's date comparison does |
| Dates.StrptimeIsoformat | utils/formatters.py:72-79 | parsing the printed form of a date gives the date back |
| Dates.IsoformatStrptime | utils/formatters.py:8-14 | a canonical text that parses prints back to itself |
| Formatters.FormatDate | utils/formatters.py:8-14 | nothing gives "", a text is returned as is, a date is printed in canonical form that parses back to it |
| Formatters.ParseDate | utils/formatters.py:72-79 | the empty text gives nothing; a date comes back iff `strptime` accepts the text |
| Formatters.ParseFormatDate | utils/formatters.py:8-79 | `parse_date(format_date(d)) == d` |
| Formatters.FormatParseDate | utils/formatters.py:8-79 | `format_date(parse_date(s)) == s` for a canonical `YYYY-MM-DD` text |
| Formatters.FormatTelephone | utils/formatters.py:31-42 | the digits are kept; ten digits are regrouped in five blank-separated pairs, anything else is returned unchanged |
| Formatters.FormatTelephoneIdempotent | utils/formatters.py:31-42 | formatting twice is formatting once |
| Text.StripIsStripOf | utils/formatters.py:45-56 | `strip()` removes exactly the leading and trailing white space: the result is a slice of the text with only white space around it, and neither starts nor ends with white space |
| Text.StripUnique | utils/formatters.py:45-56 | that characterisation has one solution, so it defines `strip()` |
| Formatters.FormatCodePostal | utils/formatters.py:45-49 | the result is the text with its surrounding white space removed, and is empty iff the input is all white space |
| Formatters.FormatCodePostalIdempotent | utils/formatters.py:45-49 | formatting twice is formatting once |
| Formatters.PaddedCodePostalValid | utils/formatters.py:45-49 | five digits with white space around them format to the five digits, which then validate |
| Formatters.FormattedCodePostalValid | utils/formatters.py:45-49 | a code that validates still validates once formatted, and loses at most its final newline |
| Formatters.FormatEmail | utils/formatters.py:52-56 | the result is the stripped address, character by character in lower case |
| Formatters.FormatEmailShape | utils/formatters.py:52-56 | the result neither starts nor ends with white space and holds no letter from A to Z |
| Formatters.FormatEmailIdempotent | utils/formatters.py:52-56 | formatting twice is formatting once |
| Formatters.TruncateText | utils/formatters.py:96-102 | a short or empty text is unchanged; a long one ends in "..." after a prefix of the text, and has length `max_length` when that is at least 3; below 3 the slice end counts from the end of the text, so the length is 3 plus `len(text) + max_length - 3` (0 when negative) |
| Models.DefaultClient | database/models.py:10-21 | a new client is active |
| Models.DefaultContrat | database/models.py:37-49 | a new contract is "Actif", with no dates and no alert |
| Models.DefaultBudget | database/models.py:52-62 | a new budget has all three amounts at 0 and is balanced |
| Models.DefaultBonCommande | database/models.py:65-78 | a new purchase order is not validated and has no validation date or number |
| Models.DefaultProjet | database/models.py:81-98 | a new project is "En cours" |
| Models.DefaultTodoItem | database/models.py:124-134 | a new task is "Normale" and open, with no completion date |
| Tables.InsertedBudget | database/db_manager.py:230-239 | the insert trigger leaves the new row balanced (available = granted - spent), with the given key and amounts |
| Tables.Impute | database/db_manager.py:242-258 | the imputation trigger debits every budget of the order's client, nature and year by the order's amount and keeps it balanced; other budgets are unchanged |
| Tables.ImputeNoMatch | database/db_manager.py:248-253 | when no budget matches, no budget changes |
| Tables.ImputeMayOverdraw | database/db_manager.py:248-253 | the trigger can take a budget below zero (100 granted, 150 charged: -50 left) |
| Tables.Database.constructor | database/db_manager.py:51-219 | a new database has every table empty and every constraint holding |
| Tables.Database.InsertBudget | database/db_manager.py:230-239 | the row goes under the next id, balanced by the trigger; the UNIQUE key still holds |
| Tables.Database.SetValide | database/db_manager.py:242-258 | setting `valide` on a draft debits the matching budgets of the year and stamps the order; on a validated order nothing happens |
| BudgetManager.GetAllBudgets | business/budget_manager.py:19-40 | exactly the budgets with a client row, of the year and nature asked for (none asked: all), by year descending then client name |
| BudgetManager.FindBudget | business/budget_manager.py:50-56 | a budget is found iff one has the (client, year, nature) key, and it is that one |
| BudgetManager.CreateBudgetCheck | business/budget_manager.py:58-91 | the create is refused iff the client is missing, the year is out of range, the nature is not allowed, the amount is negative or the key exists; the last one is the duplicate error |
| BudgetManager.CreateBudget | business/budget_manager.py:58-106 | a refused create changes nothing; otherwise the row is stored under the next id, balanced, and the UNIQUE key still holds |
| BudgetManager.UpdateBudgetCheck | business/budget_manager.py:107-132 | the update is refused iff the id or client is missing, the year is out of range, the nature is not allowed or the amount is negative |
| BudgetManager.EditedBudget | business/budget_manager.py:134-144 | key, granted amount and service are written; spent and available amounts are kept |
| BudgetManager.EditedBudgetBalance | business/budget_manager.py:134-144 | an edit keeps a balanced row balanced iff it keeps the granted amount |
| BudgetManager.UpdateBudget | business/budget_manager.py:107-148 | a refused or missing row changes nothing; a key held by another row is a storage error; otherwise only that row is edited |
| BudgetManager.DeleteBudget | business/budget_manager.py:149-157 | the row goes, with no guard |
| BudgetManager.CarriedBudget | business/budget_manager.py:170-181 | the carried-over budget has the source's client and nature, the target year, the source's leftover as grant and nothing spent |
| BudgetManager.ListedSources | business/budget_manager.py:160-165 | the source listing is empty iff no budget is listed for the year, and holds exactly the listed budgets |
| BudgetManager.ReportOne | business/budget_manager.py:168-187 | one source is reported after the step; a row is added only when the source had no counterpart |
| BudgetManager.CarryOver | business/budget_manager.py:168-189 | every existing row is kept, every added row is carried over from a source, every source is reported, and the count is the number of added rows |
| BudgetManager.ReportBudgets | business/budget_manager.py:158-192 | an empty source year fails and changes nothing; otherwise every listed budget ends up reported, existing rows are kept, added rows come from listed budgets, the count is the number of rows added, and a settled table is left as it is |
| BudgetManager.ReportTwice | business/budget_manager.py:158-192 | a second carry-over with the same years creates nothing |
| BcNumbering.LastNumero | business/bc_manager.py:56-62 | the year's greatest number in text order: found iff the year has a number, and it is one of them |
| BcNumbering.GenerateNextNumero | business/bc_manager.py:51-71 | as written: `BC-{year}-0001` for a year with no number; otherwise the text-order greatest number's sequence plus one |
| BcNumbering.GenerateNextNumeroRepeats | business/bc_manager.py:51-71 | with `BC-2025-9999` and `BC-2025-10000` on file, the generator proposes `BC-2025-10000` again |
| BcNumbering.GenerateFreshNumero | business/bc_manager.py:51-71 | the corrected generator: a number of the year, `BC-{year}-0001` for a year with none |
| BcNumbering.NumeroFresh | business/bc_manager.py:51-71 | the corrected generator never proposes a number already on file |
| BcNumbering.GeneratedTextOrder | business/bc_manager.py:56-62 | for generated numbers of one year with sequences up to 9999, text order is the order of the sequences |
| BcNumbering.GeneratorsAgree | business/bc_manager.py:51-71 | while every number of the year is a generated one with a sequence up to 9999, the generator as written and the corrected one give the same number |
| BcManager.GetAllBcs | business/bc_manager.py:20-41 | exactly the orders with a client row, of the state and nature asked for, greatest number first |
| BcManager.CreateBcCheck | business/bc_manager.py:73-97 | the create is refused iff the client is missing, the nature or type is not allowed, or the amount is not positive |
| BcManager.NumeroFor | business/bc_manager.py:99-102 | an order keeps a number it has; one without gets a number of the year that no order holds |
| BcManager.NumeroForAsWritten | business/bc_manager.py:99-102 | while the year's numbers are generated ones up to 9999, the number given to an order without one is the one `generate_next_numero` hands out as written |
| BcManager.NewBc | business/bc_manager.py:111-121 | the stored order is a draft with no validation date, with the given fields |
| BcManager.CreateBc | business/bc_manager.py:73-124 | refused checks or a taken number change nothing; otherwise the draft is stored under the next id; an order without a number is always created |
| BcManager.UpdateBcCheck | business/bc_manager.py:126-153 | the update is refused iff the id is missing or unknown, the order is validated, or a field is invalid |
| BcManager.EditedBc | business/bc_manager.py:155-166 | the editable fields are written; number and validation state are kept |
| BcManager.UpdateBc | business/bc_manager.py:126-169 | a refused update changes nothing; otherwise only that draft is edited |
| BcManager.DeleteBc | business/bc_manager.py:171-185 | a missing or validated order stays; a draft is removed |
| BcManager.ValiderBcAsWritten | business/bc_manager.py:187-207 | as written: a missing or already validated order is refused; any other order raises (the availability check does not exist), so no order is ever validated and no table changes |
| BcManager.ValiderBc | business/bc_manager.py:187-207 | as intended: missing, already validated or unchecked orders change nothing; otherwise the order is validated and stamped and its budgets of the year debited, once |
| BcManager.YearBcsCount | business/bc_manager.py:213-223 | the statistics read every order of the year exactly once |
| BcManager.AddGroup | business/bc_manager.py:233-255 | one group row adds its count to the total and to validated or waiting, and its amount to the total; its nature's entry (created at zero when missing) gains the count in validated or waiting and the amount; every other nature's entry is unchanged |
| BcManager.StatsOfTotals | business/bc_manager.py:225-255 | after any group rows, total = validated + waiting, and the total amount equals the sum of the natures' amounts |
| BcManager.GroupByNature | business/bc_manager.py:213-223 | within one nature, the group rows hold that nature's order count, validated count and amount |
| BcManager.StatsOfNature | business/bc_manager.py:233-255 | after reading the group rows, a nature's entry holds its groups' validated count, waiting count and amount; a nature without groups has no entry |
| BcManager.StatsByNature | business/bc_manager.py:213-255 | every nature's entry counts that nature's orders, its validated ones and their amount |
| BcManager.StatsOfYear | business/bc_manager.py:209-257 | the statistics folded from the year's GROUP BY rows count and sum exactly the year's orders, in total and nature by nature |
| BcManager.GetBcStatistics | business/bc_manager.py:209-257 | total = validated + waiting = orders of the year; the total amount is the orders' sum and the natures' sum; the natures are those of the orders; each nature's entry holds the validated and waiting counts and the amount of that nature's orders of the year |
| ContratManager.CheckAlert | business/contrat_manager.py:188-203 | a contract is alerted iff it has an end date between today and 180 days later |
| ContratManager.GetAllContrats | business/contrat_manager.py:20-41 | exactly the contracts of the state asked for (flagged only, on request), earliest end date first |
| ContratManager.GetContratsWithAlerts | business/contrat_manager.py:184-186 | exactly the flagged contracts, earliest end date first |
| ContratManager.ContratFieldsCheck | business/contrat_manager.py:54-68 | the fields are refused iff the number or client is missing, the amount is negative, the end precedes the start or the state is not allowed |
| ContratManager.CreateContratCheck | business/contrat_manager.py:51-76 | the create is refused iff the fields are, or the number is held |
| ContratManager.NewContrat | business/contrat_manager.py:78-91 | the stored contract has the given fields and the alert flag of its end date, whatever its state |
| ContratManager.CreateContrat | business/contrat_manager.py:51-95 | a refused create changes nothing; otherwise the contract is stored under the next id with its flag |
| ContratManager.UpdateContratCheck | business/contrat_manager.py:97-125 | the update is refused iff the id is missing, the fields are refused, or another contract holds the number |
| ContratManager.UpdateContrat | business/contrat_manager.py:97-146 | a refused update changes nothing; otherwise the row is rewritten with the flag of its end date (a missing row: no change) |
| ContratManager.DeleteContrat | business/contrat_manager.py:148-161 | a contract some order references stays; otherwise it goes |
| ContratManager.Refreshed | business/contrat_manager.py:173-180 | an active contract with an end date gets the flag of that date; any other is unchanged |
| ContratManager.RefreshedIdempotent | business/contrat_manager.py:165-182 | refreshing twice is refreshing once |
| ContratManager.UpdateAlerts | business/contrat_manager.py:163-182 | every contract is refreshed, none added or removed, and the count is the number of watched contracts in the window |
| TodoManager.PrioriteRank | business/todo_manager.py:29 | Urgente, then Haute, then Normale, then anything else |
| TodoManager.GetAllTodos | business/todo_manager.py:20-32 | exactly the tasks of the state asked for, by priority, then earliest due date |
| TodoManager.CreateTodoCheck | business/todo_manager.py:44-50 | the create is refused iff the subject is blank or the priority is not allowed |
| TodoManager.NewTodo | business/todo_manager.py:52-60 | the stored task has the given fields and is open, with no completion date |
| TodoManager.CreateTodo | business/todo_manager.py:42-63 | a refused create changes nothing; otherwise the open task is stored under the next id |
| TodoManager.UpdateTodoCheck | business/todo_manager.py:65-76 | the update is refused iff the id is missing or the create checks fail |
| TodoManager.EditedTodo | business/todo_manager.py:78-88 | the editable fields are written; the completion state is kept |
| TodoManager.UpdateTodo | business/todo_manager.py:65-91 | a refused update changes nothing; otherwise only that task is edited (a missing row: no change) |
| TodoManager.Toggled | business/todo_manager.py:99-104 | the state flips; a completion time is present iff the task is now complete, and it is `now` |
| TodoManager.ToggledTwice | business/todo_manager.py:93-108 | completing and reopening a task gives it back |
| TodoManager.ToggleComplete | business/todo_manager.py:93-108 | a missing task fails and changes nothing; otherwise only that task is toggled |
| TodoManager.DeleteTodo | business/todo_manager.py:110-117 | the row goes, with no check |
| TodoManager.RenewalTodoValid | business/todo_manager.py:131-139 | the renewal task passes the create checks |
| TodoManager.SyncOne | business/todo_manager.py:124-144 | one flagged contract gets a renewal task iff it has no open task, and the count grows by the tasks added |
| TodoManager.SyncEach | business/todo_manager.py:124-144 | after the loop, every handled contract has an open task, existing tasks are kept, and the count is the number of tasks added |
| TodoManager.SyncContratsToTodo | business/todo_manager.py:119-146 | existing tasks are kept; every flagged contract ends up with an open task; each added task is the renewal task of a flagged contract; the count is the number of flagged contracts that had no open task, and the number of rows added |
| TodoManager.SyncTwice | business/todo_manager.py:119-146 | a second synchronisation with nothing completed in between creates nothing |
| AlertManager.GetContratAlerts | business/alert_manager.py:25-48 | exactly the flagged active contracts with a client row, earliest end date first |
| AlertManager.GetContratsExpiring | business/alert_manager.py:50-74 | exactly the active contracts with a client row whose end date is at most `days` ahead, ended ones included, earliest first |
| AlertManager.ContratAlertsAreUpcoming | business/alert_manager.py:25-74 | with up-to-date flags, the contract alerts are the contracts expiring within 180 days that have not ended |
| AlertManager.ExpiredStillExpiring | business/alert_manager.py:50-74 | an active contract that has already ended is reported as expiring, though it carries no alert |
| AlertManager.Pourcentage | business/alert_manager.py:91 | the available share in percent of the grant, 0 when nothing was granted |
| AlertManager.GetBudgetAlerts | business/alert_manager.py:76-102 | exactly this year's budgets with a client row and less than a tenth available, with their percentage, least available first |
| AlertManager.BudgetAlertsBelowTenPercent | business/alert_manager.py:76-102 | every budget alert shows less than ten percent; a budget with no grant is reported only in deficit |
| AlertManager.GetBcEnAttente | business/alert_manager.py:104-128 | exactly the unvalidated orders with a client row, greatest number first |
| AlertManager.GetAllAlerts | business/alert_manager.py:16-23 | the three lists of the dashboard |
| AlertManager.GetAlertCount | business/alert_manager.py:130-138 | the total is the sum of the three counts |
| AlertManager.AlertCountCountsRows | business/alert_manager.py:130-138 | each count is the number of records its category's WHERE clause accepts |
| ClientManager.GetAllClients | business/client_manager.py:17-25 | exactly the active clients (all, on request), by name |
| ClientManager.ClientFieldsCheck | business/client_manager.py:38-48 | the fields are refused iff the name is blank, or an email or telephone is given and invalid |
| ClientManager.CreateClientCheck | business/client_manager.py:35-53 | the create is refused iff the fields are, or the name is held |
| ClientManager.CreateClient | business/client_manager.py:35-67 | a refused create changes nothing; otherwise the client is stored under the next id, names staying unique |
| ClientManager.UpdateClientCheck | business/client_manager.py:69-93 | the update is refused iff the id is missing, the fields are refused, or another client holds the name |
| ClientManager.UpdateClient | business/client_manager.py:69-110 | a refused update changes nothing; otherwise the row is rewritten (a missing row: no change) |
| ClientManager.WithActif | business/client_manager.py:112-128 | only the `actif` flag of that client changes |
| ClientManager.WithActifIdempotent | business/client_manager.py:112-128 | setting the flag twice is setting it once |
| ClientManager.ReactivateRestores | business/client_manager.py:112-128 | deactivating then activating an active client gives the table back |
| ClientManager.DeactivateClient | business/client_manager.py:112-119 | the client's flag goes off and nothing else changes |
| ClientManager.ActivateClient | business/client_manager.py:121-128 | the client's flag goes on and nothing else changes |
| ClientManager.DeactivatedHidden | business/client_manager.py:17-25 | a deactivated client leaves the default listing and stays in the full one |
| ContactManager.GetAllContacts | business/contact_manager.py:17-26 | exactly the contacts of the client asked for (all, when none), by name then first name |
| ContactManager.ContactFieldsCheck | business/contact_manager.py:39-53 | the fields are refused iff the name or first name is blank, or an email or telephone is given and invalid |
| ContactManager.CreateContact | business/contact_manager.py:36-67 | a refused create changes nothing; otherwise the contact is stored under the next id |
| ContactManager.UpdateContactCheck | business/contact_manager.py:69-89 | the update is refused iff the id is missing or the fields are refused |
| ContactManager.UpdateContact | business/contact_manager.py:69-105 | a refused update changes nothing; otherwise the row is rewritten (a missing row: no change) |
| ContactManager.DeleteContact | business/contact_manager.py:107-114 | the row goes |
| ContactManager.CreateThenDelete | business/contact_manager.py:36-114 | creating then deleting a contact gives the table back |
| ProjetManager.ProjetFieldsCheck | business/projet_manager.py:44-53 | the fields are refused iff the name is blank, the state is not allowed or the end precedes the start |
| ProjetManager.CreateProjetCheck | business/projet_manager.py:41-61 | the create is refused iff the fields are, or the name is held |
| ProjetManager.CreateProjet | business/projet_manager.py:41-81 | a bad date range fails without an id, other refusals with one, changing nothing; otherwise the project is stored under the next id |
| ProjetManager.UpdateProjetCheck | business/projet_manager.py:83-106 | the update is refused iff the id is missing, the fields are refused, or another project holds the name |
| ProjetManager.UpdateProjet | business/projet_manager.py:83-127 | a refused update changes nothing; otherwise the row is rewritten (a missing row: no change) |
| ProjetManager.DeleteProjet | business/projet_manager.py:129-137 | the row goes, and its investments and contacts stay |
| ProjetManager.AddInvestissementCheck | business/projet_manager.py:146-159 | the line is refused iff the project is missing, the type is not allowed or the amount is negative |
| ProjetManager.GetTotalInvestissements | business/projet_manager.py:210-216 | 0 for a project with no line; never negative when the amounts are not |
| ProjetManager.TotalAfterAdd | business/projet_manager.py:146-216 | adding a line adds its amount to its project's total and leaves other totals alone |
| ProjetManager.AddKeepsAmountsValid | business/projet_manager.py:146-173 | added lines keep every stored amount non-negative |
| ProjetManager.AddInvestissement | business/projet_manager.py:146-173 | a refused line changes nothing; otherwise it is stored under the next id |
| ProjetManager.AddContactSourcingCheck | business/projet_manager.py:225-236 | the contact is refused iff the project is missing or the name or first name is blank |
| ProjetManager.AddContactSourcing | business/projet_manager.py:225-250 | a refused contact changes nothing; otherwise it is stored under the next id |

## Left out

- The user interface (`ui/*.py`), the backup view, and the scripts `main.py`, `debug_import.py`, `fix_prospects_table.py` and `test_budget.py`: they are presentation or one-off scripts.
- The connection and SQL plumbing of `database/db_manager.py`: the tables are maps. An `Exception` raised by SQLite is modelled only where a constraint raises it (the UNIQUE key in `update_budget`); disk and connection errors are not modelled.
- Clock reads (`date.today()`, `datetime.now()`, SQLite's `'now'` and `CURRENT_TIMESTAMP`): they are parameters.
- AlertManager.ContratAlertsAreUpcoming: one `today` stands both for the local `date.today()` with which `check_alert` sets the flags (business/contrat_manager.py:188-203) and for SQLite's `date('now')`, which is the UTC date, in the alert query (business/alert_manager.py:50-74). Around midnight the two can differ by a day, and the lemma does not cover that window.
- `format_montant`, `format_percentage`, `format_size_kb`, `format_datetime` and `parse_datetime`: these are floating-point and date-time display helpers. Amounts are exact reals, and the 0.1 factor of the budget alert is exact.
- The `get_*_by_id` lookups: each is a map lookup.
- `get_all_projets`, `get_investissements`, `get_contacts_sourcing`, `update_investissement`, `delete_investissement`, `update_contact_sourcing` and `delete_contact_sourcing`: plain listings, edits and deletes of the project tables, with the same shape as the project operations that are modelled; they are not part of this model.
- The `_row_to_*` converters and the dictionaries that the alert queries build: each result is the record itself, with the budget alert's percentage beside it.
- Concurrency: the check-then-validate of `valider_bc` and the read-then-insert numbering are modelled sequentially.
- ON DELETE CASCADE / SET NULL: they are not in force on the application's connections.
- AlertManager.GetContratsExpiring: `days` is a natural number. A negative `days` would put the SQLite date before today; callers only pass 180.
- Dates.Date: dates run from year 1 to 9999. Neither `timedelta` overflow past year 9999 nor SQLite's own date arithmetic limits are modelled.
- ContratManager.CheckAlert: ends 180 days after `today` by day count, as `timedelta(days=180)` does. That is the same test; no month arithmetic is involved.
- BudgetManager.ReportBudgets: with `from_year == 0` every budget is listed, so several sources can share a client and nature, and the code carries the first of them in listing order. The contract says only that each added row is carried from some listed budget, not which one.
- BcManager.CreateBc: generates missing numbers with the corrected `GenerateFreshNumero` rather than with the code as written (see Findings). Both are modelled, and `BcNumbering.GeneratorsAgree` shows they agree while the year's numbers are generated ones up to 9999. Where they part, the code raises, fails as a duplicate, or stores a different number from the model's:
  - a last field that is not an integer (a manual `BC-2025-A1`) makes `int()` raise `ValueError` at business/bc_manager.py:67. That call sits outside the `try` of `create_bc` (business/bc_manager.py:99-101), so the exception escapes, while the model creates the order;
  - an unpadded manual number such as `BC-2025-9` sorts after `BC-2025-0010` in text order. The code then proposes `BC-2025-0010` again and fails as a duplicate, while the model creates the order;
  - with `BC-2025-9` and `BC-2025-0020` on file, text order picks `BC-2025-9`, so the code stores `BC-2025-0010`, while the model stores `BC-2025-0021`;
  - past sequence 9999 (`BC-2025-9999` and `BC-2025-10000` on file) the code proposes a number already on file and fails as a duplicate on every later call, while the model creates the order (see Findings);
  - `create_bc` writes the generated number back into the caller's `bc` object (business/bc_manager.py:100). The model returns the outcome and leaves the caller's value alone.
- BcManager.ValiderBc: models the intended validation. As written, `valider_bc` raises `AttributeError` at business/bc_manager.py:197 for every existing draft order, because `BudgetManager` has no `check_disponibilite`. The raise comes before the UPDATE and outside the `try` of business/bc_manager.py:201-207, so the application never validates an order and the imputation trigger never fires (`BcManager.ValiderBcAsWritten`, see Findings). `check` stands for the missing availability check, whose body is not in the code.
- Validators.ValidateDate: acceptance is stated through `Dates.Strptime`; the month and day forms `strptime` allows are modelled there.
- Validators.ValidateAnnee and Validators.ValidateMontant: predicates that are the validators themselves; the year check takes the current year as a parameter.
- Text.Strip, Validators.ValidateTelephone, Validators.ValidateRequiredField, Validators.ValidateCodePostal, Validators.ValidateNumeroBc, Validators.ValidateDate, Dates.Strptime, Formatters.ParseDate, Formatters.FormatEmail, Formatters.FormatTelephone, BcNumbering.PyInt and BcNumbering.GenerateNextNumero: white space, digits and case are ASCII only, where Python's `str.strip`, `\s`, `\d`, `isdigit` and `lower` follow Unicode. So a no-break space `\xa0` passes the phone pattern in Python, and `ValidateTelephone` refuses it. A name `"\xa0"` fails `validate_required_field` in Python, and the model accepts it. `"É".lower()` is `"é"`, and `FormatEmail` keeps `"É"`. `"²"` passes `isdigit`, and the model rejects it. The full-width `BC-２０２５-0001` passes `validate_numero_bc` in Python, and `ValidateNumeroBc` refuses it; likewise `%Y` in `strptime` reads four Unicode digits, and `Strptime`, `ParseDate` and `ValidateDate` take ASCII digits only. Python's `int` also accepts underscores between digits, so `int("0_9") == 9`, while `PyInt` gives `None`: with a manual `BC-2025-0_9` on file, the as-written `GenerateNextNumero` gives `None` where the code proposes `BC-2025-0010`.
- Formatters.FormatDate and Formatters.ParseFormatDate: the printed year always has four digits, as `isoformat` writes it. On glibc, `strftime` does not pad a `%Y` below 1000, so for those years the code prints a shorter year than the model, and `strptime` may not read it back.
- Text order is by code point, as SQLite's default collation orders text; `LIKE` compares ASCII letters without regard to case.

## Findings

| source | as written | input that shows it | evidently intended | confidence | as-written member | corrected member |
|---|---|---|---|---|---|---|
| business/bc_manager.py:56-71 | the next number is the sequence of the greatest number of the year in text order, plus one | `BC-2025-9999` and `BC-2025-10000` on file: text order picks `BC-2025-9999`, and the generator proposes `BC-2025-10000`, which exists, so `create_bc` fails as a duplicate on every later call | the greatest sequence of the year by value, plus one, a number never on file | not executed | BcNumbering.GenerateNextNumeroRepeats | BcNumbering.NumeroFresh |
| business/bc_manager.py:187-207 | `valider_bc` calls `budget_manager.check_disponibilite`, which `BudgetManager` (business/budget_manager.py) does not define; its one caller passes a `BudgetManager` | any order that exists and is not yet validated: `AttributeError` is raised at line 197, outside the `try`, so the order stays a draft and no budget is debited | the availability check is called, and the order is validated and its budgets debited when it passes | not executed | BcManager.ValiderBcAsWritten | BcManager.ValiderBc |

=== FILE: alert_manager.dfy ===
/**
 * The dashboard's alerts: flagged active contracts, contracts that end
 * within a number of days, current-year budgets that are nearly spent, and
 * purchase orders waiting for validation. Every query is an inner JOIN on
 * the client table, so a row whose client is missing is never reported.
 */
module AlertManager {
  import opened Wrappers
  import opened Text
  import opened Dates
  import opened Models
  import opened Sorting
  import opened ContratManager
  import opened BcManager

  // ---------------------------------------------------------------- contracts

  /** The WHERE clause of `get_contrat_alerts`: flagged, active, with a client row. */
  function ContratAlertFilter(clients: map<nat, Client>): Contrat -> bool {
    (c: Contrat) => c.clientId in clients && c.alerte6Mois && c.statut == "Actif"
  }

  /** `get_contrat_alerts`: the flagged active contracts, earliest end date first. */
  function GetContratAlerts(contrats: map<nat, Contrat>, clients: map<nat, Client>): (r: seq<Contrat>)
    ensures forall c :: c in r <==>
              c in contrats.Values && c.clientId in clients && c.alerte6Mois && c.statut == "Actif"
    ensures forall i, j :: 0 <= i < j < |r| ==> NoLater(r[i].dateFin, r[j].dateFin)
  {
    var r := Select(contrats, ContratAlertFilter(clients), ContratListKey);
    forall i, j | 0 <= i < j < |r| ensures NoLater(r[i].dateFin, r[j].dateFin) {
      ContratListKeyOrder(r[i], r[j]);
    }
    r
  }

  /**
   * The WHERE clause of `get_contrats_expiring(days)` on day `today`: an
   * active contract whose end date is at most `days` days ahead. A missing
   * end date compares as NULL and is never kept; there is no lower bound,
   * so a contract that has already ended is kept too.
   */
  function ExpiringFilter(clients: map<nat, Client>, today: Date, days: nat): Contrat -> bool {
    (c: Contrat) => c.clientId in clients && c.statut == "Actif" && c.dateFin.Some?
                    && Ordinal(c.dateFin.value) <= Ordinal(today) + days
  }

  /** `get_contrats_expiring(days)`: the active contracts ending by `today + days`, earliest first. */
  function GetContratsExpiring(contrats: map<nat, Contrat>, clients: map<nat, Client>, today: Date, days: nat)
    : (r: seq<Contrat>)
    ensures forall c :: c in r <==>
              c in contrats.Values && c.clientId in clients && c.statut == "Actif" && c.dateFin.Some?
              && Ordinal(c.dateFin.value) <= Ordinal(today) + days
    ensures forall i, j :: 0 <= i < j < |r| ==> NoLater(r[i].dateFin, r[j].dateFin)
  {
    var r := Select(contrats, ExpiringFilter(clients, today, days), ContratListKey);
    forall i, j | 0 <= i < j < |r| ensures NoLater(r[i].dateFin, r[j].dateFin) {
      ContratListKeyOrder(r[i], r[j]);
    }
    r
  }

  /** The dashboard's window: 180 days, the same as the alert flag's. */
  const DashboardDays: nat := 180

  /**
   * Every active contract carries the flag that `_check_alert` gives its
   * end date today (what create, update and the alert sweep leave behind).
   */
  ghost predicate FlagsFresh(contrats: map<nat, Contrat>, today: Date) {
    forall c :: c in contrats.Values && c.statut == "Actif" ==> c.alerte6Mois == CheckAlert(c.dateFin, today)
  }

  /**
   * With fresh flags, the contract alerts are exactly the contracts
   * expiring within the dashboard's 180 days that have not ended yet.
   */
  lemma ContratAlertsAreUpcoming(contrats: map<nat, Contrat>, clients: map<nat, Client>, today: Date, c: Contrat)
    requires FlagsFresh(contrats, today)
    ensures c in GetContratAlerts(contrats, clients) <==>
              c in GetContratsExpiring(contrats, clients, today, DashboardDays)
              && Ordinal(today) <= Ordinal(c.dateFin.value)
  {
  }

  /** A contract that ended before today, active and with a client, is still reported as expiring. */
  lemma ExpiredStillExpiring(contrats: map<nat, Contrat>, clients: map<nat, Client>, today: Date, days: nat,
                             c: Contrat)
    requires c in contrats.Values && c.clientId in clients && c.statut == "Actif"
    requires c.dateFin.Some? && Ordinal(c.dateFin.value) < Ordinal(today)
    ensures c in GetContratsExpiring(contrats, clients, today, days)
    ensures !CheckAlert(c.dateFin, today)
  {
  }

  // ---------------------------------------------------------------- budgets

  /** A budget alert: the budget row and the share of it still available, in percent. */
  datatype BudgetAlert = BudgetAlert(budget: Budget, pourcentage: real)

  /** `montant_disponible / montant_initial * 100`, or 0 when nothing was granted. */
  function Pourcentage(b: Budget): (p: real)
    ensures b.montantInitial > 0.0 ==> p * b.montantInitial == b.montantDisponible * 100.0
    ensures b.montantInitial <= 0.0 ==> p == 0.0
  {
    if b.montantInitial > 0.0 then b.montantDisponible / b.montantInitial * 100.0 else 0.0
  }

  /** The WHERE clause of `get_budget_alerts`: this year's budgets with less than a tenth left. */
  function LowBudgetFilter(clients: map<nat, Client>, currentYear: int): Budget -> bool {
    (b: Budget) => b.clientId in clients && b.annee == currentYear
                   && b.montantDisponible < b.montantInitial * 0.1
  }

  /** `ORDER BY b.montant_disponible`, then the row id. */
  function LowBudgetKey(b: Budget): seq<Atom> {
    [Amount(b.montantDisponible), Num(b.id)]
  }

  lemma LowBudgetKeyOrder(x: Budget, y: Budget)
    requires KeyLe(LowBudgetKey(x), LowBudgetKey(y))
    ensures x.montantDisponible <= y.montantDisponible
  {
  }

  function ToBudgetAlerts(rows: seq<Budget>): (r: seq<BudgetAlert>)
    ensures |r| == |rows|
    ensures forall i :: 0 <= i < |r| ==> r[i] == BudgetAlert(rows[i], Pourcentage(rows[i]))
  {
    seq(|rows|, i requires 0 <= i < |rows| => BudgetAlert(rows[i], Pourcentage(rows[i])))
  }

  /** `get_budget_alerts()` in year `currentYear`: the nearly spent budgets, least available first. */
  function GetBudgetAlerts(budgets: map<nat, Budget>, clients: map<nat, Client>, currentYear: int)
    : (r: seq<BudgetAlert>)
    ensures forall a :: a in r <==>
              a.budget in budgets.Values && a.budget.clientId in clients && a.budget.annee == currentYear
              && a.budget.montantDisponible < a.budget.montantInitial * 0.1
              && a.pourcentage == Pourcentage(a.budget)
    ensures forall i, j :: 0 <= i < j < |r| ==> r[i].budget.montantDisponible <= r[j].budget.montantDisponible
  {
    var rows := Select(budgets, LowBudgetFilter(clients, currentYear), LowBudgetKey);
    var r := ToBudgetAlerts(rows);
    forall i, j | 0 <= i < j < |r| ensures r[i].budget.montantDisponible <= r[j].budget.montantDisponible {
      LowBudgetKeyOrder(rows[i], rows[j]);
    }
    forall a: BudgetAlert | a in r ensures a.budget in rows && a.pourcentage == Pourcentage(a.budget) {
      var i :| 0 <= i < |r| && r[i] == a;
    }
    forall a: BudgetAlert | a.budget in rows && a.pourcentage == Pourcentage(a.budget) ensures a in r {
      var i :| 0 <= i < |rows| && rows[i] == a.budget;
      assert r[i] == a;
    }
    r
  }

  /**
   * Every budget alert reports less than ten percent available, and a
   * budget with nothing granted is reported only when it is in deficit.
   */
  lemma BudgetAlertsBelowTenPercent(budgets: map<nat, Budget>, clients: map<nat, Client>, currentYear: int,
                                    a: BudgetAlert)
    requires a in GetBudgetAlerts(budgets, clients, currentYear)
    ensures a.pourcentage < 10.0
    ensures a.budget.montantInitial <= 0.0 ==> a.budget.montantDisponible < 0.0
  {
    var b := a.budget;
    if b.montantInitial > 0.0 {
      assert a.pourcentage * b.montantInitial == b.montantDisponible * 100.0;
      assert b.montantDisponible * 100.0 < b.montantInitial * 10.0;
    }
  }

  // ---------------------------------------------------------------- purchase orders

  /** The WHERE clause of `get_bc_en_attente`: not validated, with a client row. */
  function PendingFilter(clients: map<nat, Client>): BonCommande -> bool {
    (bc: BonCommande) => bc.clientId in clients && !bc.valide
  }

  /** `get_bc_en_attente`: the orders waiting for validation, greatest number first. */
  function GetBcEnAttente(bcs: map<nat, BonCommande>, clients: map<nat, Client>): (r: seq<BonCommande>)
    ensures forall bc :: bc in r <==> bc in bcs.Values && bc.clientId in clients && !bc.valide
    ensures forall i, j :: 0 <= i < j < |r| ==> StrLe(r[j].numeroBc, r[i].numeroBc)
  {
    var r := Select(bcs, PendingFilter(clients), BcListKey);
    forall i, j | 0 <= i < j < |r| ensures StrLe(r[j].numeroBc, r[i].numeroBc) {
      BcListKeyOrder(r[i], r[j]);
    }
    r
  }

  // ---------------------------------------------------------------- all alerts and their count

  datatype Alerts = Alerts(contrats: seq<Contrat>, budgets: seq<BudgetAlert>, bcsEnAttente: seq<BonCommande>)

  /** `get_all_alerts()`: the three lists the dashboard shows. */
  function GetAllAlerts(contrats: map<nat, Contrat>, budgets: map<nat, Budget>, bcs: map<nat, BonCommande>,
                        clients: map<nat, Client>, currentYear: int): (a: Alerts)
    ensures a.contrats == GetContratAlerts(contrats, clients)
    ensures a.budgets == GetBudgetAlerts(budgets, clients, currentYear)
    ensures a.bcsEnAttente == GetBcEnAttente(bcs, clients)
  {
    Alerts(GetContratAlerts(contrats, clients), GetBudgetAlerts(budgets, clients, currentYear),
           GetBcEnAttente(bcs, clients))
  }

  datatype AlertCount = AlertCount(contrats: nat, budgets: nat, bcsEnAttente: nat, total: nat)

  /** `get_alert_count()`: the length of each list and their sum. */
  function GetAlertCount(contrats: map<nat, Contrat>, budgets: map<nat, Budget>, bcs: map<nat, BonCommande>,
                         clients: map<nat, Client>, currentYear: int): (n: AlertCount)
    ensures n.total == n.contrats + n.budgets + n.bcsEnAttente
  {
    var a := GetAllAlerts(contrats, budgets, bcs, clients, currentYear);
    AlertCount(|a.contrats|, |a.budgets|, |a.bcsEnAttente|, |a.contrats| + |a.budgets| + |a.bcsEnAttente|)
  }

  /**
   * Each count is the number of table rows the category's WHERE clause
   * accepts: one row reported per matching record, none twice.
   */
  lemma AlertCountCountsRows(contrats: map<nat, Contrat>, budgets: map<nat, Budget>, bcs: map<nat, BonCommande>,
                             clients: map<nat, Client>, currentYear: int)
    ensures GetAlertCount(contrats, budgets, bcs, clients, currentYear).contrats
              == |SelectedIds(contrats, ContratAlertFilter(clients))|
    ensures GetAlertCount(contrats, budgets, bcs, clients, currentYear).budgets
              == |SelectedIds(budgets, LowBudgetFilter(clients, currentYear))|
    ensures GetAlertCount(contrats, budgets, bcs, clients, currentYear).bcsEnAttente
              == |SelectedIds(bcs, PendingFilter(clients))|
  {
    SelectCount(contrats, ContratAlertFilter(clients), ContratListKey);
    SelectCount(budgets, LowBudgetFilter(clients, currentYear), LowBudgetKey);
    SelectCount(bcs, PendingFilter(clients), BcListKey);
  }
}

=== FILE: bc_manager.dfy ===
/**
 * Purchase orders ("bons de commande"): a one-way life from draft to
 * validated. A draft can be edited and deleted; validation debits the
 * order's budget for the current year through the imputation trigger and
 * freezes the order for good.
 */
module BcManager {
  import opened Wrappers
  import opened Text
  import opened Validators
  import opened Models
  import opened Sorting
  import opened Tables
  import opened BcNumbering
  import BudgetManager

  // ---------------------------------------------------------------- listing

  /** `ORDER BY bc.numero_bc DESC`, then the row id. */
  function BcListKey(bc: BonCommande): seq<Atom> {
    [Desc(bc.numeroBc), Num(bc.id)]
  }

  /**
   * The WHERE clause of `get_all_bcs`: the client row must exist (inner
   * JOIN); `valide` filters only when given, `nature` only when not empty.
   */
  predicate BcListed(bc: BonCommande, clients: map<nat, Client>, valide: Option<bool>, nature: string) {
    bc.clientId in clients && (valide.None? || bc.valide == valide.value) && (nature == "" || bc.nature == nature)
  }

  /** A key that is not greater than another has a number not smaller in text order. */
  lemma BcListKeyOrder(x: BonCommande, y: BonCommande)
    requires KeyLe(BcListKey(x), BcListKey(y))
    ensures StrLe(y.numeroBc, x.numeroBc)
  {
    if x.numeroBc == y.numeroBc {
      StrLeReflexive(x.numeroBc);
    }
  }

  /** `get_all_bcs(valide, nature)`: the listed orders, greatest number first. */
  function GetAllBcs(bcs: map<nat, BonCommande>, clients: map<nat, Client>, valide: Option<bool>, nature: string)
    : (r: seq<BonCommande>)
    ensures forall bc :: bc in r <==> bc in bcs.Values && BcListed(bc, clients, valide, nature)
    ensures forall i, j :: 0 <= i < j < |r| ==> StrLe(r[j].numeroBc, r[i].numeroBc)
  {
    var r := Select(bcs, (bc: BonCommande) => BcListed(bc, clients, valide, nature), BcListKey);
    forall i, j | 0 <= i < j < |r| ensures StrLe(r[j].numeroBc, r[i].numeroBc) {
      BcListKeyOrder(r[i], r[j]);
    }
    r
  }

  // ---------------------------------------------------------------- create

  /** A type from the allowed list is never blank. */
  lemma KindRequired(kind: string)
    ensures kind in TypesBc ==> ValidateRequiredField(kind)
  {
    if kind in TypesBc {
      RequiredFieldOfAllowed(kind, TypesBc);
    }
  }

  /** The field checks of `create_bc`, in their order. */
  function CreateBcCheck(bc: BonCommande): (e: Option<Error>)
    ensures e.None? <==> bc.clientId != 0 && bc.nature in Natures && bc.kind in TypesBc && bc.montant > 0.0
    ensures bc.clientId == 0 ==> e == Some(ClientRequired)
    ensures e == Some(NonPositiveAmount) <==>
              bc.clientId != 0 && bc.nature in Natures && bc.kind in TypesBc && bc.montant == 0.0
    ensures e == Some(InvalidAmount) ==> bc.montant < 0.0
  {
    KindRequired(bc.kind);
    BudgetManager.NatureRequired(bc.nature);
    if bc.clientId == 0 then Some(ClientRequired)
    else if !ValidateRequiredField(bc.nature) then Some(FieldRequired("Nature"))
    else if bc.nature !in Natures then Some(InvalidNature)
    else if !ValidateRequiredField(bc.kind) then Some(FieldRequired("Type"))
    else if bc.kind !in TypesBc then Some(InvalidType)
    else if !ValidateMontant(bc.montant) then Some(InvalidAmount)
    else if bc.montant <= 0.0 then Some(NonPositiveAmount)
    else None
  }

  /** The number the order is stored under: its own, or the next one of the year when it has none. */
  function NumeroFor(bc: BonCommande, bcs: map<nat, BonCommande>, currentYear: int): (numero: string)
    ensures bc.numeroBc != "" ==> numero == bc.numeroBc
    ensures bc.numeroBc == "" ==> OfYear(numero, currentYear) && forall k :: k in bcs ==> bcs[k].numeroBc != numero
  {
    if bc.numeroBc != "" then bc.numeroBc
    else
      NumeroFresh(bcs, currentYear);
      GenerateFreshNumero(bcs, currentYear)
  }

  /**
   * While the year's numbers are all generated ones with four-digit
   * sequences, the number given to an order without one is the number
   * `generate_next_numero` hands out as written.
   */
  lemma NumeroForAsWritten(bc: BonCommande, bcs: map<nat, BonCommande>, currentYear: int)
    requires bc.numeroBc == "" && CanonicalYear(bcs, currentYear)
    ensures GenerateNextNumero(bcs, currentYear) == Some(NumeroFor(bc, bcs, currentYear))
  {
    GeneratorsAgree(bcs, currentYear);
  }

  /** Some order already has the number. */
  predicate NumeroTaken(bcs: map<nat, BonCommande>, numero: string) {
    exists k :: k in bcs && bcs[k].numeroBc == numero
  }

  /** The row the INSERT of `create_bc` stores: a draft, never validated. */
  function NewBc(bc: BonCommande, id: nat, numero: string): (row: BonCommande)
    ensures row.id == id && row.numeroBc == numero && !row.valide && row.dateValidation.None?
    ensures row.clientId == bc.clientId && row.contratId == bc.contratId && row.montant == bc.montant
    ensures row.nature == bc.nature && row.kind == bc.kind
  {
    bc.(id := id, numeroBc := numero, valide := false, dateValidation := None)
  }

  /**
   * `create_bc`. An order without a number gets the next one of the
   * current year, which is never taken, so such a create only fails on
   * its fields.
   */
  method CreateBc(db: Database, bc: BonCommande, currentYear: int) returns (o: Outcome)
    requires db.ValidBcs()
    modifies db`bcs, db`lastBc
    ensures db.ValidBcs()
    ensures CreateBcCheck(bc).Some? ==>
              o == Failed(CreateBcCheck(bc).value) && db.bcs == old(db.bcs) && db.lastBc == old(db.lastBc)
    ensures CreateBcCheck(bc).None? && NumeroTaken(old(db.bcs), NumeroFor(bc, old(db.bcs), currentYear)) ==>
              o == Failed(Duplicate) && db.bcs == old(db.bcs) && db.lastBc == old(db.lastBc)
    ensures CreateBcCheck(bc).None? && !NumeroTaken(old(db.bcs), NumeroFor(bc, old(db.bcs), currentYear)) ==>
              o == Created(old(db.lastBc) + 1) && o.id !in old(db.bcs)
              && db.bcs == old(db.bcs)[o.id := NewBc(bc, o.id, NumeroFor(bc, old(db.bcs), currentYear))]
              && db.lastBc == o.id
    ensures CreateBcCheck(bc).None? && bc.numeroBc == "" ==> o.Created?
  {
    var e := CreateBcCheck(bc);
    if e.Some? {
      return Failed(e.value);
    }
    var numero := NumeroFor(bc, db.bcs, currentYear);
    if exists k | k in db.bcs :: db.bcs[k].numeroBc == numero {
      return Failed(Duplicate);
    }
    ghost var before := db.bcs;
    var id := db.InsertBc(NewBc(bc, 0, numero));
    assert NewBc(bc, 0, numero).(id := id) == NewBc(bc, id, numero);
    o := Created(id);
  }

  // ---------------------------------------------------------------- update and delete

  /** The checks of `update_bc`, in their order: the stored order first, then the new fields. */
  function UpdateBcCheck(bc: BonCommande, bcs: map<nat, BonCommande>): (e: Option<Error>)
    ensures e.None? <==> bc.id != 0 && bc.id in bcs && !bcs[bc.id].valide && bc.clientId != 0
                         && bc.nature in Natures && bc.kind in TypesBc && bc.montant > 0.0
    ensures bc.id != 0 && bc.id in bcs && bcs[bc.id].valide ==> e == Some(ValidatedLocked)
    ensures bc.id !in bcs ==> e == Some(IdRequired) || e == Some(NotFound)
  {
    if bc.id == 0 then Some(IdRequired)
    else if bc.id !in bcs then Some(NotFound)
    else if bcs[bc.id].valide then Some(ValidatedLocked)
    else if bc.clientId == 0 then Some(ClientRequired)
    else if bc.nature !in Natures then Some(InvalidNature)
    else if bc.kind !in TypesBc then Some(InvalidType)
    else if !ValidateMontant(bc.montant) then Some(InvalidAmount)
    else if bc.montant <= 0.0 then Some(NonPositiveAmount)
    else None
  }

  /**
   * The row after `update_bc`'s UPDATE: client, contract, nature, type,
   * service, amount and description are written; the number and the
   * validation state are not.
   */
  function EditedBc(row: BonCommande, bc: BonCommande): (r: BonCommande)
    ensures r.id == row.id && r.numeroBc == row.numeroBc
    ensures r.valide == row.valide && r.dateValidation == row.dateValidation
    ensures r.clientId == bc.clientId && r.contratId == bc.contratId && r.nature == bc.nature
    ensures r.kind == bc.kind && r.serviceDemandeur == bc.serviceDemandeur
    ensures r.montant == bc.montant && r.description == bc.description
  {
    row.(clientId := bc.clientId, contratId := bc.contratId, nature := bc.nature, kind := bc.kind,
         serviceDemandeur := bc.serviceDemandeur, montant := bc.montant, description := bc.description)
  }

  /** `update_bc`: only a draft can change, and it stays a draft. */
  method UpdateBc(db: Database, bc: BonCommande) returns (o: Outcome)
    requires db.ValidBcs()
    modifies db`bcs
    ensures db.ValidBcs()
    ensures UpdateBcCheck(bc, old(db.bcs)).Some? ==>
              o == Failed(UpdateBcCheck(bc, old(db.bcs)).value) && db.bcs == old(db.bcs)
    ensures UpdateBcCheck(bc, old(db.bcs)).None? ==>
              o == Done && db.bcs == old(db.bcs)[bc.id := EditedBc(old(db.bcs)[bc.id], bc)]
  {
    var e := UpdateBcCheck(bc, db.bcs);
    if e.Some? {
      return Failed(e.value);
    }
    db.ReplaceBc(EditedBc(db.bcs[bc.id], bc));
    o := Done;
  }

  /** `delete_bc`: a draft goes; a validated or missing order stays as it is. */
  method DeleteBc(db: Database, id: nat) returns (o: Outcome)
    requires db.ValidBcs()
    modifies db`bcs
    ensures db.ValidBcs()
    ensures id !in old(db.bcs) ==> o == Failed(NotFound) && db.bcs == old(db.bcs)
    ensures id in old(db.bcs) && old(db.bcs)[id].valide ==> o == Failed(ValidatedLocked) && db.bcs == old(db.bcs)
    ensures id in old(db.bcs) && !old(db.bcs)[id].valide ==> o == Done && db.bcs == old(db.bcs) - {id}
  {
    if id !in db.bcs {
      return Failed(NotFound);
    }
    if db.bcs[id].valide {
      return Failed(ValidatedLocked);
    }
    db.RemoveBc(id);
    o := Done;
  }

  // ---------------------------------------------------------------- validation

  /**
   * `valider_bc` as written. The budget manager it is handed has no
   * `check_disponibilite`, so for an order that exists and is not yet
   * validated the call raises `AttributeError` before the UPDATE and outside
   * the `try`; `None` stands for that raise. No order is ever validated, and
   * the method changes no table (it modifies nothing).
   */
  method ValiderBcAsWritten(db: Database, id: nat) returns (o: Option<Outcome>)
    ensures id !in db.bcs ==> o == Some(Failed(NotFound))
    ensures id in db.bcs && db.bcs[id].valide ==> o == Some(Failed(AlreadyValidated))
    ensures o == None <==> id in db.bcs && !db.bcs[id].valide
    ensures o != Some(Done)
  {
    if id !in db.bcs {
      return Some(Failed(NotFound));
    }
    if db.bcs[id].valide {
      return Some(Failed(AlreadyValidated));
    }
    o := None;
  }

  /**
   * `valider_bc` as intended. `check` stands for the budget manager's availability
   * check on the order's client, nature and amount, which the application
   * calls but does not define. A successful validation sets the flag, and
   * the trigger debits the matching budgets of `currentYear` and stamps the
   * order with `now`; an order is never validated, or debited, twice.
   */
  method ValiderBc(db: Database, id: nat, check: (nat, string, real) -> bool, currentYear: int, now: Timestamp)
    returns (o: Outcome)
    requires db.ValidBudgets() && db.ValidBcs()
    modifies db`bcs, db`budgets
    ensures db.ValidBudgets() && db.ValidBcs()
    ensures id !in old(db.bcs) ==>
              o == Failed(NotFound) && db.bcs == old(db.bcs) && db.budgets == old(db.budgets)
    ensures id in old(db.bcs) && old(db.bcs)[id].valide ==>
              o == Failed(AlreadyValidated) && db.bcs == old(db.bcs) && db.budgets == old(db.budgets)
    ensures id in old(db.bcs) && !old(db.bcs)[id].valide
            && !check(old(db.bcs)[id].clientId, old(db.bcs)[id].nature, old(db.bcs)[id].montant) ==>
              o == Failed(ValidationImpossible) && db.bcs == old(db.bcs) && db.budgets == old(db.budgets)
    ensures id in old(db.bcs) && !old(db.bcs)[id].valide
            && check(old(db.bcs)[id].clientId, old(db.bcs)[id].nature, old(db.bcs)[id].montant) ==>
              o == Done
              && db.bcs == old(db.bcs)[id := old(db.bcs)[id].(valide := true, dateValidation := Some(now))]
              && db.budgets == Impute(old(db.budgets), old(db.bcs)[id].clientId, old(db.bcs)[id].nature,
                                      currentYear, old(db.bcs)[id].montant)
  {
    if id !in db.bcs {
      return Failed(NotFound);
    }
    var bc := db.bcs[id];
    if bc.valide {
      return Failed(AlreadyValidated);
    }
    if !check(bc.clientId, bc.nature, bc.montant) {
      return Failed(ValidationImpossible);
    }
    db.SetValide(id, currentYear, now);
    o := Done;
  }

  // ---------------------------------------------------------------- statistics

  /** The ids of the orders numbered in `year`. */
  ghost function YearIds(bcs: map<nat, BonCommande>, year: int): set<nat> {
    set k | k in bcs && OfYear(bcs[k].numeroBc, year)
  }

  /** The orders numbered in `year`, in id order: the rows the `GROUP BY` reads. */
  function YearBcs(bcs: map<nat, BonCommande>, year: int): (r: seq<BonCommande>)
    ensures forall bc :: bc in r <==> bc in bcs.Values && OfYear(bc.numeroBc, year)
    decreases |bcs|
  {
    if bcs == map[] then []
    else
      var k := MaxKey(bcs.Keys);
      ValuesRemove(bcs, k);
      var t := YearBcs(bcs - {k}, year);
      if OfYear(bcs[k].numeroBc, year) then t + [bcs[k]] else t
  }

  /** Every order of the year is read once. */
  lemma {:induction false} YearBcsCount(bcs: map<nat, BonCommande>, year: int)
    ensures |YearBcs(bcs, year)| == |YearIds(bcs, year)|
    decreases |bcs|
  {
    if bcs == map[] {
      assert YearIds(bcs, year) == {};
    } else {
      var k := MaxKey(bcs.Keys);
      var rest := bcs - {k};
      YearBcsCount(rest, year);
      var ids := YearIds(bcs, year);
      var restIds := YearIds(rest, year);
      assert restIds == ids - {k} by {
        forall j ensures j in restIds <==> j in ids - {k} {
          if j in rest {
            assert rest[j] == bcs[j];
          }
        }
      }
      if OfYear(bcs[k].numeroBc, year) {
        assert k in ids;
        assert |ids| == |restIds| + 1;
      } else {
        assert k !in ids;
        assert ids == restIds;
      }
    }
  }

  /** One row of `GROUP BY nature, valide`: the group's size and total amount. */
  datatype GroupRow = GroupRow(nature: string, valide: bool, nbBcs: nat, totalMontant: real)

  /** Counts one more order into its (nature, valide) group, opening the group when it is new. */
  function AddToGroups(gs: seq<GroupRow>, bc: BonCommande): (r: seq<GroupRow>)
    ensures |r| >= 1
    decreases |gs|
  {
    if gs == [] then [GroupRow(bc.nature, bc.valide, 1, bc.montant)]
    else
      var g := gs[|gs| - 1];
      if g.nature == bc.nature && g.valide == bc.valide then
        gs[..|gs| - 1] + [g.(nbBcs := g.nbBcs + 1, totalMontant := g.totalMontant + bc.montant)]
      else AddToGroups(gs[..|gs| - 1], bc) + [g]
  }

  /** `GROUP BY nature, valide` over `rows`. */
  function GroupBy(rows: seq<BonCommande>): (gs: seq<GroupRow>)
    decreases |rows|
  {
    if rows == [] then [] else AddToGroups(GroupBy(rows[..|rows| - 1]), rows[|rows| - 1])
  }

  // Column totals of the group rows and of the orders themselves.

  function TotalNb(gs: seq<GroupRow>): nat
    decreases |gs|
  {
    if gs == [] then 0 else TotalNb(gs[..|gs| - 1]) + gs[|gs| - 1].nbBcs
  }

  function ValidNb(gs: seq<GroupRow>): nat
    decreases |gs|
  {
    if gs == [] then 0 else ValidNb(gs[..|gs| - 1]) + (if gs[|gs| - 1].valide then gs[|gs| - 1].nbBcs else 0)
  }

  function TotalMontant(gs: seq<GroupRow>): real
    decreases |gs|
  {
    if gs == [] then 0.0 else TotalMontant(gs[..|gs| - 1]) + gs[|gs| - 1].totalMontant
  }

  function GroupNatures(gs: seq<GroupRow>): set<string>
    decreases |gs|
  {
    if gs == [] then {} else GroupNatures(gs[..|gs| - 1]) + {gs[|gs| - 1].nature}
  }

  function CountValid(rows: seq<BonCommande>): nat
    decreases |rows|
  {
    if rows == [] then 0 else CountValid(rows[..|rows| - 1]) + (if rows[|rows| - 1].valide then 1 else 0)
  }

  function SumMontant(rows: seq<BonCommande>): real
    decreases |rows|
  {
    if rows == [] then 0.0 else SumMontant(rows[..|rows| - 1]) + rows[|rows| - 1].montant
  }

  /** The natures of some orders. */
  function RowNatures(rows: seq<BonCommande>): (ns: set<string>)
    ensures forall n :: n in ns <==> exists i :: 0 <= i < |rows| && rows[i].nature == n
    decreases |rows|
  {
    if rows == [] then {}
    else
      var init := rows[..|rows| - 1];
      var ns := RowNatures(init) + {rows[|rows| - 1].nature};
      assert forall i :: 0 <= i < |init| ==> rows[i] == init[i];
      ns
  }

  /** Adding an order adds one to the count, its flag to the validated count and its amount to the total. */
  lemma {:induction false} AddToGroupsTotals(gs: seq<GroupRow>, bc: BonCommande)
    ensures TotalNb(AddToGroups(gs, bc)) == TotalNb(gs) + 1
    ensures ValidNb(AddToGroups(gs, bc)) == ValidNb(gs) + (if bc.valide then 1 else 0)
    ensures TotalMontant(AddToGroups(gs, bc)) == TotalMontant(gs) + bc.montant
    decreases |gs|
  {
    if gs != [] {
      var g := gs[|gs| - 1];
      var init := gs[..|gs| - 1];
      var r := AddToGroups(gs, bc);
      if g.nature == bc.nature && g.valide == bc.valide {
        assert r[..|r| - 1] == init;
      } else {
        AddToGroupsTotals(init, bc);
        assert r[..|r| - 1] == AddToGroups(init, bc);
      }
    }
  }

  /** Adding an order adds its nature to the natures of the groups. */
  lemma {:induction false} AddToGroupsNatures(gs: seq<GroupRow>, bc: BonCommande)
    ensures GroupNatures(AddToGroups(gs, bc)) == GroupNatures(gs) + {bc.nature}
    decreases |gs|
  {
    if gs != [] {
      var g := gs[|gs| - 1];
      var init := gs[..|gs| - 1];
      var r := AddToGroups(gs, bc);
      if g.nature == bc.nature && g.valide == bc.valide {
        assert r[..|r| - 1] == init;
      } else {
        AddToGroupsNatures(init, bc);
        assert r[..|r| - 1] == AddToGroups(init, bc);
      }
    }
  }

  /** The group rows account for every order exactly once, and for its nature. */
  lemma {:induction false} GroupByTotals(rows: seq<BonCommande>)
    ensures TotalNb(GroupBy(rows)) == |rows|
    ensures ValidNb(GroupBy(rows)) == CountValid(rows)
    ensures TotalMontant(GroupBy(rows)) == SumMontant(rows)
    ensures GroupNatures(GroupBy(rows)) == RowNatures(rows)
    decreases |rows|
  {
    if rows != [] {
      GroupByTotals(rows[..|rows| - 1]);
      AddToGroupsTotals(GroupBy(rows[..|rows| - 1]), rows[|rows| - 1]);
      AddToGroupsNatures(GroupBy(rows[..|rows| - 1]), rows[|rows| - 1]);
    }
  }

  /** Each (nature, valide) pair has at most one group row. */
  ghost predicate DistinctGroups(gs: seq<GroupRow>) {
    forall i, j :: 0 <= i < j < |gs| ==> (gs[i].nature, gs[i].valide) != (gs[j].nature, gs[j].valide)
  }

  /** Adding an order keeps the groups distinct and leaves every other group as it was. */
  lemma {:induction false} AddToGroupsDistinct(gs: seq<GroupRow>, bc: BonCommande)
    requires DistinctGroups(gs)
    ensures DistinctGroups(AddToGroups(gs, bc))
    ensures forall g :: g in AddToGroups(gs, bc) ==> (g.nature, g.valide) == (bc.nature, bc.valide) || g in gs
    decreases |gs|
  {
    if gs != [] {
      var g := gs[|gs| - 1];
      var init := gs[..|gs| - 1];
      assert DistinctGroups(init);
      if !(g.nature == bc.nature && g.valide == bc.valide) {
        AddToGroupsDistinct(init, bc);
        var r := AddToGroups(init, bc);
        forall i | 0 <= i < |r| ensures (r[i].nature, r[i].valide) != (g.nature, g.valide) {
          assert r[i] in r;
          if r[i] !in init {
            assert (r[i].nature, r[i].valide) == (bc.nature, bc.valide);
          } else {
            var j :| 0 <= j < |init| && init[j] == r[i];
            assert gs[j] == init[j];
          }
        }
      }
    }
  }

  /** `GROUP BY` gives one row per (nature, valide) pair. */
  lemma {:induction false} GroupByDistinct(rows: seq<BonCommande>)
    ensures DistinctGroups(GroupBy(rows))
    decreases |rows|
  {
    if rows != [] {
      GroupByDistinct(rows[..|rows| - 1]);
      AddToGroupsDistinct(GroupBy(rows[..|rows| - 1]), rows[|rows| - 1]);
    }
  }

  /** What `by_nature` holds for one nature. */
  datatype NatureStats = NatureStats(valides: nat, enAttente: nat, montant: real)

  /** The dictionary `get_bc_statistics` returns. */
  datatype BcStats = BcStats(totalBcs: nat, bcsValides: nat, bcsEnAttente: nat, montantTotal: real,
                             byNature: map<string, NatureStats>)

  /** The sum of the per-nature amounts. */
  ghost function SumNatures(m: map<string, NatureStats>): real
    decreases |m|
  {
    if m == map[] then 0.0
    else
      var n :| n in m;
      m[n].montant + SumNatures(m - {n})
  }

  /** The sum does not depend on which nature is taken out first. */
  lemma {:induction false} SumNaturesRemove(m: map<string, NatureStats>, n: string)
    requires n in m
    ensures SumNatures(m) == m[n].montant + SumNatures(m - {n})
    decreases |m|
  {
    var x :| x in m && SumNatures(m) == m[x].montant + SumNatures(m - {x});
    if x != n {
      SumNaturesRemove(m - {x}, n);
      SumNaturesRemove(m - {n}, x);
      assert m - {x} - {n} == m - {n} - {x};
    }
  }

  /** Replacing one nature's entry changes the sum by the change in its amount. */
  lemma SumNaturesUpdate(m: map<string, NatureStats>, n: string, v: NatureStats)
    ensures SumNatures(m[n := v]) == SumNatures(m) - (if n in m then m[n].montant else 0.0) + v.montant
  {
    var m' := m[n := v];
    SumNaturesRemove(m', n);
    assert m' - {n} == m - {n};
    if n in m {
      SumNaturesRemove(m, n);
    } else {
      assert m - {n} == m;
    }
  }

  /** A nature's entry before its first group row: all zero. */
  function EntryOf(m: map<string, NatureStats>, nature: string): NatureStats {
    if nature in m then m[nature] else NatureStats(0, 0, 0.0)
  }

  /**
   * The statistics after the group row `g`: the body of the loop of
   * `get_bc_statistics`. The group's count goes to the validated or the
   * waiting column, both overall and in its own nature's entry (opened at
   * zero when new), its amount to the total and to its nature; every other
   * nature's entry is left as it was.
   */
  function AddGroup(s: BcStats, g: GroupRow): (r: BcStats)
    ensures r.totalBcs == s.totalBcs + g.nbBcs && r.montantTotal == s.montantTotal + g.totalMontant
    ensures r.bcsValides == s.bcsValides + (if g.valide then g.nbBcs else 0)
    ensures r.bcsEnAttente == s.bcsEnAttente + (if g.valide then 0 else g.nbBcs)
    ensures r.byNature.Keys == s.byNature.Keys + {g.nature}
    ensures r.byNature[g.nature].valides == EntryOf(s.byNature, g.nature).valides + (if g.valide then g.nbBcs else 0)
    ensures r.byNature[g.nature].enAttente == EntryOf(s.byNature, g.nature).enAttente + (if g.valide then 0 else g.nbBcs)
    ensures r.byNature[g.nature].montant == EntryOf(s.byNature, g.nature).montant + g.totalMontant
    ensures forall n :: n in s.byNature && n != g.nature ==> r.byNature[n] == s.byNature[n]
    ensures SumNatures(r.byNature) == SumNatures(s.byNature) + g.totalMontant
  {
    var cur := EntryOf(s.byNature, g.nature);
    var upd := if g.valide then cur.(valides := cur.valides + g.nbBcs) else cur.(enAttente := cur.enAttente + g.nbBcs);
    var entry := upd.(montant := upd.montant + g.totalMontant);
    SumNaturesUpdate(s.byNature, g.nature, entry);
    BcStats(s.totalBcs + g.nbBcs,
            if g.valide then s.bcsValides + g.nbBcs else s.bcsValides,
            if g.valide then s.bcsEnAttente else s.bcsEnAttente + g.nbBcs,
            s.montantTotal + g.totalMontant,
            s.byNature[g.nature := entry])
  }

  /** The statistics after reading the group rows `gs` in order. */
  function StatsOf(gs: seq<GroupRow>): BcStats
    decreases |gs|
  {
    if gs == [] then BcStats(0, 0, 0, 0.0, map[]) else AddGroup(StatsOf(gs[..|gs| - 1]), gs[|gs| - 1])
  }

  /** Whatever the group rows, the statistics add up: every column total agrees with the groups. */
  lemma {:induction false} StatsOfTotals(gs: seq<GroupRow>)
    ensures StatsOf(gs).totalBcs == StatsOf(gs).bcsValides + StatsOf(gs).bcsEnAttente
    ensures StatsOf(gs).totalBcs == TotalNb(gs) && StatsOf(gs).bcsValides == ValidNb(gs)
    ensures StatsOf(gs).montantTotal == TotalMontant(gs)
    ensures StatsOf(gs).montantTotal == SumNatures(StatsOf(gs).byNature)
    ensures StatsOf(gs).byNature.Keys == GroupNatures(gs)
    decreases |gs|
  {
    if gs != [] {
      StatsOfTotals(gs[..|gs| - 1]);
    }
  }

  // Restriction to one nature, of the orders and of the group rows.

  function OfNature(rows: seq<BonCommande>, nature: string): seq<BonCommande>
    decreases |rows|
  {
    if rows == [] then []
    else OfNature(rows[..|rows| - 1], nature) + (if rows[|rows| - 1].nature == nature then [rows[|rows| - 1]] else [])
  }

  function GroupsOfNature(gs: seq<GroupRow>, nature: string): seq<GroupRow>
    decreases |gs|
  {
    if gs == [] then []
    else GroupsOfNature(gs[..|gs| - 1], nature) + (if gs[|gs| - 1].nature == nature then [gs[|gs| - 1]] else [])
  }

  /** Counting an order of another nature leaves a nature's group rows as they were. */
  lemma {:induction false} AddToGroupsOtherNature(gs: seq<GroupRow>, bc: BonCommande, nature: string)
    requires bc.nature != nature
    ensures GroupsOfNature(AddToGroups(gs, bc), nature) == GroupsOfNature(gs, nature)
    decreases |gs|
  {
    var r := AddToGroups(gs, bc);
    if gs == [] {
      assert r[..0] == [];
    } else {
      var g := gs[|gs| - 1];
      var init := gs[..|gs| - 1];
      if g.nature == bc.nature && g.valide == bc.valide {
        assert r[..|r| - 1] == init;
      } else {
        AddToGroupsOtherNature(init, bc, nature);
        assert r[..|r| - 1] == AddToGroups(init, bc);
      }
    }
  }

  /** Counting an order of the nature into all the groups counts it into that nature's groups. */
  lemma {:induction false} AddToGroupsSameNature(gs: seq<GroupRow>, bc: BonCommande)
    ensures GroupsOfNature(AddToGroups(gs, bc), bc.nature) == AddToGroups(GroupsOfNature(gs, bc.nature), bc)
    decreases |gs|
  {
    var n := bc.nature;
    var r := AddToGroups(gs, bc);
    if gs == [] {
      assert r[..0] == [];
    } else {
      var g := gs[|gs| - 1];
      var init := gs[..|gs| - 1];
      var fi := GroupsOfNature(init, n);
      if g.nature == n && g.valide == bc.valide {
        assert r[..|r| - 1] == init;
        assert (fi + [g])[..|fi|] == fi;
      } else {
        AddToGroupsSameNature(init, bc);
        assert r[..|r| - 1] == AddToGroups(init, bc);
        if g.nature == n {
          assert GroupsOfNature(r, n) == AddToGroups(fi, bc) + [g];
          assert (fi + [g])[..|fi|] == fi;
          assert AddToGroups(fi + [g], bc) == AddToGroups(fi, bc) + [g];
        } else {
          assert GroupsOfNature(r, n) == GroupsOfNature(AddToGroups(init, bc), n);
          assert GroupsOfNature(gs, n) == fi;
        }
      }
    }
  }

  /** Within one nature, the group rows account for that nature's orders: count, validated count and amount. */
  lemma {:induction false} GroupByNature(rows: seq<BonCommande>, nature: string)
    ensures TotalNb(GroupsOfNature(GroupBy(rows), nature)) == |OfNature(rows, nature)|
    ensures ValidNb(GroupsOfNature(GroupBy(rows), nature)) == CountValid(OfNature(rows, nature))
    ensures TotalMontant(GroupsOfNature(GroupBy(rows), nature)) == SumMontant(OfNature(rows, nature))
    decreases |rows|
  {
    if rows != [] {
      var init := rows[..|rows| - 1];
      var bc := rows[|rows| - 1];
      var o := OfNature(init, nature);
      GroupByNature(init, nature);
      if bc.nature == nature {
        AddToGroupsSameNature(GroupBy(init), bc);
        AddToGroupsTotals(GroupsOfNature(GroupBy(init), nature), bc);
        assert (o + [bc])[..|o|] == o;
      } else {
        AddToGroupsOtherNature(GroupBy(init), bc, nature);
        assert o + [] == o;
      }
    }
  }

  /**
   * After reading the group rows in order, a nature's entry holds the
   * validated count, the waiting count and the amount of that nature's groups;
   * a nature without groups has no entry.
   */
  lemma {:induction false} StatsOfNature(gs: seq<GroupRow>, nature: string)
    ensures nature !in StatsOf(gs).byNature ==> GroupsOfNature(gs, nature) == []
    ensures nature in StatsOf(gs).byNature ==>
              var e := StatsOf(gs).byNature[nature];
              var ng := GroupsOfNature(gs, nature);
              e.valides == ValidNb(ng) && e.valides + e.enAttente == TotalNb(ng) && e.montant == TotalMontant(ng)
    decreases |gs|
  {
    if gs != [] {
      var init := gs[..|gs| - 1];
      var g := gs[|gs| - 1];
      StatsOfNature(init, nature);
      assert StatsOf(gs) == AddGroup(StatsOf(init), g);
      assert GroupsOfNature(gs, nature) == GroupsOfNature(init, nature) + (if g.nature == nature then [g] else []);
      NatureStep(StatsOf(init), g, nature, GroupsOfNature(init, nature));
    }
  }

  /** One group row keeps a nature's entry in step with that nature's group rows. */
  lemma NatureStep(s: BcStats, g: GroupRow, nature: string, ng: seq<GroupRow>)
    requires nature !in s.byNature ==> ng == []
    requires nature in s.byNature ==>
               var e := s.byNature[nature];
               e.valides == ValidNb(ng) && e.valides + e.enAttente == TotalNb(ng) && e.montant == TotalMontant(ng)
    ensures var r := AddGroup(s, g).byNature;
            var ng' := ng + (if g.nature == nature then [g] else []);
            (nature !in r ==> ng' == [])
            && (nature in r ==>
                  r[nature].valides == ValidNb(ng') && r[nature].valides + r[nature].enAttente == TotalNb(ng')
                  && r[nature].montant == TotalMontant(ng'))
  {
    if g.nature == nature {
      GroupSumsAppend(ng, g);
    } else {
      assert ng + [] == ng;
    }
  }

  /** The column totals of group rows with one more row. */
  lemma GroupSumsAppend(gs: seq<GroupRow>, g: GroupRow)
    ensures ValidNb(gs + [g]) == ValidNb(gs) + (if g.valide then g.nbBcs else 0)
    ensures TotalNb(gs + [g]) == TotalNb(gs) + g.nbBcs
    ensures TotalMontant(gs + [g]) == TotalMontant(gs) + g.totalMontant
  {
    assert (gs + [g])[..|gs|] == gs;
  }

  /** What `by_nature` holds for every nature: the counts and the amount of that nature's orders. */
  lemma StatsByNature(rows: seq<BonCommande>)
    ensures forall n :: n in StatsOf(GroupBy(rows)).byNature ==>
              var e := StatsOf(GroupBy(rows)).byNature[n];
              e.valides == CountValid(OfNature(rows, n))
              && e.valides + e.enAttente == |OfNature(rows, n)|
              && e.montant == SumMontant(OfNature(rows, n))
  {
    forall n | n in StatsOf(GroupBy(rows)).byNature
      ensures var e := StatsOf(GroupBy(rows)).byNature[n];
              e.valides == CountValid(OfNature(rows, n))
              && e.valides + e.enAttente == |OfNature(rows, n)|
              && e.montant == SumMontant(OfNature(rows, n))
    {
      StatsOfNature(GroupBy(rows), n);
      GroupByNature(rows, n);
    }
  }

  /**
   * `get_bc_statistics`: the orders numbered in the current year, grouped
   * by nature and state and added up group by group. Every order of the
   * year is counted once, as validated or waiting; the total amount is
   * both the sum over the orders and the sum over the natures, and the
   * natures listed are those of the orders.
   */
  method GetBcStatistics(db: Database, currentYear: int) returns (stats: BcStats)
    ensures stats.totalBcs == stats.bcsValides + stats.bcsEnAttente
    ensures stats.totalBcs == |YearIds(db.bcs, currentYear)|
    ensures stats.bcsValides == CountValid(YearBcs(db.bcs, currentYear))
    ensures stats.montantTotal == SumMontant(YearBcs(db.bcs, currentYear))
    ensures stats.montantTotal == SumNatures(stats.byNature)
    ensures stats.byNature.Keys == RowNatures(YearBcs(db.bcs, currentYear))
    ensures forall n :: n in stats.byNature ==>
              var ofN := OfNature(YearBcs(db.bcs, currentYear), n);
              stats.byNature[n].valides == CountValid(ofN)
              && stats.byNature[n].valides + stats.byNature[n].enAttente == |ofN|
              && stats.byNature[n].montant == SumMontant(ofN)
  {
    var rows := YearBcs(db.bcs, currentYear);
    var gs := GroupBy(rows);
    stats := BcStats(0, 0, 0, 0.0, map[]);
    for i := 0 to |gs|
      invariant stats == StatsOf(gs[..i])
    {
      StatsOfStep(gs, i);
      stats := AddGroup(stats, gs[i]);
    }
    assert gs[..|gs|] == gs;
    StatsOfYear(db.bcs, currentYear);
  }

  /** Folding one more group row into the statistics of a prefix. */
  lemma StatsOfStep(gs: seq<GroupRow>, i: nat)
    requires i < |gs|
    ensures StatsOf(gs[..i + 1]) == AddGroup(StatsOf(gs[..i]), gs[i])
  {
    assert gs[..i + 1][..i] == gs[..i];
  }

  /** The statistics folded from the year's groups are those of the year's orders. */
  lemma StatsOfYear(bcs: map<nat, BonCommande>, year: int)
    ensures var rows := YearBcs(bcs, year);
            var stats := StatsOf(GroupBy(rows));
            stats.totalBcs == stats.bcsValides + stats.bcsEnAttente
            && stats.totalBcs == |YearIds(bcs, year)|
            && stats.bcsValides == CountValid(rows)
            && stats.montantTotal == SumMontant(rows)
            && stats.montantTotal == SumNatures(stats.byNature)
            && stats.byNature.Keys == RowNatures(rows)
    ensures forall n :: n in StatsOf(GroupBy(YearBcs(bcs, year))).byNature ==>
              var ofN := OfNature(YearBcs(bcs, year), n);
              var e := StatsOf(GroupBy(YearBcs(bcs, year))).byNature[n];
              e.valides == CountValid(ofN) && e.valides + e.enAttente == |ofN| && e.montant == SumMontant(ofN)
  {
    var rows := YearBcs(bcs, year);
    YearBcsCount(bcs, year);
    GroupByTotals(rows);
    StatsOfTotals(GroupBy(rows));
    StatsByNature(rows);
  }
}

=== FILE: bc_numbering.dfy ===
/**
 * Purchase-order numbering. `generate_next_numero` looks up the greatest
 * existing number of the current year in text order and adds one to its
 * last dash-separated field. Text order and number order part ways once a
 * sequence needs five digits ("BC-2025-10000" sorts before
 * "BC-2025-9999"), and from then on the generator hands out a number that
 * already exists. `GenerateNextNumero` is the generator as written;
 * `GenerateFreshNumero` takes the numeric maximum instead, and is the one
 * the rest of the model uses.
 */
module BcNumbering {
  import opened Wrappers
  import opened Text
  import opened Validators
  import opened Models
  import opened Sorting

  // ---------------------------------------------------------------- the year's numbers

  /** The fixed part of a year's numbers, "BC-{year}-". */
  function NumeroPrefix(year: int): (p: string)
    ensures |p| >= 5 && p[..3] == "BC-" && p[|p| - 1] == '-'
  {
    "BC-" + IntToString(year) + "-"
  }

  /**
   * `numero LIKE 'BC-{year}-%'`: the prefix matches, with ASCII letters
   * compared without regard to case, and anything may follow.
   */
  predicate OfYear(numero: string, year: int) {
    var p := NumeroPrefix(year);
    |numero| >= |p| && forall i :: 0 <= i < |p| ==> LowerChar(numero[i]) == LowerChar(p[i])
  }

  /** Some purchase order has a number of `year`. */
  predicate AnyOfYear(bcs: map<nat, BonCommande>, year: int) {
    exists k :: k in bcs && OfYear(bcs[k].numeroBc, year)
  }

  /** `s.split('-')[-1]`: what follows the last dash (all of `s` when it has none). */
  function AfterLastDash(s: string): (r: string)
    ensures |r| <= |s| && r == s[|s| - |r|..]
    ensures forall i :: 0 <= i < |r| ==> r[i] != '-'
    ensures |r| < |s| ==> s[|s| - |r| - 1] == '-'
  {
    if s == [] || s[|s| - 1] == '-' then []
    else
      var q := AfterLastDash(s[..|s| - 1]);
      SuffixStep(s, q);
      q + [s[|s| - 1]]
  }

  /** A suffix of all but the last character, extended by that character, is a suffix. */
  lemma SuffixStep(s: string, q: string)
    requires s != [] && |q| <= |s| - 1 && q == s[..|s| - 1][|s| - 1 - |q|..]
    ensures q + [s[|s| - 1]] == s[|s| - 1 - |q|..]
    ensures |q| < |s| - 1 ==> s[|s| - 2 - |q|] == s[..|s| - 1][|s| - 2 - |q|]
  {
  }

  /** The text after a final dash is what `AfterLastDash` returns. */
  lemma {:induction false} AfterLastDashOf(head: string, tail: string)
    requires forall i :: 0 <= i < |tail| ==> tail[i] != '-'
    ensures AfterLastDash(head + "-" + tail) == tail
    decreases |tail|
  {
    var s := head + "-" + tail;
    if tail == [] {
      assert s[|s| - 1] == '-';
    } else {
      var t' := tail[..|tail| - 1];
      assert s[..|s| - 1] == head + "-" + t';
      AfterLastDashOf(head, t');
      assert tail == t' + [tail[|tail| - 1]];
    }
  }

  /** An optional sign and at least one ASCII digit, read as an integer. */
  function ParseSigned(s: string): (r: Option<int>)
    ensures r.Some? && (forall i :: 0 <= i < |s| ==> s[i] != '-') ==> r.value >= 0
  {
    if s != [] && (s[0] == '+' || s[0] == '-') then
      match ParseNat(s[1..])
      case None => None
      case Some(v) => var n: int := v; Some(if s[0] == '-' then -n else n)
    else
      match ParseNat(s)
      case None => None
      case Some(v) => Some(v)
  }

  /** `s.strip()` of a text without a minus sign has none either. */
  lemma StripNoDash(s: string)
    requires forall i :: 0 <= i < |s| ==> s[i] != '-'
    ensures forall i :: 0 <= i < |Strip(s)| ==> Strip(s)[i] != '-'
  {
    var l := TrimLeft(s);
    var r := TrimRight(l);
    assert Strip(s) == r;
    forall i | 0 <= i < |r| ensures r[i] != '-' {
      assert r[i] == l[i] == s[|s| - |l| + i];
    }
  }

  /**
   * Python's `int(t)` on ASCII text: surrounding white space is dropped,
   * then an optional sign and at least one digit; `None` where Python
   * raises `ValueError`. Text without a minus sign reads as a natural number.
   */
  function PyInt(t: string): (r: Option<int>)
    ensures AllDigits(t) && t != [] ==> r == Some(DigitsValue(t))
    ensures r.Some? && (forall i :: 0 <= i < |t| ==> t[i] != '-') ==> r.value >= 0
  {
    var s := Strip(t);
    if forall i :: 0 <= i < |t| ==> t[i] != '-' then
      StripNoDash(t);
      if AllDigits(t) && t != [] then
        StripNoSurroundingSpace(t);
        ParseSigned(s)
      else ParseSigned(s)
    else ParseSigned(s)
  }

  /** The sequence field of a number: `int(numero.split('-')[-1])`, never negative. */
  function SequenceOf(numero: string): (r: Option<int>)
    ensures r.Some? ==> r.value >= 0
  {
    PyInt(AfterLastDash(numero))
  }

  /** A generated number reads back as the year's prefix and its sequence. */
  lemma GeneratedFields(year: int, sequence: nat)
    ensures var g := GenerateNumeroBc(year, sequence);
            OfYear(g, year) && SequenceOf(g) == Some(sequence)
  {
    var z := ZeroPad(sequence, 4);
    var g := GenerateNumeroBc(year, sequence);
    var p := NumeroPrefix(year);
    assert g == p + z;
    assert g[..|p|] == p;
    assert forall i :: 0 <= i < |p| ==> g[i] == p[i];
    AfterLastDashOf("BC-" + IntToString(year), z);
    assert "BC-" + IntToString(year) + "-" + z == g;
    ParseZeroPad(sequence, 4);
  }

  // ---------------------------------------------------------------- as written

  /**
   * `SELECT numero_bc ... WHERE numero_bc LIKE 'BC-{year}-%' ORDER BY
   * numero_bc DESC LIMIT 1`: the greatest of the year's numbers in text order.
   */
  function LastNumero(bcs: map<nat, BonCommande>, year: int): (r: Option<string>)
    ensures r.Some? <==> AnyOfYear(bcs, year)
    ensures r.Some? ==> OfYear(r.value, year) && exists k :: k in bcs && bcs[k].numeroBc == r.value
    ensures r.Some? ==> forall k :: k in bcs && OfYear(bcs[k].numeroBc, year) ==> StrLe(bcs[k].numeroBc, r.value)
    decreases |bcs|
  {
    if bcs == map[] then None
    else
      MaxExists(bcs.Keys);
      var k :| IsMaxOf(k, bcs.Keys);
      var rest := bcs - {k};
      var earlier := LastNumero(rest, year);
      var n := bcs[k].numeroBc;
      assert forall j :: j in rest ==> rest[j] == bcs[j];
      assert forall j :: j in bcs ==> j == k || j in rest;
      if !OfYear(n, year) then earlier
      else if earlier.None? then
        StrLeReflexive(n);
        Some(n)
      else if StrLe(earlier.value, n) then
        assert forall j :: j in rest && OfYear(rest[j].numeroBc, year) ==> StrLe(rest[j].numeroBc, n) by {
          forall j | j in rest && OfYear(rest[j].numeroBc, year) ensures StrLe(rest[j].numeroBc, n) {
            StrLeTransitive(rest[j].numeroBc, earlier.value, n);
          }
        }
        StrLeReflexive(n);
        Some(n)
      else
        StrLeTotal(earlier.value, n);
        earlier
  }

  /**
   * The sequence `generate_next_numero` gives as written: 1 when the year
   * has no number yet, otherwise the sequence field of the greatest number
   * in text order plus one. `None` is the `ValueError` that escapes when
   * that field is not an integer.
   */
  function NextSequence(bcs: map<nat, BonCommande>, year: int): (r: Option<int>)
    ensures !AnyOfYear(bcs, year) ==> r == Some(1)
    ensures AnyOfYear(bcs, year) ==> (r.Some? <==> SequenceOf(LastNumero(bcs, year).value).Some?)
    ensures AnyOfYear(bcs, year) && r.Some? ==> r.value == SequenceOf(LastNumero(bcs, year).value).value + 1
    ensures r.Some? ==> r.value >= 1
  {
    match LastNumero(bcs, year)
    case None => Some(1)
    case Some(last) =>
      match SequenceOf(last)
      case None => None
      case Some(s) => Some(s + 1)
  }

  /**
   * `generate_next_numero` as written: "BC-{year}-0001" when the year has
   * no number yet, otherwise the sequence field of the greatest number in
   * text order plus one. `None` is the `ValueError` that escapes when that
   * field is not an integer.
   */
  function GenerateNextNumero(bcs: map<nat, BonCommande>, year: int): (r: Option<string>)
    ensures !AnyOfYear(bcs, year) ==> r == Some(GenerateNumeroBc(year, 1))
    ensures AnyOfYear(bcs, year) ==>
              (r.Some? <==> SequenceOf(LastNumero(bcs, year).value).Some?)
    ensures r.Some? ==> OfYear(r.value, year)
    ensures AnyOfYear(bcs, year) && r.Some? ==>
              SequenceOf(r.value) == Some(SequenceOf(LastNumero(bcs, year).value).value + 1)
  {
    var n := NextSequence(bcs, year);
    if n.None? then None
    else
      var g := GenerateNumeroBc(year, n.value);
      GeneratedFields(year, n.value);
      assert SequenceOf(g) == Some(n.value);
      Some(g)
  }

  // The two numbers of the example below, written out.

  lemma Year2025Text()
    ensures IntToString(2025) == "2025"
  {
    assert NatToString(20) == "20";
    assert NatToString(202) == "202";
  }

  lemma Sequence9999Text()
    ensures Format04d(9999) == "9999"
  {
    assert NatToString(99) == "99";
    assert NatToString(999) == "999";
    assert NatToString(9999) == "9999";
  }

  lemma Sequence10000Text()
    ensures Format04d(10000) == "10000"
  {
    assert NatToString(10) == "10";
    assert NatToString(100) == "100";
    assert NatToString(1000) == "1000";
    assert NatToString(10000) == "10000";
  }

  lemma ExampleNumbers()
    ensures GenerateNumeroBc(2025, 9999) == "BC-2025-9999"
    ensures GenerateNumeroBc(2025, 10000) == "BC-2025-10000"
  {
    Year2025Text();
    Sequence9999Text();
    Sequence10000Text();
  }

  /** Two orders of 2025 on file, numbered 9999 and 10000. */
  function PastSequence9999(): (bcs: map<nat, BonCommande>)
    ensures bcs.Keys == {1, 2}
    ensures bcs[1].numeroBc == "BC-2025-9999" && bcs[2].numeroBc == "BC-2025-10000"
  {
    map[1 := DefaultBonCommande().(id := 1, numeroBc := "BC-2025-9999"),
        2 := DefaultBonCommande().(id := 2, numeroBc := "BC-2025-10000")]
  }

  /** A number of the year that is greatest in text order is what the lookup finds. */
  lemma LastNumeroIs(bcs: map<nat, BonCommande>, year: int, k: nat)
    requires k in bcs && OfYear(bcs[k].numeroBc, year)
    requires forall j :: j in bcs && OfYear(bcs[j].numeroBc, year) ==> StrLe(bcs[j].numeroBc, bcs[k].numeroBc)
    ensures LastNumero(bcs, year) == Some(bcs[k].numeroBc)
  {
    var r := LastNumero(bcs, year).value;
    var j :| j in bcs && bcs[j].numeroBc == r;
    StrLeAntisymmetric(r, bcs[k].numeroBc);
  }

  /** Text order puts "BC-2025-10000" before "BC-2025-9999". */
  lemma TenThousandSortsFirst()
    ensures StrLe("BC-2025-10000", "BC-2025-9999") && !StrLe("BC-2025-9999", "BC-2025-10000")
  {
    var a := "BC-2025-9999";
    var b := "BC-2025-10000";
    assert a[..8] == b[..8];
    StrLeDiffers(b, a, 8);
    StrLeDiffers(a, b, 8);
  }

  /** Both example numbers belong to 2025, and "BC-2025-9999" reads as 9999. */
  lemma PastSequence9999Fields()
    ensures OfYear("BC-2025-9999", 2025) && OfYear("BC-2025-10000", 2025)
    ensures SequenceOf("BC-2025-9999") == Some(9999)
  {
    ExampleNumbers();
    GeneratedFields(2025, 9999);
    GeneratedFields(2025, 10000);
  }

  /** Of two numbers of the year, the lookup finds the one greater in text order. */
  lemma LastOfTwo(bcs: map<nat, BonCommande>, year: int)
    requires bcs.Keys == {1, 2} && OfYear(bcs[1].numeroBc, year)
    requires StrLe(bcs[2].numeroBc, bcs[1].numeroBc)
    ensures LastNumero(bcs, year) == Some(bcs[1].numeroBc)
  {
    StrLeReflexive(bcs[1].numeroBc);
    LastNumeroIs(bcs, year, 1);
  }

  /** In text order "BC-2025-9999" is the greater of the two. */
  lemma PastSequence9999Last(bcs: map<nat, BonCommande>)
    requires bcs == PastSequence9999()
    ensures LastNumero(bcs, 2025) == Some("BC-2025-9999")
  {
    PastSequence9999Fields();
    TenThousandSortsFirst();
    LastOfTwo(bcs, 2025);
  }

  /**
   * Past sequence 9999 the generator repeats itself: with "BC-2025-9999"
   * and "BC-2025-10000" on file, text order picks the former and the
   * generator proposes the latter, which `create_bc` then refuses as a
   * duplicate, on every later call as well.
   */
  lemma GenerateNextNumeroRepeats(bcs: map<nat, BonCommande>)
    requires bcs == PastSequence9999()
    ensures GenerateNextNumero(bcs, 2025) == Some("BC-2025-10000")
    ensures 2 in bcs && bcs[2].numeroBc == "BC-2025-10000"
  {
    PastSequence9999Last(bcs);
    PastSequence9999Fields();
    ExampleNumbers();
  }

  /** Text order on two strings that first differ at position `i`. */
  lemma {:induction false} StrLeDiffers(a: string, b: string, i: nat)
    requires i < |a| && i < |b| && a[..i] == b[..i]
    ensures StrLe(a, b) <==> a[i] < b[i] || (a[i] == b[i] && StrLe(a[i + 1..], b[i + 1..]))
    decreases i
  {
    if i > 0 {
      assert a[0] == a[..i][0] && b[0] == b[..i][0];
      assert a[1..][..i - 1] == a[..i][1..] && b[1..][..i - 1] == b[..i][1..];
      StrLeDiffers(a[1..], b[1..], i - 1);
      assert a[1..][i - 1] == a[i] && b[1..][i - 1] == b[i];
      assert a[1..][i..] == a[i + 1..] && b[1..][i..] == b[i + 1..];
    }
  }

  // ---------------------------------------------------------------- corrected

  /** The largest value of a map of integers, and 0 when there is none larger. */
  function MaxValue(m: map<nat, int>): (r: int)
    ensures r >= 0 && forall k :: k in m ==> m[k] <= r
    ensures r == 0 || exists k :: k in m && m[k] == r
    decreases |m|
  {
    if m == map[] then 0
    else
      MaxExists(m.Keys);
      var k :| IsMaxOf(k, m.Keys);
      var rest := m - {k};
      var r := MaxValue(rest);
      assert forall j :: j in m ==> j == k || (j in rest && rest[j] == m[j]);
      if m[k] > r then m[k] else r
  }

  /** The sequence field of every number of the year that reads as an integer, by row id. */
  function YearSequences(bcs: map<nat, BonCommande>, year: int): (s: map<nat, int>)
    ensures forall k :: k in s <==> k in bcs && OfYear(bcs[k].numeroBc, year) && SequenceOf(bcs[k].numeroBc).Some?
    ensures forall k :: k in s ==> s[k] == SequenceOf(bcs[k].numeroBc).value
  {
    map k | k in bcs && OfYear(bcs[k].numeroBc, year) && SequenceOf(bcs[k].numeroBc).Some?
      :: SequenceOf(bcs[k].numeroBc).value
  }

  /** The greatest sequence field among the year's numbers, and 0 when none reads as an integer. */
  function MaxSequence(bcs: map<nat, BonCommande>, year: int): (r: int)
    ensures r >= 0
    ensures forall k :: k in bcs && OfYear(bcs[k].numeroBc, year) && SequenceOf(bcs[k].numeroBc).Some? ==>
              SequenceOf(bcs[k].numeroBc).value <= r
    ensures r == 0 || exists k :: k in bcs && OfYear(bcs[k].numeroBc, year) && SequenceOf(bcs[k].numeroBc) == Some(r)
  {
    MaxValue(YearSequences(bcs, year))
  }

  /**
   * The numbering `generate_next_numero` is evidently meant to give: the
   * year's greatest sequence by value, plus one.
   */
  function GenerateFreshNumero(bcs: map<nat, BonCommande>, year: int): (numero: string)
    ensures OfYear(numero, year)
    ensures !AnyOfYear(bcs, year) ==> numero == GenerateNumeroBc(year, 1)
  {
    var m: nat := MaxSequence(bcs, year) + 1;
    GeneratedFields(year, m);
    GenerateNumeroBc(year, m)
  }

  /** Every number of the year is a generated one, with a sequence of at most four digits. */
  predicate CanonicalYear(bcs: map<nat, BonCommande>, year: int) {
    forall k :: k in bcs && OfYear(bcs[k].numeroBc, year) ==>
      exists s: nat :: s <= 9999 && bcs[k].numeroBc == GenerateNumeroBc(year, s)
  }

  /** Among generated numbers of one year with four-digit sequences, text order is the order of the sequences. */
  lemma GeneratedTextOrder(year: int, a: nat, b: nat)
    requires a <= 9999 && b <= 9999
    requires StrLe(GenerateNumeroBc(year, a), GenerateNumeroBc(year, b))
    ensures a <= b
  {
    var p := "BC-" + IntToString(year) + "-";
    var za, zb := ZeroPad(a, 4), ZeroPad(b, 4);
    assert GenerateNumeroBc(year, a) == p + za;
    assert GenerateNumeroBc(year, b) == p + zb;
    StrLeCommonPrefix(p, za, zb);
    NatToStringShort(a);
    NatToStringShort(b);
    StrLeDigits(za, zb);
    ParseZeroPad(a, 4);
    ParseZeroPad(b, 4);
  }

  /** A canonical number of the year reads back as its own sequence. */
  lemma CanonicalSequence(bcs: map<nat, BonCommande>, year: int, k: nat) returns (s: nat)
    requires CanonicalYear(bcs, year) && k in bcs && OfYear(bcs[k].numeroBc, year)
    ensures s <= 9999 && bcs[k].numeroBc == GenerateNumeroBc(year, s)
    ensures SequenceOf(bcs[k].numeroBc) == Some(s)
  {
    s :| s <= 9999 && bcs[k].numeroBc == GenerateNumeroBc(year, s);
    GeneratedFields(year, s);
  }

  /** While the year's numbers are canonical, the greatest in text order carries the greatest sequence. */
  lemma LastCarriesMaxSequence(bcs: map<nat, BonCommande>, year: int)
    requires CanonicalYear(bcs, year) && AnyOfYear(bcs, year)
    ensures SequenceOf(LastNumero(bcs, year).value).Some?
    ensures SequenceOf(LastNumero(bcs, year).value).value == MaxSequence(bcs, year)
  {
    var last := LastNumero(bcs, year).value;
    var k0 :| k0 in bcs && bcs[k0].numeroBc == last;
    assert OfYear(bcs[k0].numeroBc, year);
    var s0 := CanonicalSequence(bcs, year, k0);
    var m := MaxSequence(bcs, year);
    assert s0 <= m;
    if m != 0 {
      var k1 :| k1 in bcs && OfYear(bcs[k1].numeroBc, year) && SequenceOf(bcs[k1].numeroBc) == Some(m);
      var s1 := CanonicalSequence(bcs, year, k1);
      assert s1 == m;
      assert StrLe(bcs[k1].numeroBc, last);
      GeneratedTextOrder(year, s1, s0);
      assert s0 == m;
    }
    assert SequenceOf(last) == Some(s0);
    assert s0 == m;
  }

  /**
   * While every number of the year is canonical, the generator as written
   * and the corrected one propose the same number: text order and number
   * order agree on four-digit sequences.
   */
  lemma GeneratorsAgree(bcs: map<nat, BonCommande>, year: int)
    requires CanonicalYear(bcs, year)
    ensures GenerateNextNumero(bcs, year) == Some(GenerateFreshNumero(bcs, year))
  {
    SequencesAgree(bcs, year);
    NextNumeroOf(bcs, year, MaxSequence(bcs, year) + 1);
  }

  /** While the year's numbers are canonical, the sequence as written is the greatest sequence plus one. */
  lemma SequencesAgree(bcs: map<nat, BonCommande>, year: int)
    requires CanonicalYear(bcs, year)
    ensures NextSequence(bcs, year).Some? && NextSequence(bcs, year).value == MaxSequence(bcs, year) + 1
  {
    if AnyOfYear(bcs, year) {
      LastCarriesMaxSequence(bcs, year);
      NextSequenceOf(bcs, year, MaxSequence(bcs, year));
    }
  }

  /** The sequence as written follows the sequence field of the greatest number in text order. */
  lemma NextSequenceOf(bcs: map<nat, BonCommande>, year: int, s: int)
    requires AnyOfYear(bcs, year)
    requires SequenceOf(LastNumero(bcs, year).value).Some? && SequenceOf(LastNumero(bcs, year).value).value == s
    ensures NextSequence(bcs, year).Some? && NextSequence(bcs, year).value == s + 1
  {
  }

  /** The generator as written hands out the generated number of the sequence it computes. */
  lemma NextNumeroOf(bcs: map<nat, BonCommande>, year: int, s: int)
    requires NextSequence(bcs, year) == Some(s)
    ensures GenerateNextNumero(bcs, year) == Some(GenerateNumeroBc(year, s))
  {
  }

  /**
   * The corrected generator never proposes a number that is already on
   * file: its sequence field is greater than that of every number of the year.
   */
  lemma NumeroFresh(bcs: map<nat, BonCommande>, year: int)
    ensures forall k :: k in bcs ==> bcs[k].numeroBc != GenerateFreshNumero(bcs, year)
  {
    var m: nat := MaxSequence(bcs, year) + 1;
    var g := GenerateNumeroBc(year, m);
    GeneratedFields(year, m);
    assert GenerateFreshNumero(bcs, year) == g;
    forall k | k in bcs ensures bcs[k].numeroBc != g {
      var n := bcs[k].numeroBc;
      assert OfYear(n, year) && SequenceOf(n).Some? ==> SequenceOf(n).value < m;
    }
  }
}

=== FILE: budget_manager.dfy ===
/**
 * The budget ledger: one budget per (client, year, nature) holding what was
 * granted (`montantInitial`), what was spent (`montantConsomme`) and what is
 * left (`montantDisponible`). Creation and the carry-over to a new year go
 * through the insert trigger, which makes the row balanced; an edit does not
 * touch the spent and available amounts.
 */
module BudgetManager {
  import opened Wrappers
  import opened Text
  import opened Validators
  import opened Models
  import opened Sorting
  import opened Tables

  // ---------------------------------------------------------------- queries

  /** The client name the JOIN brings in ("" when the client row is missing). */
  function ClientNom(clients: map<nat, Client>, id: nat): string {
    if id in clients then clients[id].nom else ""
  }

  /** `ORDER BY b.annee DESC, c.nom`, then the row id. */
  function BudgetListKey(clients: map<nat, Client>): Budget -> seq<Atom> {
    (b: Budget) => [Num(-b.annee), Asc(ClientNom(clients, b.clientId)), Num(b.id)]
  }

  /**
   * The WHERE clause of `get_all_budgets`: the client row must exist (inner
   * JOIN); a year of 0 or an empty nature is no filter (Python truthiness).
   */
  predicate Listed(b: Budget, clients: map<nat, Client>, annee: int, nature: string) {
    b.clientId in clients && (annee == 0 || b.annee == annee) && (nature == "" || b.nature == nature)
  }

  /** `get_all_budgets(annee, nature)`. */
  function GetAllBudgets(budgets: map<nat, Budget>, clients: map<nat, Client>, annee: int, nature: string)
    : (r: seq<Budget>)
    ensures forall b :: b in r <==> b in budgets.Values && Listed(b, clients, annee, nature)
    ensures forall i, j :: 0 <= i < j < |r| ==> KeyLe(BudgetListKey(clients)(r[i]), BudgetListKey(clients)(r[j]))
  {
    Select(budgets, (b: Budget) => Listed(b, clients, annee, nature), BudgetListKey(clients))
  }

  /** Some budget has the key (client, year, nature). */
  predicate HasBudget(budgets: map<nat, Budget>, clientId: nat, annee: int, nature: string) {
    exists k :: k in budgets && BudgetKey(budgets[k]) == (clientId, annee, nature)
  }

  /**
   * `get_budget_by_client_year_nature`: the first row, in id order, with
   * that key, if any.
   */
  function FindBudget(budgets: map<nat, Budget>, clientId: nat, annee: int, nature: string): (r: Option<Budget>)
    ensures r.Some? <==> HasBudget(budgets, clientId, annee, nature)
    ensures r.Some? ==> r.value in budgets.Values && BudgetKey(r.value) == (clientId, annee, nature)
    decreases |budgets|
  {
    if budgets == map[] then None
    else
      MaxExists(budgets.Keys);
      var k :| IsMaxOf(k, budgets.Keys);
      var earlier := FindBudget(budgets - {k}, clientId, annee, nature);
      if earlier.Some? then
        assert earlier.value in budgets.Values by {
          var j :| j in budgets - {k} && (budgets - {k})[j] == earlier.value;
          assert budgets[j] == earlier.value;
        }
        earlier
      else if BudgetKey(budgets[k]) == (clientId, annee, nature) then Some(budgets[k])
      else
        assert !HasBudget(budgets, clientId, annee, nature) by {
          forall j | j in budgets ensures BudgetKey(budgets[j]) != (clientId, annee, nature) {
            if j != k {
              assert (budgets - {k})[j] == budgets[j];
            }
          }
        }
        None
  }

  // ---------------------------------------------------------------- create

  /** A nature from the allowed list is never blank. */
  lemma NatureRequired(nature: string)
    ensures nature in Natures ==> ValidateRequiredField(nature)
  {
    if nature in Natures {
      RequiredFieldOfAllowed(nature, Natures);
    }
  }

  /**
   * The checks of `create_budget`, in their order. (The required-field test
   * on `str(annee)` cannot fail: the text of an integer is never blank.)
   */
  function CreateBudgetCheck(b: Budget, budgets: map<nat, Budget>, currentYear: int): (e: Option<Error>)
    ensures e.None? <==>
              b.clientId != 0 && ValidateAnnee(b.annee, currentYear) && b.nature in Natures
              && b.montantInitial >= 0.0 && !HasBudget(budgets, b.clientId, b.annee, b.nature)
    ensures b.clientId == 0 ==> e == Some(ClientRequired)
    ensures e == Some(Duplicate) <==>
              b.clientId != 0 && ValidateAnnee(b.annee, currentYear) && b.nature in Natures
              && b.montantInitial >= 0.0 && HasBudget(budgets, b.clientId, b.annee, b.nature)
  {
    NatureRequired(b.nature);
    if b.clientId == 0 then Some(ClientRequired)
    else if !ValidateAnnee(b.annee, currentYear) then Some(InvalidYear)
    else if !ValidateRequiredField(b.nature) then Some(FieldRequired("Nature"))
    else if b.nature !in Natures then Some(InvalidNature)
    else if !ValidateMontant(b.montantInitial) then Some(InvalidAmount)
    else if FindBudget(budgets, b.clientId, b.annee, b.nature).Some? then Some(Duplicate)
    else None
  }

  /** `create_budget`. */
  method CreateBudget(db: Database, b: Budget, currentYear: int) returns (o: Outcome)
    requires db.ValidBudgets()
    modifies db`budgets, db`lastBudget
    ensures db.ValidBudgets()
    ensures CreateBudgetCheck(b, old(db.budgets), currentYear).Some? ==>
              o == Failed(CreateBudgetCheck(b, old(db.budgets), currentYear).value)
              && db.budgets == old(db.budgets) && db.lastBudget == old(db.lastBudget)
    ensures CreateBudgetCheck(b, old(db.budgets), currentYear).None? ==>
              o == Created(old(db.lastBudget) + 1) && o.id !in old(db.budgets)
              && db.budgets == old(db.budgets)[o.id := InsertedBudget(b, o.id)] && db.lastBudget == o.id
  {
    var e := CreateBudgetCheck(b, db.budgets, currentYear);
    if e.Some? {
      return Failed(e.value);
    }
    var id := db.InsertBudget(b);
    o := Created(id);
  }

  // ---------------------------------------------------------------- update and delete

  /** The checks of `update_budget`, in their order. */
  function UpdateBudgetCheck(b: Budget, currentYear: int): (e: Option<Error>)
    ensures e.None? <==>
              b.id != 0 && b.clientId != 0 && ValidateAnnee(b.annee, currentYear) && b.nature in Natures
              && b.montantInitial >= 0.0
    ensures b.id == 0 ==> e == Some(IdRequired)
  {
    NatureRequired(b.nature);
    if b.id == 0 then Some(IdRequired)
    else if b.clientId == 0 then Some(ClientRequired)
    else if !ValidateAnnee(b.annee, currentYear) then Some(InvalidYear)
    else if !ValidateRequiredField(b.nature) then Some(FieldRequired("Nature"))
    else if b.nature !in Natures then Some(InvalidNature)
    else if !ValidateMontant(b.montantInitial) then Some(InvalidAmount)
    else None
  }

  /**
   * The row after `update_budget`'s UPDATE: client, year, nature, initial
   * amount and service are written; spent and available are not.
   */
  function EditedBudget(row: Budget, b: Budget): (r: Budget)
    ensures BudgetKey(r) == BudgetKey(b) && r.id == row.id && r.montantInitial == b.montantInitial
    ensures r.montantConsomme == row.montantConsomme && r.montantDisponible == row.montantDisponible
  {
    row.(clientId := b.clientId, annee := b.annee, nature := b.nature,
         montantInitial := b.montantInitial, serviceDemandeur := b.serviceDemandeur)
  }

  /**
   * An edit keeps a balanced row balanced exactly when it keeps the initial
   * amount: changing the grant leaves `montantDisponible` stale.
   */
  lemma EditedBudgetBalance(row: Budget, b: Budget)
    requires Balanced(row)
    ensures Balanced(EditedBudget(row, b)) <==> b.montantInitial == row.montantInitial
  {
  }

  /** Another row already holds the (client, year, nature) that `b` asks for. */
  predicate KeyTakenByOther(budgets: map<nat, Budget>, b: Budget) {
    exists k :: k in budgets && k != b.id && BudgetKey(budgets[k]) == BudgetKey(b)
  }

  /**
   * `update_budget`. The UNIQUE constraint rejects a key held by another
   * row (the error is caught and reported); a missing id updates nothing
   * and still reports success.
   */
  method UpdateBudget(db: Database, b: Budget, currentYear: int) returns (o: Outcome)
    requires db.ValidBudgets()
    modifies db`budgets
    ensures db.ValidBudgets()
    ensures UpdateBudgetCheck(b, currentYear).Some? ==>
              o == Failed(UpdateBudgetCheck(b, currentYear).value) && db.budgets == old(db.budgets)
    ensures UpdateBudgetCheck(b, currentYear).None? && b.id !in old(db.budgets) ==>
              o == Done && db.budgets == old(db.budgets)
    ensures UpdateBudgetCheck(b, currentYear).None? && b.id in old(db.budgets) && KeyTakenByOther(old(db.budgets), b) ==>
              o == Failed(StorageError) && db.budgets == old(db.budgets)
    ensures UpdateBudgetCheck(b, currentYear).None? && b.id in old(db.budgets) && !KeyTakenByOther(old(db.budgets), b) ==>
              o == Done && db.budgets == old(db.budgets)[b.id := EditedBudget(old(db.budgets)[b.id], b)]
  {
    var e := UpdateBudgetCheck(b, currentYear);
    if e.Some? {
      return Failed(e.value);
    }
    if b.id !in db.budgets {
      return Done;
    }
    if exists k | k in db.budgets :: k != b.id && BudgetKey(db.budgets[k]) == BudgetKey(b) {
      return Failed(StorageError);
    }
    db.ReplaceBudget(EditedBudget(db.budgets[b.id], b));
    o := Done;
  }

  /** `delete_budget`: the row goes, whatever purchase orders were charged to it. */
  method DeleteBudget(db: Database, id: nat) returns (o: Outcome)
    requires db.ValidBudgets()
    modifies db`budgets
    ensures db.ValidBudgets()
    ensures o == Done && db.budgets == old(db.budgets) - {id}
  {
    db.RemoveBudget(id);
    o := Done;
  }

  // ---------------------------------------------------------------- carry-over

  /**
   * After a carry-over, a source budget either has a counterpart for the
   * target year or could not get one: the target year is refused, or the
   * amount left over is negative and `create_budget` rejects it.
   */
  predicate Reported(budgets: map<nat, Budget>, s: Budget, toYear: int, currentYear: int) {
    HasBudget(budgets, s.clientId, toYear, s.nature) || !ValidateAnnee(toYear, currentYear) || s.montantDisponible < 0.0
  }

  /** Every budget a carry-over from `fromYear` would read is `Reported`. */
  predicate Settled(budgets: map<nat, Budget>, clients: map<nat, Client>, fromYear: int, toYear: int, currentYear: int) {
    forall s :: s in budgets.Values && Listed(s, clients, fromYear, "") ==> Reported(budgets, s, toYear, currentYear)
  }

  /** A row created by the carry-over: the leftover of a source, nothing spent yet. */
  predicate CarriedOver(row: Budget, sources: seq<Budget>, toYear: int) {
    row.annee == toYear && row.montantConsomme == 0.0 && Balanced(row)
    && exists s :: s in sources && s.clientId == row.clientId && s.nature == row.nature
                   && row.montantInitial == s.montantDisponible && row.serviceDemandeur == s.serviceDemandeur
  }

  /** Every row of `before` is still in `after`, unchanged. */
  predicate Grows(before: map<nat, Budget>, after: map<nat, Budget>) {
    forall k :: k in before ==> k in after && after[k] == before[k]
  }

  /** Every row of `after` that `before` did not have is carried over from `sources`. */
  predicate AddedCarried(before: map<nat, Budget>, after: map<nat, Budget>, sources: seq<Budget>, toYear: int) {
    forall k :: k in after && k !in before ==> CarriedOver(after[k], sources, toYear)
  }

  /** A row whose key exists keeps existing when rows are only added. */
  lemma HasBudgetGrows(small: map<nat, Budget>, big: map<nat, Budget>, clientId: nat, annee: int, nature: string)
    requires Grows(small, big)
    requires HasBudget(small, clientId, annee, nature)
    ensures HasBudget(big, clientId, annee, nature)
  {
    var k :| k in small && BudgetKey(small[k]) == (clientId, annee, nature);
    assert k in big && BudgetKey(big[k]) == (clientId, annee, nature);
  }

  /** The first `n` sources are `Reported`. */
  ghost predicate ReportedUpTo(budgets: map<nat, Budget>, sources: seq<Budget>, n: nat, toYear: int, currentYear: int)
    requires n <= |sources|
    decreases n
  {
    n == 0 || (ReportedUpTo(budgets, sources, n - 1, toYear, currentYear) && Reported(budgets, sources[n - 1], toYear, currentYear))
  }

  /** Adding rows keeps every source reported. */
  lemma {:induction false} ReportedUpToGrows(small: map<nat, Budget>, big: map<nat, Budget>, sources: seq<Budget>, n: nat,
                                             toYear: int, currentYear: int)
    requires n <= |sources| && Grows(small, big)
    requires ReportedUpTo(small, sources, n, toYear, currentYear)
    ensures ReportedUpTo(big, sources, n, toYear, currentYear)
    decreases n
  {
    if n > 0 {
      ReportedUpToGrows(small, big, sources, n - 1, toYear, currentYear);
      var s := sources[n - 1];
      if HasBudget(small, s.clientId, toYear, s.nature) {
        HasBudgetGrows(small, big, s.clientId, toYear, s.nature);
      }
    }
  }

  lemma {:induction false} ReportedUpToAll(budgets: map<nat, Budget>, sources: seq<Budget>, n: nat, toYear: int, currentYear: int)
    requires n <= |sources| && ReportedUpTo(budgets, sources, n, toYear, currentYear)
    ensures forall j :: 0 <= j < n ==> Reported(budgets, sources[j], toYear, currentYear)
    decreases n
  {
    if n > 0 {
      ReportedUpToAll(budgets, sources, n - 1, toYear, currentYear);
    }
  }

  /** The budget `report_budgets` asks `create_budget` for: the leftover of `s`, nothing spent. */
  function CarriedBudget(s: Budget, toYear: int): (nb: Budget)
    ensures nb.clientId == s.clientId && nb.annee == toYear && nb.nature == s.nature
    ensures nb.montantInitial == s.montantDisponible && nb.montantConsomme == 0.0
    ensures nb.serviceDemandeur == s.serviceDemandeur
  {
    Budget(0, s.clientId, toYear, s.nature, s.montantDisponible, 0.0, 0.0, s.serviceDemandeur)
  }

  /** The row `create_budget` stores for a source is carried over from it. */
  lemma CarriedRow(s: Budget, sources: seq<Budget>, toYear: int, id: nat)
    requires s in sources
    ensures CarriedOver(InsertedBudget(CarriedBudget(s, toYear), id), sources, toYear)
  {
  }

  /** Adding a row under a fresh id keeps every row there was. */
  lemma GrowsByNewRow(before: map<nat, Budget>, prev: map<nat, Budget>, id: nat, row: Budget)
    requires id !in prev && Grows(before, prev)
    ensures Grows(prev, prev[id := row]) && Grows(before, prev[id := row])
  {
    forall k | k in prev ensures k in prev[id := row] && prev[id := row][k] == prev[k] {
      assert k != id;
    }
  }

  /** Adding a carried-over row keeps every added row carried over. */
  lemma AddedCarriedStep(before: map<nat, Budget>, prev: map<nat, Budget>, id: nat, row: Budget,
                         sources: seq<Budget>, toYear: int)
    requires CarriedOver(row, sources, toYear) && AddedCarried(before, prev, sources, toYear)
    ensures AddedCarried(before, prev[id := row], sources, toYear)
  {
    var next := prev[id := row];
    forall k | k in next && k !in before ensures CarriedOver(next[k], sources, toYear) {
      if k != id {
        assert next[k] == prev[k];
      }
    }
  }

  /** A row added under a fresh id is one more row that `before` did not have. */
  lemma NewKeyCount(before: map<nat, Budget>, prev: map<nat, Budget>, id: nat, row: Budget)
    requires id !in prev && Grows(before, prev)
    ensures |prev[id := row].Keys - before.Keys| == |prev.Keys - before.Keys| + 1
  {
    assert id !in before;
    assert prev[id := row].Keys - before.Keys == (prev.Keys - before.Keys) + {id};
  }


  /**
   * The body of the loop of `report_budgets` for one source budget: when
   * no budget has its client and nature for `toYear`, `create_budget` is
   * asked for the carried-over one. `id` is the new row's id, 0 when none
   * was created.
   */
  method ReportOne(db: Database, s: Budget, toYear: int, currentYear: int) returns (id: nat)
    requires db.ValidBudgets() && s.clientId != 0 && s.nature in Natures
    modifies db`budgets, db`lastBudget
    ensures db.ValidBudgets()
    ensures Reported(db.budgets, s, toYear, currentYear)
    ensures id == 0 ==> db.budgets == old(db.budgets)
    ensures id != 0 ==> id !in old(db.budgets)
                        && db.budgets == old(db.budgets)[id := InsertedBudget(CarriedBudget(s, toYear), id)]
    ensures Reported(old(db.budgets), s, toYear, currentYear) ==> id == 0
  {
    id := 0;
    if FindBudget(db.budgets, s.clientId, toYear, s.nature).None? {
      ghost var prev := db.budgets;
      var created := CreateBudget(db, CarriedBudget(s, toYear), currentYear);
      if created.Created? {
        id := created.id;
        assert BudgetKey(db.budgets[id]) == (s.clientId, toYear, s.nature);
      } else {
        RefusedCarryOver(prev, s, toYear, currentYear);
      }
    }
  }

  /** Some budget is listed for `fromYear` (every year when it is 0). */
  ghost predicate AnyListed(budgets: map<nat, Budget>, clients: map<nat, Client>, fromYear: int) {
    exists k :: k in budgets && Listed(budgets[k], clients, fromYear, "")
  }

  /** A row carried over from a budget `before` lists for `fromYear`. */
  ghost predicate CarriedFromListed(row: Budget, before: map<nat, Budget>, clients: map<nat, Client>, fromYear: int, toYear: int) {
    row.annee == toYear && row.montantConsomme == 0.0 && Balanced(row)
    && exists k :: k in before && Listed(before[k], clients, fromYear, "")
                   && before[k].clientId == row.clientId && before[k].nature == row.nature
                   && row.montantInitial == before[k].montantDisponible
                   && row.serviceDemandeur == before[k].serviceDemandeur
  }

  /** Every row of `after` that `before` did not have is carried over from a listed budget. */
  ghost predicate AddedFromListed(before: map<nat, Budget>, after: map<nat, Budget>, clients: map<nat, Client>,
                                  fromYear: int, toYear: int) {
    forall k :: k in after && k !in before ==> CarriedFromListed(after[k], before, clients, fromYear, toYear)
  }

  /** `sources` holds exactly the budgets listed for `fromYear`. */
  ghost predicate ListsExactly(sources: seq<Budget>, budgets: map<nat, Budget>, clients: map<nat, Client>, fromYear: int) {
    forall s :: s in sources <==> s in budgets.Values && Listed(s, clients, fromYear, "")
  }

  /**
   * What the listing of `fromYear` tells the carry-over: it is empty exactly
   * when no budget is listed, its budgets name an existing client (ids start
   * at 1) and an allowed nature, and on a settled table they are all reported.
   */
  lemma ListedSources(db: Database, fromYear: int, toYear: int, currentYear: int, sources: seq<Budget>)
    requires db.ValidBudgets() && db.ValidClients()
    requires sources == GetAllBudgets(db.budgets, db.clients, fromYear, "")
    ensures sources == [] <==> !AnyListed(db.budgets, db.clients, fromYear)
    ensures ListsExactly(sources, db.budgets, db.clients, fromYear)
    ensures forall s :: s in sources ==> s.clientId != 0 && s.nature in Natures
    ensures Settled(db.budgets, db.clients, fromYear, toYear, currentYear) ==>
              forall s :: s in sources ==> Reported(db.budgets, s, toYear, currentYear)
  {
    if sources != [] {
      assert sources[0] in sources;
    }
    if AnyListed(db.budgets, db.clients, fromYear) {
      var k :| k in db.budgets && Listed(db.budgets[k], db.clients, fromYear, "");
      assert db.budgets[k] in sources;
    }
    forall s | s in sources ensures s.clientId != 0 && s.nature in Natures {
      var k :| k in db.budgets && db.budgets[k] == s;
      assert s.clientId in db.clients;
    }
  }

  /**
   * When the loop has reported every source, the table is settled: a row it
   * created is listed only when `fromYear` is 0 or `toYear`, and then it is
   * its own counterpart. Every row it created comes from a listed budget.
   */
  lemma CarryOverSettles(before: map<nat, Budget>, after: map<nat, Budget>, clients: map<nat, Client>,
                         sources: seq<Budget>, fromYear: int, toYear: int, currentYear: int)
    requires ListsExactly(sources, before, clients, fromYear)
    requires Grows(before, after) && AddedCarried(before, after, sources, toYear)
    requires forall s :: s in sources ==> Reported(after, s, toYear, currentYear)
    ensures Settled(after, clients, fromYear, toYear, currentYear)
    ensures AddedFromListed(before, after, clients, fromYear, toYear)
  {
    forall s | s in after.Values && Listed(s, clients, fromYear, "") ensures Reported(after, s, toYear, currentYear) {
      var k :| k in after && after[k] == s;
      if k in before {
        assert before[k] == s && s in before.Values;
        assert s in sources;
      } else {
        assert CarriedOver(after[k], sources, toYear);
        assert BudgetKey(after[k]) == (s.clientId, toYear, s.nature);
      }
    }
    forall k | k in after && k !in before ensures CarriedFromListed(after[k], before, clients, fromYear, toYear) {
      assert CarriedOver(after[k], sources, toYear);
      var s :| s in sources && s.clientId == after[k].clientId && s.nature == after[k].nature
               && after[k].montantInitial == s.montantDisponible && after[k].serviceDemandeur == s.serviceDemandeur;
      var j :| j in before && before[j] == s;
    }
  }

  /**
   * When `create_budget` refuses the carried-over row of a source that has
   * no counterpart, the target year or the leftover amount is at fault.
   */
  lemma RefusedCarryOver(budgets: map<nat, Budget>, s: Budget, toYear: int, currentYear: int)
    requires s.clientId != 0 && s.nature in Natures
    requires CreateBudgetCheck(CarriedBudget(s, toYear), budgets, currentYear).Some?
    ensures Reported(budgets, s, toYear, currentYear)
  {
  }

  /**
   * The loop of `report_budgets` over the listed source budgets: each one
   * without a counterpart for `toYear` is handed to `create_budget`, and the
   * successful creations are counted.
   */
  method CarryOver(db: Database, sources: seq<Budget>, toYear: int, currentYear: int) returns (count: nat)
    requires db.ValidBudgets()
    requires forall s :: s in sources ==> s.clientId != 0 && s.nature in Natures
    modifies db`budgets, db`lastBudget
    ensures db.ValidBudgets()
    ensures Grows(old(db.budgets), db.budgets) && AddedCarried(old(db.budgets), db.budgets, sources, toYear)
    ensures count == |db.budgets.Keys - old(db.budgets).Keys|
    ensures forall s :: s in sources ==> Reported(db.budgets, s, toYear, currentYear)
    ensures (forall s :: s in sources ==> Reported(old(db.budgets), s, toYear, currentYear)) ==>
              count == 0 && db.budgets == old(db.budgets)
  {
    ghost var before := db.budgets;
    ghost var allReported := forall s :: s in sources ==> Reported(before, s, toYear, currentYear);
    count := 0;
    for i := 0 to |sources|
      invariant db.ValidBudgets()
      invariant Grows(before, db.budgets) && AddedCarried(before, db.budgets, sources, toYear)
      invariant count == |db.budgets.Keys - before.Keys|
      invariant ReportedUpTo(db.budgets, sources, i, toYear, currentYear)
      invariant allReported ==> db.budgets == before
    {
      var s := sources[i];
      assert s in sources;
      ghost var prev := db.budgets;
      var id := ReportOne(db, s, toYear, currentYear);
      if id != 0 {
        CarriedRow(s, sources, toYear, id);
        ghost var row := InsertedBudget(CarriedBudget(s, toYear), id);
        GrowsByNewRow(before, prev, id, row);
        AddedCarriedStep(before, prev, id, row, sources, toYear);
        NewKeyCount(before, prev, id, row);
        ReportedUpToGrows(prev, db.budgets, sources, i, toYear, currentYear);
        count := count + 1;
      }
    }
    ReportedUpToAll(db.budgets, sources, |sources|, toYear, currentYear);
    forall s | s in sources ensures Reported(db.budgets, s, toYear, currentYear) {
      var j :| 0 <= j < |sources| && sources[j] == s;
    }
  }

  /**
   * `report_budgets(from_year, to_year)`: every budget of `from_year` (all
   * budgets when it is 0) whose client, `to_year` and nature has no budget
   * yet gets one, granted what the source has left and with nothing spent.
   * `count` is the number in the returned message.
   */
  method ReportBudgets(db: Database, fromYear: int, toYear: int, currentYear: int) returns (o: Outcome, count: nat)
    requires db.ValidBudgets() && db.ValidClients()
    modifies db`budgets, db`lastBudget
    ensures db.ValidBudgets()
    ensures !AnyListed(old(db.budgets), db.clients, fromYear) ==>
              o == Failed(NoBudgetsForYear) && count == 0 && db.budgets == old(db.budgets)
    ensures AnyListed(old(db.budgets), db.clients, fromYear) ==>
              o == Done && Settled(db.budgets, db.clients, fromYear, toYear, currentYear)
    ensures Grows(old(db.budgets), db.budgets)
    ensures count == |db.budgets.Keys - old(db.budgets).Keys|
    ensures AddedFromListed(old(db.budgets), db.budgets, db.clients, fromYear, toYear)
    ensures Settled(old(db.budgets), db.clients, fromYear, toYear, currentYear) ==>
              count == 0 && db.budgets == old(db.budgets)
  {
    var sources := GetAllBudgets(db.budgets, db.clients, fromYear, "");
    ListedSources(db, fromYear, toYear, currentYear, sources);
    if sources == [] {
      return Failed(NoBudgetsForYear), 0;
    }
    ghost var before := db.budgets;
    count := CarryOver(db, sources, toYear, currentYear);
    CarryOverSettles(before, db.budgets, db.clients, sources, fromYear, toYear, currentYear);
    o := Done;
  }

  /** Run twice with the same years, the carry-over creates nothing the second time. */
  method ReportTwice(db: Database, fromYear: int, toYear: int, currentYear: int) returns (first: nat, second: nat)
    requires db.ValidBudgets() && db.ValidClients()
    modifies db`budgets, db`lastBudget
    ensures second == 0
  {
    var o1, o2;
    o1, first := ReportBudgets(db, fromYear, toYear, currentYear);
    o2, second := ReportBudgets(db, fromYear, toYear, currentYear);
  }
}

=== FILE: client_manager.dfy ===
/**
 * Clients: a name that no two clients share, optional contact details that
 * must be well formed when given, and an `actif` flag that stands in for
 * deletion.
 */
module ClientManager {
  import opened Wrappers
  import opened Text
  import opened Validators
  import opened Models
  import opened Sorting
  import opened Tables

  // ---------------------------------------------------------------- listing

  /** `ORDER BY nom`, then the row id. */
  function ClientListKey(c: Client): seq<Atom> {
    [Asc(c.nom), Num(c.id)]
  }

  lemma ClientListKeyOrder(x: Client, y: Client)
    requires KeyLe(ClientListKey(x), ClientListKey(y))
    ensures StrLe(x.nom, y.nom)
  {
    if x.nom == y.nom {
      StrLeReflexive(x.nom);
    }
  }

  /** The WHERE clause of `get_all_clients`: the inactive clients only on request. */
  function ClientFilter(includeInactive: bool): Client -> bool {
    (c: Client) => includeInactive || c.actif
  }

  /** `get_all_clients(include_inactive)`: the clients in name order. */
  function GetAllClients(clients: map<nat, Client>, includeInactive: bool): (r: seq<Client>)
    ensures forall c :: c in r <==> c in clients.Values && (includeInactive || c.actif)
    ensures forall i, j :: 0 <= i < j < |r| ==> StrLe(r[i].nom, r[j].nom)
  {
    var r := Select(clients, ClientFilter(includeInactive), ClientListKey);
    forall i, j | 0 <= i < j < |r| ensures StrLe(r[i].nom, r[j].nom) {
      ClientListKeyOrder(r[i], r[j]);
    }
    r
  }

  // ---------------------------------------------------------------- create and update

  /** Some client has the name. */
  predicate NomHeld(clients: map<nat, Client>, nom: string) {
    exists k :: k in clients && clients[k].nom == nom
  }

  /** `existing` lists exactly the names on file, as a caller of `validate_unique_field` would pass them. */
  predicate ListsNoms(clients: map<nat, Client>, existing: seq<string>) {
    (forall k :: k in clients ==> clients[k].nom in existing)
    && forall i :: 0 <= i < |existing| ==> NomHeld(clients, existing[i])
  }

  /** Checked against the names on file, `validate_unique_field` refuses exactly the names already held. */
  lemma UniqueFieldIsNomFree(clients: map<nat, Client>, nom: string, existing: seq<string>)
    requires ListsNoms(clients, existing)
    ensures ValidateUniqueField(nom, existing) <==> !NomHeld(clients, nom)
  {
    if nom in existing {
      var i :| 0 <= i < |existing| && existing[i] == nom;
      assert NomHeld(clients, existing[i]);
    }
  }

  /** Some client other than `id` has the name. */
  predicate NomHeldByOther(clients: map<nat, Client>, nom: string, id: nat) {
    exists k :: k in clients && k != id && clients[k].nom == nom
  }

  /** The field checks shared by create and update, in their order; empty details are not checked. */
  function ClientFieldsCheck(c: Client): (e: Option<Error>)
    ensures e.None? <==> ValidateRequiredField(c.nom) && ValidateEmail(c.email) && ValidateTelephone(c.telephone)
    ensures !ValidateRequiredField(c.nom) ==> e == Some(FieldRequired("Nom"))
    ensures ValidateRequiredField(c.nom) && !ValidateEmail(c.email) ==> e == Some(InvalidEmail)
  {
    if !ValidateRequiredField(c.nom) then Some(FieldRequired("Nom"))
    else if c.email != "" && !ValidateEmail(c.email) then Some(InvalidEmail)
    else if c.telephone != "" && !ValidateTelephone(c.telephone) then Some(InvalidTelephone)
    else None
  }

  /** The checks of `create_client`: the fields, then a name no client has. */
  function CreateClientCheck(c: Client, clients: map<nat, Client>): (e: Option<Error>)
    ensures e.None? <==> ClientFieldsCheck(c).None? && !NomHeld(clients, c.nom)
    ensures ClientFieldsCheck(c).None? && NomHeld(clients, c.nom) ==> e == Some(Duplicate)
  {
    if ClientFieldsCheck(c).Some? then ClientFieldsCheck(c)
    else if exists k | k in clients :: clients[k].nom == c.nom then Some(Duplicate)
    else None
  }

  /** `create_client`: the row is stored as given, under the next id. */
  method CreateClient(db: Database, c: Client) returns (o: Outcome)
    requires db.ValidClients()
    modifies db`clients, db`lastClient
    ensures db.ValidClients()
    ensures CreateClientCheck(c, old(db.clients)).Some? ==>
              o == Failed(CreateClientCheck(c, old(db.clients)).value)
              && db.clients == old(db.clients) && db.lastClient == old(db.lastClient)
    ensures CreateClientCheck(c, old(db.clients)).None? ==>
              o == Created(old(db.lastClient) + 1) && o.id !in old(db.clients)
              && db.clients == old(db.clients)[o.id := c.(id := o.id)] && db.lastClient == o.id
  {
    var e := CreateClientCheck(c, db.clients);
    if e.Some? {
      return Failed(e.value);
    }
    var id := db.InsertClient(c);
    o := Created(id);
  }

  /** The checks of `update_client`: an id, the fields, then a name no other client has. */
  function UpdateClientCheck(c: Client, clients: map<nat, Client>): (e: Option<Error>)
    ensures e.None? <==> c.id != 0 && ClientFieldsCheck(c).None? && !NomHeldByOther(clients, c.nom, c.id)
    ensures c.id == 0 ==> e == Some(IdRequired)
    ensures c.id != 0 && ClientFieldsCheck(c).None? && NomHeldByOther(clients, c.nom, c.id) ==> e == Some(Duplicate)
  {
    if c.id == 0 then Some(IdRequired)
    else if ClientFieldsCheck(c).Some? then ClientFieldsCheck(c)
    else if exists k | k in clients :: k != c.id && clients[k].nom == c.nom then Some(Duplicate)
    else None
  }

  /**
   * `update_client`: every field, `actif` included, is written. A client
   * keeping its own name is no duplicate; an id with no row is a success
   * that changes nothing.
   */
  method UpdateClient(db: Database, c: Client) returns (o: Outcome)
    requires db.ValidClients()
    modifies db`clients
    ensures db.ValidClients()
    ensures UpdateClientCheck(c, old(db.clients)).Some? ==>
              o == Failed(UpdateClientCheck(c, old(db.clients)).value) && db.clients == old(db.clients)
    ensures UpdateClientCheck(c, old(db.clients)).None? && c.id in old(db.clients) ==>
              o == Done && db.clients == old(db.clients)[c.id := c]
    ensures UpdateClientCheck(c, old(db.clients)).None? && c.id !in old(db.clients) ==>
              o == Done && db.clients == old(db.clients)
  {
    var e := UpdateClientCheck(c, db.clients);
    if e.Some? {
      return Failed(e.value);
    }
    if c.id in db.clients {
      db.ReplaceClient(c);
    }
    o := Done;
  }

  // ---------------------------------------------------------------- activation

  /** The table after `UPDATE clients SET actif = ? WHERE id = ?`. */
  function WithActif(clients: map<nat, Client>, id: nat, actif: bool): (r: map<nat, Client>)
    ensures r.Keys == clients.Keys
    ensures id in clients ==> r[id] == clients[id].(actif := actif)
    ensures forall k :: k in clients && k != id ==> r[k] == clients[k]
  {
    if id in clients then clients[id := clients[id].(actif := actif)] else clients
  }

  /** Setting the flag a second time changes nothing. */
  lemma WithActifIdempotent(clients: map<nat, Client>, id: nat, actif: bool)
    ensures WithActif(WithActif(clients, id, actif), id, actif) == WithActif(clients, id, actif)
  {
    var once := WithActif(clients, id, actif);
    var twice := WithActif(once, id, actif);
    assert twice.Keys == once.Keys;
    forall k | k in once ensures twice[k] == once[k] {
    }
  }

  /** Deactivating then activating an active client gives the table back. */
  lemma ReactivateRestores(clients: map<nat, Client>, id: nat)
    requires id in clients ==> clients[id].actif
    ensures WithActif(WithActif(clients, id, false), id, true) == clients
  {
    var back := WithActif(WithActif(clients, id, false), id, true);
    assert back.Keys == clients.Keys;
    forall k | k in clients ensures back[k] == clients[k] {
    }
  }

  /** Only the flag of one row changes: names stay unique. */
  method SetActif(db: Database, id: nat, actif: bool)
    requires db.ValidClients()
    modifies db`clients
    ensures db.ValidClients()
    ensures db.clients == WithActif(old(db.clients), id, actif)
  {
    if id in db.clients {
      db.ReplaceClient(db.clients[id].(actif := actif));
    }
  }

  /** `deactivate_client`: the soft delete; a missing id changes nothing. */
  method DeactivateClient(db: Database, id: nat) returns (o: Outcome)
    requires db.ValidClients()
    modifies db`clients
    ensures db.ValidClients()
    ensures o == Done && db.clients == WithActif(old(db.clients), id, false)
  {
    SetActif(db, id, false);
    o := Done;
  }

  /** `activate_client`; a missing id changes nothing. */
  method ActivateClient(db: Database, id: nat) returns (o: Outcome)
    requires db.ValidClients()
    modifies db`clients
    ensures db.ValidClients()
    ensures o == Done && db.clients == WithActif(old(db.clients), id, true)
  {
    SetActif(db, id, true);
    o := Done;
  }

  /** A deactivated client drops out of the default listing and stays in the full one. */
  lemma DeactivatedHidden(clients: map<nat, Client>, id: nat)
    requires id in clients
    ensures clients[id].(actif := false) !in GetAllClients(WithActif(clients, id, false), false)
    ensures clients[id].(actif := false) in GetAllClients(WithActif(clients, id, false), true)
  {
    var m := WithActif(clients, id, false);
    assert m[id] == clients[id].(actif := false);
  }
}

=== FILE: contact_manager.dfy ===
/**
 * Contacts: people at a client, with a required name and first name and
 * contact details that must be well formed when given. Nothing is unique.
 */
module ContactManager {
  import opened Wrappers
  import opened Text
  import opened Validators
  import opened Models
  import opened Sorting
  import opened Tables

  // ---------------------------------------------------------------- listing

  /** `ORDER BY nom, prenom`, then the row id. */
  function ContactListKey(c: Contact): seq<Atom> {
    [Asc(c.nom), Asc(c.prenom), Num(c.id)]
  }

  lemma ContactListKeyOrder(x: Contact, y: Contact)
    requires KeyLe(ContactListKey(x), ContactListKey(y))
    ensures StrLe(x.nom, y.nom)
    ensures x.nom == y.nom ==> StrLe(x.prenom, y.prenom)
  {
    if x.nom == y.nom {
      StrLeReflexive(x.nom);
      if x.prenom == y.prenom {
        StrLeReflexive(x.prenom);
      }
    }
  }

  /** The WHERE clause of `get_all_contacts(client_id)`: no filter when the id is 0 (falsy). */
  function ContactFilter(clientId: nat): Contact -> bool {
    (c: Contact) => clientId == 0 || c.clientId == clientId
  }

  /** `get_all_contacts(client_id)`: one client's contacts, or all of them, by name then first name. */
  function GetAllContacts(contacts: map<nat, Contact>, clientId: nat): (r: seq<Contact>)
    ensures forall c :: c in r <==> c in contacts.Values && (clientId == 0 || c.clientId == clientId)
    ensures forall i, j :: 0 <= i < j < |r| ==>
              StrLe(r[i].nom, r[j].nom) && (r[i].nom == r[j].nom ==> StrLe(r[i].prenom, r[j].prenom))
  {
    var r := Select(contacts, ContactFilter(clientId), ContactListKey);
    forall i, j | 0 <= i < j < |r|
      ensures StrLe(r[i].nom, r[j].nom) && (r[i].nom == r[j].nom ==> StrLe(r[i].prenom, r[j].prenom))
    {
      ContactListKeyOrder(r[i], r[j]);
    }
    r
  }

  // ---------------------------------------------------------------- create, update, delete

  /** The field checks shared by create and update, in their order; empty details are not checked. */
  function ContactFieldsCheck(c: Contact): (e: Option<Error>)
    ensures e.None? <==> ValidateRequiredField(c.nom) && ValidateRequiredField(c.prenom)
                         && ValidateEmail(c.email) && ValidateTelephone(c.telephone)
    ensures !ValidateRequiredField(c.nom) ==> e == Some(FieldRequired("Nom"))
    ensures ValidateRequiredField(c.nom) && !ValidateRequiredField(c.prenom) ==> e == Some(FieldRequired("Prénom"))
  {
    if !ValidateRequiredField(c.nom) then Some(FieldRequired("Nom"))
    else if !ValidateRequiredField(c.prenom) then Some(FieldRequired("Prénom"))
    else if c.email != "" && !ValidateEmail(c.email) then Some(InvalidEmail)
    else if c.telephone != "" && !ValidateTelephone(c.telephone) then Some(InvalidTelephone)
    else None
  }

  /** `create_contact`: the row is stored as given, under the next id. */
  method CreateContact(db: Database, c: Contact) returns (o: Outcome)
    requires db.ValidContacts()
    modifies db`contacts, db`lastContact
    ensures db.ValidContacts()
    ensures ContactFieldsCheck(c).Some? ==>
              o == Failed(ContactFieldsCheck(c).value)
              && db.contacts == old(db.contacts) && db.lastContact == old(db.lastContact)
    ensures ContactFieldsCheck(c).None? ==>
              o == Created(old(db.lastContact) + 1) && o.id !in old(db.contacts)
              && db.contacts == old(db.contacts)[o.id := c.(id := o.id)] && db.lastContact == o.id
  {
    var e := ContactFieldsCheck(c);
    if e.Some? {
      return Failed(e.value);
    }
    var id := db.InsertContact(c);
    o := Created(id);
  }

  /** The checks of `update_contact`: an id, then the fields. */
  function UpdateContactCheck(c: Contact): (e: Option<Error>)
    ensures e.None? <==> c.id != 0 && ContactFieldsCheck(c).None?
    ensures c.id == 0 ==> e == Some(IdRequired)
  {
    if c.id == 0 then Some(IdRequired) else ContactFieldsCheck(c)
  }

  /** `update_contact`: every field is written; an id with no row is a success that changes nothing. */
  method UpdateContact(db: Database, c: Contact) returns (o: Outcome)
    requires db.ValidContacts()
    modifies db`contacts
    ensures db.ValidContacts()
    ensures UpdateContactCheck(c).Some? ==> o == Failed(UpdateContactCheck(c).value) && db.contacts == old(db.contacts)
    ensures UpdateContactCheck(c).None? && c.id in old(db.contacts) ==>
              o == Done && db.contacts == old(db.contacts)[c.id := c]
    ensures UpdateContactCheck(c).None? && c.id !in old(db.contacts) ==>
              o == Done && db.contacts == old(db.contacts)
  {
    var e := UpdateContactCheck(c);
    if e.Some? {
      return Failed(e.value);
    }
    if c.id in db.contacts {
      db.ReplaceContact(c);
    }
    o := Done;
  }

  /** `delete_contact`: the row goes; a missing id is a success that changes nothing. */
  method DeleteContact(db: Database, id: nat) returns (o: Outcome)
    requires db.ValidContacts()
    modifies db`contacts
    ensures db.ValidContacts()
    ensures o == Done && db.contacts == old(db.contacts) - {id}
  {
    db.RemoveContact(id);
    o := Done;
  }

  /** A contact created and then deleted leaves the table as it was. */
  lemma CreateThenDelete(contacts: map<nat, Contact>, c: Contact, id: nat)
    requires id !in contacts
    ensures contacts[id := c.(id := id)] - {id} == contacts
  {
    var after := contacts[id := c.(id := id)] - {id};
    assert after.Keys == contacts.Keys;
    forall k | k in contacts ensures after[k] == contacts[k] {
    }
  }
}

=== FILE: contrat_manager.dfy ===
/**
 * Contracts and their expiry alert. A contract carries a flag,
 * `alerte6Mois`, that says its end date falls within the next 180 days;
 * create and update set it from the end date alone, and the alert sweep
 * recomputes it for every active contract that has an end date.
 */
module ContratManager {
  import opened Wrappers
  import opened Dates
  import opened Validators
  import opened Models
  import opened Sorting
  import opened Tables

  // ---------------------------------------------------------------- the alert window

  /**
   * `_check_alert(date_fin)` on day `today`: no date, no alert; otherwise
   * `today <= date_fin <= today + 180 days`, the upper bound being day
   * arithmetic as `timedelta` does it.
   */
  function CheckAlert(dateFin: Option<Date>, today: Date): (alert: bool)
    ensures alert <==> dateFin.Some? && 0 <= Ordinal(dateFin.value) - Ordinal(today) <= 180
  {
    if dateFin.None? then false
    else
      OrdinalMonotonic(today, dateFin.value);
      DateLe(today, dateFin.value) && Ordinal(dateFin.value) <= Ordinal(today) + 180
  }

  // ---------------------------------------------------------------- listing

  /**
   * A date column as the store sorts it: the ISO text of a date orders as
   * the date does, and a missing date (NULL) comes first.
   */
  function DateRank(d: Option<Date>): (n: int)
    ensures d.None? <==> n == 0
  {
    if d.None? then 0 else Ordinal(d.value)
  }

  /** `a` comes no later than `b` in an ascending date column. */
  predicate NoLater(a: Option<Date>, b: Option<Date>) {
    a.None? || (b.Some? && DateLe(a.value, b.value))
  }

  /** Ranks order dates as the calendar does. */
  lemma DateRankOrder(a: Option<Date>, b: Option<Date>)
    ensures DateRank(a) <= DateRank(b) <==> NoLater(a, b)
  {
    if a.Some? && b.Some? {
      OrdinalMonotonic(a.value, b.value);
    }
  }

  /** `ORDER BY c.date_fin ASC`, then the row id. */
  function ContratListKey(c: Contrat): seq<Atom> {
    [Num(DateRank(c.dateFin)), Num(c.id)]
  }

  lemma ContratListKeyOrder(x: Contrat, y: Contrat)
    requires KeyLe(ContratListKey(x), ContratListKey(y))
    ensures NoLater(x.dateFin, y.dateFin)
  {
    DateRankOrder(x.dateFin, y.dateFin);
  }

  /**
   * The WHERE clause of `get_all_contrats`: an empty `statut` is no filter;
   * `alerteOnly` keeps the flagged contracts. The JOINs are LEFT JOINs, so
   * a contract whose client is missing is still listed.
   */
  predicate ContratListed(c: Contrat, statut: string, alerteOnly: bool) {
    (statut == "" || c.statut == statut) && (!alerteOnly || c.alerte6Mois)
  }

  /** `get_all_contrats(statut, alerte_only)`: the listed contracts, earliest end date first. */
  function GetAllContrats(contrats: map<nat, Contrat>, statut: string, alerteOnly: bool): (r: seq<Contrat>)
    ensures forall c :: c in r <==> c in contrats.Values && ContratListed(c, statut, alerteOnly)
    ensures forall i, j :: 0 <= i < j < |r| ==> NoLater(r[i].dateFin, r[j].dateFin)
  {
    var r := Select(contrats, (c: Contrat) => ContratListed(c, statut, alerteOnly), ContratListKey);
    forall i, j | 0 <= i < j < |r| ensures NoLater(r[i].dateFin, r[j].dateFin) {
      ContratListKeyOrder(r[i], r[j]);
    }
    r
  }

  /** `get_contrats_with_alerts`: every flagged contract, whatever its state, earliest end date first. */
  function GetContratsWithAlerts(contrats: map<nat, Contrat>): (r: seq<Contrat>)
    ensures forall c :: c in r <==> c in contrats.Values && c.alerte6Mois
    ensures forall i, j :: 0 <= i < j < |r| ==> NoLater(r[i].dateFin, r[j].dateFin)
  {
    GetAllContrats(contrats, "", true)
  }

  // ---------------------------------------------------------------- create and update

  /** Some contract holds the number. */
  predicate NumeroHeld(contrats: map<nat, Contrat>, numero: string) {
    exists k :: k in contrats && contrats[k].numeroContrat == numero
  }

  /** Some contract other than `id` holds the number. */
  predicate NumeroHeldByOther(contrats: map<nat, Contrat>, numero: string, id: nat) {
    exists k :: k in contrats && k != id && contrats[k].numeroContrat == numero
  }

  /** The field checks shared by create and update, in their order. */
  function ContratFieldsCheck(c: Contrat): (e: Option<Error>)
    ensures e.None? <==> ValidateRequiredField(c.numeroContrat) && c.clientId != 0 && c.montant >= 0.0
                         && !(c.dateDebut.Some? && c.dateFin.Some? && Ordinal(c.dateFin.value) < Ordinal(c.dateDebut.value))
                         && c.statut in StatutsContrat
    ensures !ValidateRequiredField(c.numeroContrat) ==> e == Some(FieldRequired("Numéro de contrat"))
  {
    if !ValidateRequiredField(c.numeroContrat) then Some(FieldRequired("Numéro de contrat"))
    else if c.clientId == 0 then Some(ClientRequired)
    else if !ValidateMontant(c.montant) then Some(InvalidAmount)
    else if !ValidateDateRange(c.dateDebut, c.dateFin) then Some(InvalidDateRange)
    else if c.statut !in StatutsContrat then Some(InvalidStatut)
    else None
  }

  /** The checks of `create_contrat`: the fields, then a number no contract holds. */
  function CreateContratCheck(c: Contrat, contrats: map<nat, Contrat>): (e: Option<Error>)
    ensures e.None? <==> ContratFieldsCheck(c).None? && !NumeroHeld(contrats, c.numeroContrat)
    ensures ContratFieldsCheck(c).None? && NumeroHeld(contrats, c.numeroContrat) ==> e == Some(Duplicate)
  {
    if ContratFieldsCheck(c).Some? then ContratFieldsCheck(c)
    else if exists k | k in contrats :: contrats[k].numeroContrat == c.numeroContrat then Some(Duplicate)
    else None
  }

  /** The row `create_contrat` inserts: the given fields, and the flag computed from the end date. */
  function NewContrat(c: Contrat, id: nat, today: Date): (row: Contrat)
    ensures row.id == id && row.alerte6Mois == CheckAlert(c.dateFin, today)
    ensures row.numeroContrat == c.numeroContrat && row.clientId == c.clientId && row.contactId == c.contactId
    ensures row.dateDebut == c.dateDebut && row.dateFin == c.dateFin && row.montant == c.montant
    ensures row.description == c.description && row.statut == c.statut
  {
    c.(id := id, alerte6Mois := CheckAlert(c.dateFin, today))
  }

  /** `create_contrat` on day `today`. */
  method CreateContrat(db: Database, c: Contrat, today: Date) returns (o: Outcome)
    requires db.ValidContrats()
    modifies db`contrats, db`lastContrat
    ensures db.ValidContrats()
    ensures CreateContratCheck(c, old(db.contrats)).Some? ==>
              o == Failed(CreateContratCheck(c, old(db.contrats)).value)
              && db.contrats == old(db.contrats) && db.lastContrat == old(db.lastContrat)
    ensures CreateContratCheck(c, old(db.contrats)).None? ==>
              o == Created(old(db.lastContrat) + 1) && o.id !in old(db.contrats)
              && db.contrats == old(db.contrats)[o.id := NewContrat(c, o.id, today)]
              && db.lastContrat == o.id
  {
    var e := CreateContratCheck(c, db.contrats);
    if e.Some? {
      return Failed(e.value);
    }
    var id := db.InsertContrat(NewContrat(c, 0, today));
    o := Created(id);
  }

  /** The checks of `update_contrat`: an id, the fields, then a number no other contract holds. */
  function UpdateContratCheck(c: Contrat, contrats: map<nat, Contrat>): (e: Option<Error>)
    ensures e.None? <==> c.id != 0 && ContratFieldsCheck(c).None? && !NumeroHeldByOther(contrats, c.numeroContrat, c.id)
    ensures c.id != 0 && ContratFieldsCheck(c).None? && NumeroHeldByOther(contrats, c.numeroContrat, c.id) ==>
              e == Some(Duplicate)
  {
    if c.id == 0 then Some(IdRequired)
    else if ContratFieldsCheck(c).Some? then ContratFieldsCheck(c)
    else if exists k | k in contrats :: k != c.id && contrats[k].numeroContrat == c.numeroContrat then Some(Duplicate)
    else None
  }

  /**
   * `update_contrat` on day `today`: every field is written and the flag
   * recomputed from the end date. A contract keeping its own number is no
   * duplicate; an id with no row is a success that changes nothing.
   */
  method UpdateContrat(db: Database, c: Contrat, today: Date) returns (o: Outcome)
    requires db.ValidContrats()
    modifies db`contrats
    ensures db.ValidContrats()
    ensures UpdateContratCheck(c, old(db.contrats)).Some? ==>
              o == Failed(UpdateContratCheck(c, old(db.contrats)).value) && db.contrats == old(db.contrats)
    ensures UpdateContratCheck(c, old(db.contrats)).None? && c.id in old(db.contrats) ==>
              o == Done && db.contrats == old(db.contrats)[c.id := NewContrat(c, c.id, today)]
    ensures UpdateContratCheck(c, old(db.contrats)).None? && c.id !in old(db.contrats) ==>
              o == Done && db.contrats == old(db.contrats)
  {
    var e := UpdateContratCheck(c, db.contrats);
    if e.Some? {
      return Failed(e.value);
    }
    if c.id in db.contrats {
      db.ReplaceContrat(NewContrat(c, c.id, today));
    }
    o := Done;
  }

  // ---------------------------------------------------------------- delete

  /** Some purchase order references contract `id` (a missing reference, 0, matches nothing). */
  predicate Referenced(bcs: map<nat, BonCommande>, id: nat) {
    exists k :: k in bcs && bcs[k].contratId != 0 && bcs[k].contratId == id
  }

  /** `delete_contrat`: refused while a purchase order references the contract. */
  method DeleteContrat(db: Database, id: nat) returns (o: Outcome)
    requires db.ValidContrats()
    modifies db`contrats
    ensures db.ValidContrats()
    ensures Referenced(db.bcs, id) ==> o == Failed(HasLinkedBcs) && db.contrats == old(db.contrats)
    ensures !Referenced(db.bcs, id) ==> o == Done && db.contrats == old(db.contrats) - {id}
  {
    if exists k | k in db.bcs :: db.bcs[k].contratId != 0 && db.bcs[k].contratId == id {
      return Failed(HasLinkedBcs);
    }
    db.RemoveContrat(id);
    o := Done;
  }

  // ---------------------------------------------------------------- the alert sweep

  /** The contracts `update_alerts` reads: active, with an end date. */
  predicate Watched(c: Contrat) {
    c.statut == "Actif" && c.dateFin.Some?
  }

  /** The ids of the watched contracts, in ascending order. */
  function WatchedIds(m: map<nat, Contrat>): (ids: seq<nat>)
    ensures forall k :: k in ids <==> k in m && Watched(m[k])
    ensures forall i, j :: 0 <= i < j < |ids| ==> ids[i] < ids[j]
    decreases |m|
  {
    if m == map[] then []
    else
      var k := MaxKey(m.Keys);
      var rest := m - {k};
      var t := WatchedIds(rest);
      assert forall j :: j in t <==> j in m && j != k && Watched(m[j]) by {
        forall j ensures j in t <==> j in m && j != k && Watched(m[j]) {
          if j in rest {
            assert rest[j] == m[j];
          }
        }
      }
      if Watched(m[k]) then
        assert forall i :: 0 <= i < |t| ==> t[i] < k by {
          forall i | 0 <= i < |t| ensures t[i] < k {
            assert t[i] in t;
          }
        }
        t + [k]
      else t
  }

  /** A contract after the sweep: a watched one gets the flag of its end date, any other is left alone. */
  function Refreshed(c: Contrat, today: Date): (r: Contrat)
    ensures Watched(c) ==> r == c.(alerte6Mois := CheckAlert(c.dateFin, today))
    ensures !Watched(c) ==> r == c
    ensures r.alerte6Mois == (if Watched(c) then CheckAlert(c.dateFin, today) else c.alerte6Mois)
  {
    if Watched(c) then c.(alerte6Mois := CheckAlert(c.dateFin, today)) else c
  }

  /** The sweep is idempotent: a refreshed contract refreshes to itself. */
  lemma RefreshedIdempotent(c: Contrat, today: Date)
    ensures Refreshed(Refreshed(c, today), today) == Refreshed(c, today)
  {
  }

  /** The ids among `ids` whose contract is in the window. */
  ghost function AlertedAmong(m: map<nat, Contrat>, ids: seq<nat>, today: Date): set<nat> {
    set k | k in ids && k in m && CheckAlert(m[k].dateFin, today)
  }

  /** The watched contracts whose end date is in the window. */
  ghost function AlertedIds(m: map<nat, Contrat>, today: Date): set<nat> {
    set k | k in m && Watched(m[k]) && CheckAlert(m[k].dateFin, today)
  }

  /** An id of an ascending sequence is not among the ids before it. */
  lemma AscendingFresh(ids: seq<nat>, i: nat)
    requires forall a, b :: 0 <= a < b < |ids| ==> ids[a] < ids[b]
    requires i < |ids|
    ensures ids[i] !in ids[..i]
  {
    forall j | 0 <= j < i ensures ids[..i][j] != ids[i] {
      assert ids[j] < ids[i];
    }
  }

  /** The table once the contracts of the first `i` ids have been refreshed. */
  ghost function SweptUpTo(before: map<nat, Contrat>, ids: seq<nat>, i: nat, today: Date): map<nat, Contrat>
    requires i <= |ids|
  {
    map k | k in before :: if k in ids[..i] then Refreshed(before[k], today) else before[k]
  }

  /** Refreshing the contract of the next id is one more step of the sweep. */
  lemma SweptStep(before: map<nat, Contrat>, ids: seq<nat>, i: nat, today: Date)
    requires i < |ids| && ids[i] in before && ids[i] !in ids[..i]
    ensures SweptUpTo(before, ids, i, today)[ids[i]] == before[ids[i]]
    ensures SweptUpTo(before, ids, i + 1, today)
            == SweptUpTo(before, ids, i, today)[ids[i] := Refreshed(before[ids[i]], today)]
  {
    assert forall k :: k in ids[..i + 1] <==> k in ids[..i] || k == ids[i] by {
      assert ids[..i + 1] == ids[..i] + [ids[i]];
    }
  }

  /** Once every watched id is read, each contract is refreshed. */
  lemma SweptAll(before: map<nat, Contrat>, ids: seq<nat>, today: Date)
    requires forall k :: k in ids <==> k in before && Watched(before[k])
    ensures SweptUpTo(before, ids, |ids|, today).Keys == before.Keys
    ensures forall k :: k in before ==> SweptUpTo(before, ids, |ids|, today)[k] == Refreshed(before[k], today)
  {
    assert ids[..|ids|] == ids;
  }

  /** Reading one more id adds it to the alerted ones exactly when its contract is in the window. */
  lemma AlertedAmongStep(m: map<nat, Contrat>, ids: seq<nat>, i: nat, today: Date)
    requires i < |ids| && ids[i] in m && ids[i] !in ids[..i]
    ensures |AlertedAmong(m, ids[..i + 1], today)|
            == |AlertedAmong(m, ids[..i], today)| + (if CheckAlert(m[ids[i]].dateFin, today) then 1 else 0)
  {
    assert ids[..i + 1] == ids[..i] + [ids[i]];
    assert forall k :: k in ids[..i + 1] <==> k in ids[..i] || k == ids[i];
    var s := AlertedAmong(m, ids[..i], today);
    assert ids[i] !in s;
    if CheckAlert(m[ids[i]].dateFin, today) {
      assert AlertedAmong(m, ids[..i + 1], today) == s + {ids[i]};
    } else {
      assert AlertedAmong(m, ids[..i + 1], today) == s;
    }
  }

  /** Over all the watched ids, the alerted ones are the watched contracts in the window. */
  lemma AlertedAmongAll(m: map<nat, Contrat>, ids: seq<nat>, today: Date)
    requires forall k :: k in ids <==> k in m && Watched(m[k])
    ensures AlertedAmong(m, ids, today) == AlertedIds(m, today)
  {
  }

  /**
   * `update_alerts` on day `today`: every watched contract gets the flag
   * of its end date, every other contract is untouched, and the result is
   * the number of contracts now flagged by the sweep.
   */
  method UpdateAlerts(db: Database, today: Date) returns (count: nat)
    requires db.ValidContrats()
    modifies db`contrats
    ensures db.ValidContrats()
    ensures db.contrats.Keys == old(db.contrats).Keys
    ensures forall k :: k in db.contrats ==> db.contrats[k] == Refreshed(old(db.contrats)[k], today)
    ensures count == |AlertedIds(old(db.contrats), today)|
  {
    ghost var before := db.contrats;
    var ids := WatchedIds(db.contrats);
    count := 0;
    assert db.contrats == SweptUpTo(before, ids, 0, today);
    assert AlertedAmong(before, ids[..0], today) == {};
    for i := 0 to |ids|
      invariant db.ValidContrats()
      invariant db.contrats == SweptUpTo(before, ids, i, today)
      invariant count == |AlertedAmong(before, ids[..i], today)|
    {
      var id := ids[i];
      AscendingFresh(ids, i);
      SweptStep(before, ids, i, today);
      AlertedAmongStep(before, ids, i, today);
      var alerte := CheckAlert(db.contrats[id].dateFin, today);
      assert Refreshed(before[id], today) == before[id].(alerte6Mois := alerte);
      db.SetAlerte(id, alerte);
      if alerte {
        count := count + 1;
      }
    }
    SweptAll(before, ids, today);
    assert ids[..|ids|] == ids;
    AlertedAmongAll(before, ids, today);
  }
}

=== FILE: dates.dfy ===
/**
 * Calendar dates as Python's `datetime.date` holds them: a proleptic
 * Gregorian year, month and day with 1 <= year <= 9999. Python compares two
 * dates as (year, month, day) tuples and adds a `timedelta` through the day
 * number `toordinal()`; both are given here, and `OrdinalMonotonic` shows
 * that they agree. `Strptime` and `Isoformat` are the conversions from and to
 * the text form "%Y-%m-%d" that the store and the forms use.
 */
module Dates {
  import opened Wrappers
  import opened Text

  datatype CivilDate = CivilDate(year: int, month: int, day: int)

  predicate IsLeap(y: int) {
    y % 4 == 0 && (y % 100 != 0 || y % 400 == 0)
  }

  function DaysInMonth(y: int, m: int): (n: int)
    ensures 28 <= n <= 31
  {
    if m == 2 then (if IsLeap(y) then 29 else 28)
    else if m == 4 || m == 6 || m == 9 || m == 11 then 30
    else 31
  }

  predicate IsValidDate(d: CivilDate) {
    1 <= d.year <= 9999 && 1 <= d.month <= 12 && 1 <= d.day <= DaysInMonth(d.year, d.month)
  }

  /** The values of Python's `date` type. */
  type Date = d: CivilDate | IsValidDate(d) witness CivilDate(1, 1, 1)

  function DaysInYear(y: int): int {
    if IsLeap(y) then 366 else 365
  }

  /** Days of year `y` before the first of month `m`. */
  function DaysBeforeMonth(y: int, m: int): (n: int)
    requires 1 <= m <= 13
    ensures n >= 0
  {
    if m == 1 then 0 else DaysBeforeMonth(y, m - 1) + DaysInMonth(y, m - 1)
  }

  /** Days before the first of January of year `y`, counting from 0001-01-01. */
  function DaysBeforeYear(y: int): (n: int)
    requires y >= 1
    ensures n >= 0
  {
    if y == 1 then 0 else DaysBeforeYear(y - 1) + DaysInYear(y - 1)
  }

  /** Python's `d.toordinal()`: 0001-01-01 is day 1. */
  function Ordinal(d: Date): (n: int)
    ensures n >= 1
  {
    DaysBeforeYear(d.year) + DaysBeforeMonth(d.year, d.month) + d.day
  }

  /** Python's `a <= b` on dates: tuple order on (year, month, day). */
  predicate DateLe(a: CivilDate, b: CivilDate) {
    a.year < b.year || (a.year == b.year && (a.month < b.month || (a.month == b.month && a.day <= b.day)))
  }

  lemma {:induction false} DaysBeforeMonthMonotonic(y: int, m1: int, m2: int)
    requires 1 <= m1 < m2 <= 13
    ensures DaysBeforeMonth(y, m1) + DaysInMonth(y, m1) <= DaysBeforeMonth(y, m2)
    decreases m2 - m1
  {
    if m1 + 1 < m2 {
      DaysBeforeMonthMonotonic(y, m1 + 1, m2);
    }
  }

  lemma {:induction false} DaysBeforeMonthYearLength(y: int)
    ensures DaysBeforeMonth(y, 13) == DaysInYear(y)
  {
    assert DaysBeforeMonth(y, 2) == 31;
    assert DaysBeforeMonth(y, 3) == 31 + DaysInMonth(y, 2);
    assert DaysBeforeMonth(y, 4) == DaysBeforeMonth(y, 3) + 31;
    assert DaysBeforeMonth(y, 5) == DaysBeforeMonth(y, 3) + 61;
    assert DaysBeforeMonth(y, 6) == DaysBeforeMonth(y, 3) + 92;
    assert DaysBeforeMonth(y, 7) == DaysBeforeMonth(y, 3) + 122;
    assert DaysBeforeMonth(y, 8) == DaysBeforeMonth(y, 3) + 153;
    assert DaysBeforeMonth(y, 9) == DaysBeforeMonth(y, 3) + 184;
    assert DaysBeforeMonth(y, 10) == DaysBeforeMonth(y, 3) + 214;
    assert DaysBeforeMonth(y, 11) == DaysBeforeMonth(y, 3) + 245;
    assert DaysBeforeMonth(y, 12) == DaysBeforeMonth(y, 3) + 275;
  }

  lemma {:induction false} DaysBeforeYearMonotonic(y1: int, y2: int)
    requires 1 <= y1 < y2
    ensures DaysBeforeYear(y1) + DaysInYear(y1) <= DaysBeforeYear(y2)
    decreases y2 - y1
  {
    if y1 + 1 < y2 {
      DaysBeforeYearMonotonic(y1 + 1, y2);
    }
  }

  /** Day numbers order dates exactly as Python's date comparison does. */
  lemma {:induction false} OrdinalMonotonic(a: Date, b: Date)
    ensures DateLe(a, b) <==> Ordinal(a) <= Ordinal(b)
  {
    if a.year < b.year {
      StrictlyBefore(a, b);
    } else if b.year < a.year {
      StrictlyBefore(b, a);
    } else if a.month < b.month {
      StrictlyBefore(a, b);
    } else if b.month < a.month {
      StrictlyBefore(b, a);
    }
  }

  lemma {:induction false} StrictlyBefore(a: Date, b: Date)
    requires a.year < b.year || (a.year == b.year && a.month < b.month)
    ensures Ordinal(a) < Ordinal(b)
  {
    if a.year < b.year {
      DaysBeforeMonthMonotonic(a.year, a.month, 13);
      DaysBeforeMonthYearLength(a.year);
      DaysBeforeYearMonotonic(a.year, b.year);
    } else {
      DaysBeforeMonthMonotonic(a.year, a.month, b.month);
    }
  }

  // ---------------------------------------------------------------- text form

  /** `d.strftime("%Y-%m-%d")`, which is also `str(d)`. */
  function Isoformat(d: Date): (s: string)
    ensures |s| == 10 && s[4] == '-' && s[7] == '-'
  {
    NatToStringShort(d.year);
    NatToStringShort(d.month);
    NatToStringShort(d.day);
    ZeroPad(d.year, 4) + "-" + ZeroPad(d.month, 2) + "-" + ZeroPad(d.day, 2)
  }

  /** The month field of `strptime`'s "%m": `1[0-2]|0[1-9]|[1-9]`. */
  predicate IsMonthToken(t: string) {
    (|t| == 1 && '1' <= t[0] <= '9')
    || (|t| == 2 && ((t[0] == '0' && '1' <= t[1] <= '9') || (t[0] == '1' && '0' <= t[1] <= '2')))
  }

  /**
   * The day field of `strptime`'s "%d", `3[01]|[12]\d|0[1-9]|[1-9]| [1-9]`,
   * which must also end the input ("unconverted data remains" otherwise).
   */
  predicate IsDayToken(t: string) {
    (|t| == 1 && '1' <= t[0] <= '9')
    || (|t| == 2 && t[0] == ' ' && '1' <= t[1] <= '9')
    || (|t| == 2 && t[0] == '0' && '1' <= t[1] <= '9')
    || (|t| == 2 && (t[0] == '1' || t[0] == '2') && IsDigit(t[1]))
    || (|t| == 2 && t[0] == '3' && (t[1] == '0' || t[1] == '1'))
  }

  /** Value of a month or day field; a leading blank counts as nothing. */
  function TokenValue(t: string): nat
    requires |t| >= 1 && IsDigit(t[|t| - 1])
    requires |t| == 2 ==> IsDigit(t[0]) || t[0] == ' '
  {
    if |t| == 2 && IsDigit(t[0]) then DigitValue(t[0]) * 10 + DigitValue(t[1])
    else DigitValue(t[|t| - 1])
  }

  /**
   * `datetime.strptime(s, "%Y-%m-%d").date()`, or `None` where Python raises
   * `ValueError`: four year digits, a dash, the month field up to the next
   * dash, then the day field up to the end, naming an existing date.
   */
  function Strptime(s: string): (r: Option<Date>)
    ensures r.Some? ==> 8 <= |s| <= 10 && AllDigits(s[..4]) && s[4] == '-'
  {
    if |s| < 8 || !AllDigits(s[..4]) || s[4] != '-' then None
    else
      var p := if s[6] == '-' then 6 else 7;
      if s[p] != '-' || !IsMonthToken(s[5..p]) || !IsDayToken(s[p + 1..]) then None
      else
        var c := CivilDate(DigitsValue(s[..4]), TokenValue(s[5..p]), TokenValue(s[p + 1..]));
        if IsValidDate(c) then Some(c) else None
  }

  /** The canonical text form: "YYYY-MM-DD", all ten positions filled. */
  predicate IsCanonical(s: string) {
    |s| == 10 && AllDigits(s[..4]) && s[4] == '-' && AllDigits(s[5..7]) && s[7] == '-' && AllDigits(s[8..])
  }

  lemma ZeroPad2(n: nat)
    requires n < 100
    ensures ZeroPad(n, 2) == [DigitChar(n / 10), DigitChar(n % 10)]
  {
    if n < 10 {
      assert NatToString(n) == [DigitChar(n)];
    } else {
      assert NatToString(n / 10) == [DigitChar(n / 10)];
    }
  }

  /** A month written with two digits is a month field of that value. */
  lemma MonthField(m: int)
    requires 1 <= m <= 12
    ensures IsMonthToken(ZeroPad(m, 2)) && TokenValue(ZeroPad(m, 2)) == m
  {
    ZeroPad2(m);
  }

  /** A day written with two digits is a day field of that value. */
  lemma DayField(d: int)
    requires 1 <= d <= 31
    ensures IsDayToken(ZeroPad(d, 2)) && TokenValue(ZeroPad(d, 2)) == d
  {
    ZeroPad2(d);
  }

  /** Parsing the text form of a date gives the date back. */
  lemma {:induction false} StrptimeIsoformat(d: Date)
    ensures Strptime(Isoformat(d)) == Some(d)
  {
    var s := Isoformat(d);
    NatToStringShort(d.year);
    var y := ZeroPad(d.year, 4);
    var m := ZeroPad(d.month, 2);
    var dd := ZeroPad(d.day, 2);
    MonthField(d.month);
    DayField(d.day);
    assert s[..4] == y;
    assert s[5..7] == m;
    assert s[8..] == dd;
    ParseZeroPad(d.year, 4);
    assert IsDigit(s[6]);
  }

  /** Formatting a parsed canonical string gives the string back. */
  lemma {:induction false} IsoformatStrptime(s: string)
    requires IsCanonical(s) && Strptime(s).Some?
    ensures Isoformat(Strptime(s).value) == s
  {
    var d := Strptime(s).value;
    assert s[6] != '-';
    ZeroPadOfValue(s[..4]);
    ZeroPadOfValue(s[5..7]);
    ZeroPadOfValue(s[8..]);
    DigitsValue2(s[5..7]);
    DigitsValue2(s[8..]);
    assert s == s[..4] + "-" + s[5..7] + "-" + s[8..];
  }
}

=== FILE: formatters.dfy ===
/**
 * The display formatters: how dates, telephone numbers, postal codes,
 * e-mail addresses and long texts are shown and stored.
 */
module Formatters {
  import opened Wrappers
  import opened Text
  import opened Dates
  import opened Validators

  /**
   * What a date column can hold when it reaches a formatter: nothing, the
   * text SQLite hands back, or a `date` object built by a form.
   */
  datatype DateValue = NoDate | DateText(text: string) | DateObject(date: Date)

  /** `format_date`: "" for nothing, text unchanged, a date as "YYYY-MM-DD". */
  function FormatDate(v: DateValue): (s: string)
    ensures v.NoDate? ==> s == ""
    ensures v.DateText? ==> s == v.text
    ensures v.DateObject? ==> IsCanonical(s) && Strptime(s) == Some(v.date)
  {
    match v
    case NoDate => ""
    case DateText(t) => t
    case DateObject(d) =>
      StrptimeIsoformat(d);
      var s := Isoformat(d);
      s
  }

  /** `parse_date`: `None` for the empty string and for text `strptime` rejects. */
  function ParseDate(s: string): (r: Option<Date>)
    ensures s == "" ==> r.None?
    ensures r.Some? <==> Strptime(s).Some?
    ensures r.Some? ==> r == Strptime(s)
  {
    if s == "" then None else Strptime(s)
  }

  /** A formatted date parses back to itself. */
  lemma ParseFormatDate(d: Date)
    ensures ParseDate(FormatDate(DateObject(d))) == Some(d)
  {
  }

  /** A canonical date text that parses formats back to itself. */
  lemma FormatParseDate(s: string)
    requires IsCanonical(s) && ParseDate(s).Some?
    ensures FormatDate(DateObject(ParseDate(s).value)) == s
  {
    IsoformatStrptime(s);
  }

  /** The ten-digit French form "dd dd dd dd dd". */
  function Grouped(d: string): (r: string)
    requires |d| == 10
    ensures |r| == 14
  {
    d[0..2] + " " + d[2..4] + " " + d[4..6] + " " + d[6..8] + " " + d[8..10]
  }

  /**
   * `format_telephone`: a number with exactly ten digits is regrouped in
   * pairs; any other text is kept as it is. The digits never change.
   */
  function FormatTelephone(telephone: string): (r: string)
    ensures Digits(r) == Digits(telephone)
    ensures |Digits(telephone)| == 10 ==> |r| == 14 && r[2] == ' ' && r[5] == ' ' && r[8] == ' ' && r[11] == ' '
    ensures |Digits(telephone)| != 10 ==> r == telephone
  {
    if telephone == "" then ""
    else
      var d := Digits(telephone);
      if |d| == 10 then
        GroupedKeepsDigits(d);
        Grouped(d)
      else telephone
  }

  /** The blank between two groups adds no digit. */
  lemma DigitsJoin(x: string, y: string)
    ensures Digits(x + " " + y) == Digits(x) + Digits(y)
  {
    DigitsOfChar(' ');
    DigitsAppend(x, [' ']);
    DigitsAppend(x + [' '], y);
  }

  /** A ten-character text is its five pairs put together. */
  lemma FivePairs(d: string)
    requires |d| == 10
    ensures d == d[0..2] + d[2..4] + d[4..6] + d[6..8] + d[8..10]
  {
    assert d[0..4] == d[0..2] + d[2..4];
    assert d[0..6] == d[0..4] + d[4..6];
    assert d[0..8] == d[0..6] + d[6..8];
    assert d == d[0..8] + d[8..10];
  }

  /** Regrouping ten digits in pairs keeps exactly those digits. */
  lemma GroupedKeepsDigits(d: string)
    requires |d| == 10 && AllDigits(d)
    ensures Digits(Grouped(d)) == d
  {
    var p0, p1, p2, p3, p4 := d[0..2], d[2..4], d[4..6], d[6..8], d[8..10];
    DigitsOfDigits(p0);
    DigitsOfDigits(p1);
    DigitsOfDigits(p2);
    DigitsOfDigits(p3);
    DigitsOfDigits(p4);
    var g1 := p0 + " " + p1;
    var g2 := g1 + " " + p2;
    var g3 := g2 + " " + p3;
    DigitsJoin(p0, p1);
    DigitsJoin(g1, p2);
    DigitsJoin(g2, p3);
    DigitsJoin(g3, p4);
    FivePairs(d);
  }

  /** Formatting a telephone number twice is formatting it once. */
  lemma FormatTelephoneIdempotent(telephone: string)
    ensures FormatTelephone(FormatTelephone(telephone)) == FormatTelephone(telephone)
  {
    var r := FormatTelephone(telephone);
    if |Digits(telephone)| == 10 {
      var d := Digits(telephone);
      assert Digits(r) == d;
      assert r == Grouped(d);
    }
  }

  /**
   * `format_code_postal`: the code without surrounding white space, that is
   * `code_postal.strip()`.
   */
  function FormatCodePostal(codePostal: string): (r: string)
    ensures IsStripOf(codePostal, r)
    ensures r == [] <==> AllSpace(codePostal)
  {
    StripEmptyIffAllSpace(codePostal);
    StripIsStripOf(codePostal);
    if codePostal == "" then "" else Strip(codePostal)
  }

  lemma FormatCodePostalIdempotent(codePostal: string)
    ensures FormatCodePostal(FormatCodePostal(codePostal)) == FormatCodePostal(codePostal)
  {
    StripUnique(codePostal, FormatCodePostal(codePostal));
    StripIdempotent(codePostal);
  }

  /** A five-digit code typed with white space around it is stored as the five digits, which pass the check. */
  lemma PaddedCodePostalValid(before: string, code: string, after: string)
    requires AllSpace(before) && AllSpace(after) && FiveDigits(code)
    ensures FormatCodePostal(before + code + after) == code
    ensures ValidateCodePostal(FormatCodePostal(before + code + after))
  {
    var s := before + code + after;
    StripPadded(before, code, after);
    StripUnique(s, FormatCodePostal(s));
  }

  /** A code that passes the check still passes once formatted: it is then empty or its five digits. */
  lemma FormattedCodePostalValid(codePostal: string)
    requires ValidateCodePostal(codePostal)
    ensures ValidateCodePostal(FormatCodePostal(codePostal))
    ensures codePostal != "" ==> FormatCodePostal(codePostal) == codePostal[..5]
  {
    if codePostal != "" {
      var d :| FiveDigits(d) && (codePostal == d || codePostal == d + "\n");
      if codePostal == d {
        assert codePostal == "" + d + "";
        PaddedCodePostalValid("", d, "");
      } else {
        assert codePostal == "" + d + "\n";
        PaddedCodePostalValid("", d, "\n");
      }
      assert codePostal[..5] == d;
    }
  }

  /**
   * `format_email`: `email.strip().lower()`, the address without
   * surrounding white space, each character in lower case.
   */
  function FormatEmail(email: string): (r: string)
    ensures |r| == |Strip(email)|
    ensures forall i :: 0 <= i < |r| ==> r[i] == LowerChar(Strip(email)[i])
  {
    if email == "" then
      assert Strip(email) == [];
      ""
    else Lower(Strip(email))
  }

  /** A formatted address has no surrounding white space and no upper-case ASCII letter. */
  lemma FormatEmailShape(email: string)
    ensures var r := FormatEmail(email);
            (r != [] ==> !IsSpace(r[0]) && !IsSpace(r[|r| - 1]))
            && forall i :: 0 <= i < |r| ==> !('A' <= r[i] <= 'Z')
  {
  }

  /** Formatting an address twice is formatting it once. */
  lemma FormatEmailIdempotent(email: string)
    ensures FormatEmail(FormatEmail(email)) == FormatEmail(email)
  {
    var r := FormatEmail(email);
    FormatEmailShape(email);
    StripNoSurroundingSpace(r);
    LowerNoUpper(r);
    if r != "" {
      assert FormatEmail(r) == Lower(r);
    }
  }

  /**
   * `truncate_text(text, max_length)`: text longer than `maxLength` is cut
   * to `text[:maxLength - 3]` followed by "...".
   */
  function TruncateText(text: string, maxLength: int): (r: string)
    ensures |text| <= maxLength ==> r == text
    ensures text == "" ==> r == ""
    ensures text != "" && |text| > maxLength ==> |r| >= 3 && r[|r| - 3..] == "..." && r[..|r| - 3] <= text
    ensures text != "" && |text| > maxLength && maxLength >= 3 ==> |r| == maxLength
    ensures text != "" && |text| > maxLength && maxLength < 3 ==>
              |r| == 3 + (if |text| + maxLength - 3 >= 0 then |text| + maxLength - 3 else 0)
  {
    if text == "" then ""
    else if |text| <= maxLength then text
    else SliceTo(text, maxLength - 3) + "..."
  }
}

=== FILE: models.dfy ===
/**
 * The records of the application, one datatype per table, with the default
 * values a freshly built record has; the closed lists of values the schema's
 * CHECK constraints allow; and the outcomes the business operations report.
 *
 * An id of 0 stands for Python's `None`: every test in the application is a
 * truthiness test, and the tables hand out ids from 1. Dates are `Date`
 * values; a date-time (`date_validation`, `date_completion`) is an opaque
 * integer time stamp supplied by the caller.
 */
module Models {
  import opened Wrappers
  import opened Dates

  // ---------------------------------------------------------------- enumerations

  /** Budget and purchase-order natures (the `nature` CHECK lists). */
  const Natures: seq<string> := ["Fonctionnement", "Investissement"]
  /** Purchase-order types. */
  const TypesBc: seq<string> := ["Assistance", "Formation", "Prestation", "Matériel", "Licences"]
  /** Contract states. */
  const StatutsContrat: seq<string> := ["Actif", "Expiré", "Résilié"]
  /** To-do priorities. */
  const Priorites: seq<string> := ["Basse", "Normale", "Haute", "Urgente"]
  /** Project states. */
  const StatutsProjet: seq<string> := ["En cours", "Terminé", "Suspendu"]
  /** Project investment types. */
  const TypesInvestissement: seq<string> := ["Matériel", "Licence", "Installation", "Formation", "Accompagnement"]

  type Timestamp = int

  // ---------------------------------------------------------------- records

  datatype Client = Client(
    id: nat, nom: string, raisonSociale: string, adresse: string, codePostal: string,
    ville: string, email: string, telephone: string, actif: bool)

  datatype Contact = Contact(
    id: nat, clientId: nat, nom: string, prenom: string, fonction: string,
    telephone: string, email: string, notes: string)

  datatype Contrat = Contrat(
    id: nat, numeroContrat: string, clientId: nat, contactId: nat,
    dateDebut: Option<Date>, dateFin: Option<Date>, montant: real, description: string,
    statut: string, alerte6Mois: bool)

  datatype Budget = Budget(
    id: nat, clientId: nat, annee: int, nature: string, montantInitial: real,
    montantConsomme: real, montantDisponible: real, serviceDemandeur: string)

  /** A purchase order ("bon de commande"); `kind` is the source's `type` field. */
  datatype BonCommande = BonCommande(
    id: nat, numeroBc: string, clientId: nat, contratId: nat, nature: string, kind: string,
    serviceDemandeur: string, montant: real, valide: bool, dateValidation: Option<Timestamp>,
    description: string)

  datatype Projet = Projet(
    id: nat, nomProjet: string, fapRedigee: bool, porteurProjet: string, serviceDemandeur: string,
    contactsPris: string, sourcing: string, clientsContactes: string, pretMaterielLogiciel: string,
    dateDebut: Option<Date>, dateFinEstimee: Option<Date>, dateMiseService: Option<Date>,
    remarques1: string, remarques2: string, statut: string)

  /** An investment line of a project; `kind` is the source's `type` field. */
  datatype InvestissementProjet = InvestissementProjet(
    id: nat, projetId: nat, kind: string, description: string, montantEstime: real)

  datatype ContactSourcing = ContactSourcing(
    id: nat, projetId: nat, nom: string, prenom: string, entreprise: string,
    telephone: string, email: string, notes: string)

  datatype TodoItem = TodoItem(
    id: nat, motif: string, description: string, contratId: nat, dateEcheance: Option<Date>,
    priorite: string, complete: bool, dateCompletion: Option<Timestamp>)

  /** The ledger identity: what is available is what was granted minus what was spent. */
  predicate Balanced(b: Budget) {
    b.montantDisponible == b.montantInitial - b.montantConsomme
  }

  // ---------------------------------------------------------------- defaults

  function DefaultClient(): (c: Client)
    ensures c.id == 0 && c.nom == "" && c.actif
  {
    Client(0, "", "", "", "", "", "", "", true)
  }

  function DefaultContact(): (c: Contact)
    ensures c.id == 0 && c.clientId == 0 && c.nom == "" && c.prenom == ""
  {
    Contact(0, 0, "", "", "", "", "", "")
  }

  function DefaultContrat(): (c: Contrat)
    ensures c.statut == "Actif" && c.statut in StatutsContrat && !c.alerte6Mois
    ensures c.dateDebut.None? && c.dateFin.None? && c.montant == 0.0
  {
    Contrat(0, "", 0, 0, None, None, 0.0, "", "Actif", false)
  }

  function DefaultBudget(): (b: Budget)
    ensures Balanced(b)
    ensures b.montantInitial == 0.0 && b.montantConsomme == 0.0 && b.montantDisponible == 0.0
  {
    Budget(0, 0, 0, "", 0.0, 0.0, 0.0, "")
  }

  function DefaultBonCommande(): (bc: BonCommande)
    ensures !bc.valide && bc.dateValidation.None? && bc.numeroBc == ""
  {
    BonCommande(0, "", 0, 0, "", "", "", 0.0, false, None, "")
  }

  function DefaultProjet(): (p: Projet)
    ensures p.statut == "En cours" && p.statut in StatutsProjet && !p.fapRedigee
  {
    Projet(0, "", false, "", "", "", "", "", "", None, None, None, "", "", "En cours")
  }

  function DefaultInvestissement(): (inv: InvestissementProjet)
    ensures inv.projetId == 0 && inv.montantEstime == 0.0
  {
    InvestissementProjet(0, 0, "", "", 0.0)
  }

  function DefaultContactSourcing(): (c: ContactSourcing)
    ensures c.projetId == 0 && c.nom == "" && c.prenom == ""
  {
    ContactSourcing(0, 0, "", "", "", "", "", "")
  }

  function DefaultTodoItem(): (t: TodoItem)
    ensures t.priorite == "Normale" && t.priorite in Priorites
    ensures !t.complete && t.dateCompletion.None?
  {
    TodoItem(0, "", "", 0, None, "Normale", false, None)
  }

  // ---------------------------------------------------------------- outcomes

  /** Why an operation refused, one case per message the application can return. */
  datatype Error =
    | IdRequired                // "ID ... requis"
    | ClientRequired            // "Client requis"
    | FieldRequired(field: string)  // "Le champ '...' est obligatoire"
    | InvalidYear
    | InvalidNature
    | InvalidType
    | InvalidStatut
    | InvalidPriorite
    | InvalidAmount             // "Montant invalide" (negative)
    | NonPositiveAmount         // "Le montant doit être supérieur à zéro"
    | InvalidDateRange
    | InvalidEmail
    | InvalidTelephone
    | Duplicate                 // a unique number or name is already taken
    | NotFound
    | ValidatedLocked           // a validated purchase order cannot change
    | AlreadyValidated          // "BC déjà validé"
    | ValidationImpossible      // the availability check refused
    | HasLinkedBcs              // purchase orders still reference the contract
    | NoBudgetsForYear
    | StorageError              // the database refused the statement (caught)

  /**
   * What an operation reports: `Created(id)` for a successful insert,
   * `Done` for any other success, `Failed(e)` for a refusal. `FailedWithoutId`
   * is the one refusal that comes back as a pair instead of a triple.
   */
  datatype Outcome =
    | Created(id: nat)
    | Done
    | Failed(error: Error)
    | FailedWithoutId(error: Error)

  predicate Succeeded(o: Outcome) {
    o.Created? || o.Done?
  }
}

=== FILE: projet_manager.dfy ===
/**
 * Projects, with their estimated investment lines and their sourcing
 * contacts. A project's name is unique and its state one of a fixed list;
 * an investment line has a type from a fixed list and an amount that is not
 * negative.
 */
module ProjetManager {
  import opened Wrappers
  import opened Dates
  import opened Validators
  import opened Models
  import opened Sorting
  import opened Tables

  // ---------------------------------------------------------------- projects

  /** Some project has the name. */
  predicate NomHeld(projets: map<nat, Projet>, nom: string) {
    exists k :: k in projets && projets[k].nomProjet == nom
  }

  /** `existing` lists exactly the names on file, as a caller of `validate_unique_field` would pass them. */
  predicate ListsNoms(projets: map<nat, Projet>, existing: seq<string>) {
    (forall k :: k in projets ==> projets[k].nomProjet in existing)
    && forall i :: 0 <= i < |existing| ==> NomHeld(projets, existing[i])
  }

  /** Checked against the names on file, `validate_unique_field` refuses exactly the names already held. */
  lemma UniqueFieldIsNomFree(projets: map<nat, Projet>, nom: string, existing: seq<string>)
    requires ListsNoms(projets, existing)
    ensures ValidateUniqueField(nom, existing) <==> !NomHeld(projets, nom)
  {
    if nom in existing {
      var i :| 0 <= i < |existing| && existing[i] == nom;
      assert NomHeld(projets, existing[i]);
    }
  }

  /** Some project other than `id` has the name. */
  predicate NomHeldByOther(projets: map<nat, Projet>, nom: string, id: nat) {
    exists k :: k in projets && k != id && projets[k].nomProjet == nom
  }

  /** The field checks shared by create and update, in their order. */
  function ProjetFieldsCheck(p: Projet): (e: Option<Error>)
    ensures e.None? <==> ValidateRequiredField(p.nomProjet) && p.statut in StatutsProjet
                         && ValidateDateRange(p.dateDebut, p.dateFinEstimee)
    ensures !ValidateRequiredField(p.nomProjet) ==> e == Some(FieldRequired("Nom du projet"))
    ensures e == Some(InvalidDateRange) <==> ValidateRequiredField(p.nomProjet) && p.statut in StatutsProjet
                                              && !ValidateDateRange(p.dateDebut, p.dateFinEstimee)
  {
    if !ValidateRequiredField(p.nomProjet) then Some(FieldRequired("Nom du projet"))
    else if p.statut !in StatutsProjet then Some(InvalidStatut)
    else if !ValidateDateRange(p.dateDebut, p.dateFinEstimee) then Some(InvalidDateRange)
    else None
  }

  /** The checks of `create_projet`: the fields, then a name no project has. */
  function CreateProjetCheck(p: Projet, projets: map<nat, Projet>): (e: Option<Error>)
    ensures e.None? <==> ProjetFieldsCheck(p).None? && !NomHeld(projets, p.nomProjet)
    ensures ProjetFieldsCheck(p).None? && NomHeld(projets, p.nomProjet) ==> e == Some(Duplicate)
    ensures e == Some(InvalidDateRange) <==> ProjetFieldsCheck(p) == Some(InvalidDateRange)
  {
    if ProjetFieldsCheck(p).Some? then ProjetFieldsCheck(p)
    else if exists k | k in projets :: projets[k].nomProjet == p.nomProjet then Some(Duplicate)
    else None
  }

  /**
   * `create_projet`: the row is stored as given, under the next id. A bad
   * date range is refused with a pair (no id slot), every other refusal
   * with a triple.
   */
  method CreateProjet(db: Database, p: Projet) returns (o: Outcome)
    requires db.ValidProjets()
    modifies db`projets, db`lastProjet
    ensures db.ValidProjets()
    ensures CreateProjetCheck(p, old(db.projets)).Some? ==>
              (o.Failed? || o.FailedWithoutId?) && o.error == CreateProjetCheck(p, old(db.projets)).value
              && (o.FailedWithoutId? <==> o.error == InvalidDateRange)
              && db.projets == old(db.projets) && db.lastProjet == old(db.lastProjet)
    ensures CreateProjetCheck(p, old(db.projets)).None? ==>
              o == Created(old(db.lastProjet) + 1) && o.id !in old(db.projets)
              && db.projets == old(db.projets)[o.id := p.(id := o.id)] && db.lastProjet == o.id
  {
    var e := CreateProjetCheck(p, db.projets);
    if e == Some(InvalidDateRange) {
      return FailedWithoutId(InvalidDateRange);
    }
    if e.Some? {
      return Failed(e.value);
    }
    var id := db.InsertProjet(p);
    o := Created(id);
  }

  /** The checks of `update_projet`: an id, the fields, then a name no other project has. */
  function UpdateProjetCheck(p: Projet, projets: map<nat, Projet>): (e: Option<Error>)
    ensures e.None? <==> p.id != 0 && ProjetFieldsCheck(p).None? && !NomHeldByOther(projets, p.nomProjet, p.id)
    ensures p.id == 0 ==> e == Some(IdRequired)
    ensures p.id != 0 && ProjetFieldsCheck(p).None? && NomHeldByOther(projets, p.nomProjet, p.id) ==>
              e == Some(Duplicate)
  {
    if p.id == 0 then Some(IdRequired)
    else if ProjetFieldsCheck(p).Some? then ProjetFieldsCheck(p)
    else if exists k | k in projets :: k != p.id && projets[k].nomProjet == p.nomProjet then Some(Duplicate)
    else None
  }

  /**
   * `update_projet`: every field is written. A project keeping its own name
   * is no duplicate; an id with no row is a success that changes nothing.
   */
  method UpdateProjet(db: Database, p: Projet) returns (o: Outcome)
    requires db.ValidProjets()
    modifies db`projets
    ensures db.ValidProjets()
    ensures UpdateProjetCheck(p, old(db.projets)).Some? ==>
              o == Failed(UpdateProjetCheck(p, old(db.projets)).value) && db.projets == old(db.projets)
    ensures UpdateProjetCheck(p, old(db.projets)).None? && p.id in old(db.projets) ==>
              o == Done && db.projets == old(db.projets)[p.id := p]
    ensures UpdateProjetCheck(p, old(db.projets)).None? && p.id !in old(db.projets) ==>
              o == Done && db.projets == old(db.projets)
  {
    var e := UpdateProjetCheck(p, db.projets);
    if e.Some? {
      return Failed(e.value);
    }
    if p.id in db.projets {
      db.ReplaceProjet(p);
    }
    o := Done;
  }

  /** `delete_projet`: the row goes; its investment lines and sourcing contacts stay. */
  method DeleteProjet(db: Database, id: nat) returns (o: Outcome)
    requires db.ValidProjets()
    modifies db`projets
    ensures db.ValidProjets()
    ensures o == Done && db.projets == old(db.projets) - {id}
  {
    db.RemoveProjet(id);
    o := Done;
  }

  // ---------------------------------------------------------------- investments

  /** A type from the allowed list is never blank. */
  lemma InvestissementTypeRequired(kind: string)
    ensures kind in TypesInvestissement ==> ValidateRequiredField(kind)
  {
    if kind in TypesInvestissement {
      RequiredFieldOfAllowed(kind, TypesInvestissement);
    }
  }

  /** The checks of `add_investissement`, in their order. */
  function AddInvestissementCheck(inv: InvestissementProjet): (e: Option<Error>)
    ensures e.None? <==> inv.projetId != 0 && inv.kind in TypesInvestissement && inv.montantEstime >= 0.0
    ensures inv.projetId == 0 ==> e == Some(IdRequired)
    ensures inv.projetId != 0 && inv.kind in TypesInvestissement && inv.montantEstime < 0.0 ==> e == Some(InvalidAmount)
  {
    InvestissementTypeRequired(inv.kind);
    if inv.projetId == 0 then Some(IdRequired)
    else if !ValidateRequiredField(inv.kind) then Some(FieldRequired("Type"))
    else if inv.kind !in TypesInvestissement then Some(InvalidType)
    else if !ValidateMontant(inv.montantEstime) then Some(InvalidAmount)
    else None
  }

  /** The amount a line adds to project `projetId`'s total. */
  function Share(inv: InvestissementProjet, projetId: nat): real {
    if inv.projetId == projetId then inv.montantEstime else 0.0
  }

  /** `SUM(montant_estime) ... WHERE projet_id = ?` over the lines `rows`. */
  function SumFor(rows: seq<InvestissementProjet>, projetId: nat): (t: real)
    ensures (forall x :: x in rows ==> x.projetId != projetId) ==> t == 0.0
    ensures (forall x :: x in rows && x.projetId == projetId ==> x.montantEstime >= 0.0) ==> t >= 0.0
  {
    if rows == [] then 0.0
    else
      assert forall x :: x in rows[..|rows| - 1] ==> x in rows;
      SumFor(rows[..|rows| - 1], projetId) + Share(rows[|rows| - 1], projetId)
  }

  /**
   * `get_total_investissements(projet_id)`: the sum of the project's
   * estimated amounts; an empty sum (NULL) and a zero sum both give 0.
   */
  function GetTotalInvestissements(invs: map<nat, InvestissementProjet>, projetId: nat): (t: real)
    ensures (forall k :: k in invs ==> invs[k].projetId != projetId) ==> t == 0.0
    ensures (forall k :: k in invs && invs[k].projetId == projetId ==> invs[k].montantEstime >= 0.0) ==> t >= 0.0
  {
    var rows := Rows(invs);
    assert forall x :: x in rows ==> exists k :: k in invs && invs[k] == x;
    SumFor(rows, projetId)
  }

  /**
   * The line `add_investissement` stores, under the id after the high-water
   * mark `last`, adds its amount to its own project's total and nothing to
   * any other project's.
   */
  lemma TotalAfterAdd(invs: map<nat, InvestissementProjet>, last: nat, inv: InvestissementProjet, projetId: nat)
    requires forall j :: j in invs ==> j <= last
    ensures GetTotalInvestissements(invs[last + 1 := inv.(id := last + 1)], projetId)
              == GetTotalInvestissements(invs, projetId) + Share(inv, projetId)
  {
    var row := inv.(id := last + 1);
    RowsAddMax(invs, last + 1, row);
    var rows := Rows(invs);
    assert (rows + [row])[..|rows|] == rows;
  }

  /** The lines of the table all have amounts that are not negative. */
  ghost predicate AmountsValid(invs: map<nat, InvestissementProjet>) {
    forall k :: k in invs ==> invs[k].montantEstime >= 0.0
  }

  /** The line `add_investissement` accepts keeps every amount of the table valid. */
  lemma AddKeepsAmountsValid(invs: map<nat, InvestissementProjet>, last: nat, inv: InvestissementProjet)
    requires AmountsValid(invs) && AddInvestissementCheck(inv).None?
    ensures AmountsValid(invs[last + 1 := inv.(id := last + 1)])
  {
  }

  /**
   * `add_investissement`: the line is stored under the next id, whether or
   * not the project exists; `TotalAfterAdd` says what it does to the
   * totals and `AddKeepsAmountsValid` that every amount stays valid.
   */
  method AddInvestissement(db: Database, inv: InvestissementProjet) returns (o: Outcome)
    requires db.ValidInvestissements()
    modifies db`investissements, db`lastInvestissement
    ensures db.ValidInvestissements()
    ensures AddInvestissementCheck(inv).Some? ==>
              o == Failed(AddInvestissementCheck(inv).value)
              && db.investissements == old(db.investissements) && db.lastInvestissement == old(db.lastInvestissement)
    ensures AddInvestissementCheck(inv).None? ==>
              o == Created(old(db.lastInvestissement) + 1) && o.id !in old(db.investissements)
              && db.investissements == old(db.investissements)[o.id := inv.(id := o.id)]
              && db.lastInvestissement == o.id
  {
    var e := AddInvestissementCheck(inv);
    if e.Some? {
      return Failed(e.value);
    }
    var id := db.InsertInvestissement(inv);
    o := Created(id);
  }

  // ---------------------------------------------------------------- sourcing contacts

  /** The checks of `add_contact_sourcing`, in their order. */
  function AddContactSourcingCheck(c: ContactSourcing): (e: Option<Error>)
    ensures e.None? <==> c.projetId != 0 && ValidateRequiredField(c.nom) && ValidateRequiredField(c.prenom)
    ensures c.projetId == 0 ==> e == Some(IdRequired)
    ensures c.projetId != 0 && !ValidateRequiredField(c.nom) ==> e == Some(FieldRequired("Nom"))
  {
    if c.projetId == 0 then Some(IdRequired)
    else if !ValidateRequiredField(c.nom) then Some(FieldRequired("Nom"))
    else if !ValidateRequiredField(c.prenom) then Some(FieldRequired("Prénom"))
    else None
  }

  /** `add_contact_sourcing`: the contact is stored under the next id, whether or not the project exists. */
  method AddContactSourcing(db: Database, c: ContactSourcing) returns (o: Outcome)
    requires db.ValidSourcing()
    modifies db`sourcing, db`lastSourcing
    ensures db.ValidSourcing()
    ensures AddContactSourcingCheck(c).Some? ==>
              o == Failed(AddContactSourcingCheck(c).value)
              && db.sourcing == old(db.sourcing) && db.lastSourcing == old(db.lastSourcing)
    ensures AddContactSourcingCheck(c).None? ==>
              o == Created(old(db.lastSourcing) + 1) && o.id !in old(db.sourcing)
              && db.sourcing == old(db.sourcing)[o.id := c.(id := o.id)] && db.lastSourcing == o.id
  {
    var e := AddContactSourcingCheck(c);
    if e.Some? {
      return Failed(e.value);
    }
    var id := db.InsertSourcing(c);
    o := Created(id);
  }
}

=== FILE: sorting.dfy ===
/**
 * The order in which a query hands rows back. A table is a map from row id
 * to record; `Rows` lists the records in ascending id order (the order of a
 * table scan) and `Select` lists the rows a WHERE clause accepts in the
 * order of an ORDER BY. Every ordering used in this model ends with the row
 * id as the last key, so it is total and the sorted result is determined.
 */
module Sorting {
  import opened Text

  // ---------------------------------------------------------------- sort keys

  /**
   * One column of an ORDER BY: an integer, an amount, a text ascending, or
   * a text descending. Texts compare by code point, as SQLite's BINARY
   * collation.
   */
  datatype Atom = Num(n: int) | Amount(x: real) | Asc(s: string) | Desc(d: string)

  function AtomRank(a: Atom): nat {
    match a
    case Num(_) => 0
    case Amount(_) => 1
    case Asc(_) => 2
    case Desc(_) => 3
  }

  predicate AtomLe(a: Atom, b: Atom) {
    if AtomRank(a) != AtomRank(b) then AtomRank(a) < AtomRank(b)
    else match a
      case Num(x) => x <= b.n
      case Amount(x) => x <= b.x
      case Asc(x) => StrLe(x, b.s)
      case Desc(x) => StrLe(b.d, x)
  }

  lemma AtomLeTotal(a: Atom, b: Atom)
    ensures AtomLe(a, b) || AtomLe(b, a)
  {
    if AtomRank(a) == AtomRank(b) {
      match a
      case Num(_) =>
      case Amount(_) =>
      case Asc(x) => StrLeTotal(x, b.s);
      case Desc(x) => StrLeTotal(x, b.d);
    }
  }

  lemma AtomLeAntisymmetric(a: Atom, b: Atom)
    requires AtomLe(a, b) && AtomLe(b, a)
    ensures a == b
  {
    match a
    case Num(_) =>
    case Amount(_) =>
    case Asc(x) => StrLeAntisymmetric(x, b.s);
    case Desc(x) => StrLeAntisymmetric(x, b.d);
  }

  lemma AtomLeTransitive(a: Atom, b: Atom, c: Atom)
    requires AtomLe(a, b) && AtomLe(b, c)
    ensures AtomLe(a, c)
  {
    if AtomRank(a) == AtomRank(b) == AtomRank(c) {
      match a
      case Num(_) =>
      case Amount(_) =>
      case Asc(x) => StrLeTransitive(x, b.s, c.s);
      case Desc(x) => StrLeTransitive(c.d, b.d, x);
    }
  }

  /** Lexicographic order on sort keys: the first column that differs decides. */
  predicate KeyLe(x: seq<Atom>, y: seq<Atom>)
    decreases |x|
  {
    x == [] || (y != [] && ((AtomLe(x[0], y[0]) && x[0] != y[0]) || (x[0] == y[0] && KeyLe(x[1..], y[1..]))))
  }

  lemma {:induction false} KeyLeTotal(x: seq<Atom>, y: seq<Atom>)
    ensures KeyLe(x, y) || KeyLe(y, x)
    decreases |x|
  {
    if x != [] && y != [] {
      AtomLeTotal(x[0], y[0]);
      if x[0] == y[0] {
        KeyLeTotal(x[1..], y[1..]);
      }
    }
  }

  lemma {:induction false} KeyLeTransitive(x: seq<Atom>, y: seq<Atom>, z: seq<Atom>)
    requires KeyLe(x, y) && KeyLe(y, z)
    ensures KeyLe(x, z)
    decreases |x|
  {
    if x != [] {
      if x[0] == y[0] && y[0] == z[0] {
        KeyLeTransitive(x[1..], y[1..], z[1..]);
      } else if x[0] != y[0] && y[0] != z[0] {
        AtomLeTransitive(x[0], y[0], z[0]);
        if x[0] == z[0] {
          AtomLeAntisymmetric(x[0], y[0]);
        }
      }
    }
  }

  /** `s` is in ascending order of `key`. */
  ghost predicate SortedByKey<T>(s: seq<T>, key: T -> seq<Atom>) {
    forall i, j :: 0 <= i < j < |s| ==> KeyLe(key(s[i]), key(s[j]))
  }

  /** Inserts `x` before the first element whose key is strictly greater. */
  function Insert<T(!new)>(x: T, s: seq<T>, key: T -> seq<Atom>): (r: seq<T>)
    ensures multiset(r) == multiset(s) + multiset{x}
  {
    if s == [] then [x]
    else if KeyLe(key(x), key(s[0])) && !KeyLe(key(s[0]), key(x)) then
      [x] + s
    else
      assert s == [s[0]] + s[1..];
      [s[0]] + Insert(x, s[1..], key)
  }

  /** Insertion adds exactly `x`. */
  lemma InsertMembers<T(!new)>(x: T, s: seq<T>, key: T -> seq<Atom>)
    ensures forall y :: y in Insert(x, s, key) <==> y in s || y == x
  {
    var r := Insert(x, s, key);
    assert forall y :: y in r <==> y in multiset(r);
    assert forall y :: y in s <==> y in multiset(s);
  }

  /** A sorted listing stays sorted under a head no greater than any element. */
  lemma ConsSorted<T>(y: T, t: seq<T>, key: T -> seq<Atom>)
    requires SortedByKey(t, key)
    requires forall z :: z in t ==> KeyLe(key(y), key(z))
    ensures SortedByKey([y] + t, key)
  {
    var r := [y] + t;
    forall i, j | 0 <= i < j < |r| ensures KeyLe(key(r[i]), key(r[j])) {
      assert r[j] == t[j - 1];
      if i > 0 {
        assert r[i] == t[i - 1];
      }
    }
  }

  /** Insertion keeps a listing sorted. */
  lemma {:induction false} InsertSorted<T(!new)>(x: T, s: seq<T>, key: T -> seq<Atom>)
    requires SortedByKey(s, key)
    ensures SortedByKey(Insert(x, s, key), key)
    decreases |s|
  {
    if s == [] {
    } else if KeyLe(key(x), key(s[0])) && !KeyLe(key(s[0]), key(x)) {
      forall z | z in s ensures KeyLe(key(x), key(z)) {
        var j :| 0 <= j < |s| && s[j] == z;
        if j > 0 {
          KeyLeTransitive(key(x), key(s[0]), key(z));
        }
      }
      ConsSorted(x, s, key);
    } else {
      var t := Insert(x, s[1..], key);
      assert SortedByKey(s[1..], key);
      InsertSorted(x, s[1..], key);
      InsertMembers(x, s[1..], key);
      KeyLeTotal(key(x), key(s[0]));
      forall y | y in t ensures KeyLe(key(s[0]), key(y)) {
        if y != x {
          var j :| 0 <= j < |s[1..]| && s[1..][j] == y;
          assert s[j + 1] == y;
        }
      }
      ConsSorted(s[0], t, key);
    }
  }

  // ---------------------------------------------------------------- table scan

  predicate IsMaxOf(k: nat, s: set<nat>) {
    k in s && forall j :: j in s ==> j <= k
  }

  lemma {:induction false} MaxExists(s: set<nat>)
    requires s != {}
    ensures exists k :: IsMaxOf(k, s)
    decreases |s|
  {
    var x :| x in s;
    if s == {x} {
      assert IsMaxOf(x, s);
    } else {
      MaxExists(s - {x});
      var k :| IsMaxOf(k, s - {x});
      if k < x {
        forall j | j in s ensures j <= x {
          if j != x {
            assert j in s - {x};
          }
        }
        assert IsMaxOf(x, s);
      } else {
        forall j | j in s ensures j <= k {
          if j != x {
            assert j in s - {x};
          }
        }
        assert IsMaxOf(k, s);
      }
    }
  }

  /** The records of a table in ascending id order: the row with the largest id comes last. */
  function Rows<T(==,!new)>(m: map<nat, T>): (r: seq<T>)
    ensures |r| == |m|
    ensures forall x :: x in r <==> x in m.Values
    decreases |m|
  {
    if m == map[] then []
    else
      MaxExists(m.Keys);
      var k :| IsMaxOf(k, m.Keys);
      var rest := m - {k};
      assert m.Values == rest.Values + {m[k]} by {
        forall x | x in m.Values ensures x in rest.Values + {m[k]} {
          var j :| j in m && m[j] == x;
          if j != k {
            assert rest[j] == x;
          }
        }
      }
      Rows(rest) + [m[k]]
  }

  /** A row inserted under a new largest key is the last row of the table. */
  lemma RowsAddMax<T(!new)>(m: map<nat, T>, k: nat, v: T)
    requires forall j :: j in m ==> j < k
    ensures Rows(m[k := v]) == Rows(m) + [v]
  {
    assert IsMaxOf(k, m[k := v].Keys);
    assert m[k := v] - {k} == m;
  }

  // ---------------------------------------------------------------- queries

  /** The values of a map are those left after removing one key, and that key's value. */
  lemma ValuesRemove<T>(m: map<nat, T>, k: nat)
    requires k in m
    ensures forall x :: x in m.Values <==> x in (m - {k}).Values || x == m[k]
  {
    var rest := m - {k};
    forall x | x in m.Values ensures x in rest.Values || x == m[k] {
      var j :| j in m && m[j] == x;
      if j != k {
        assert rest[j] == x;
      }
    }
    forall x | x in rest.Values ensures x in m.Values {
      var j :| j in rest && rest[j] == x;
      assert m[j] == x;
    }
  }

  /**
   * `SELECT * FROM m WHERE p ORDER BY key`: the rows `p` accepts, each
   * inserted by its key into the listing of the rows with smaller ids.
   */
  function Select<T(==,!new)>(m: map<nat, T>, p: T -> bool, key: T -> seq<Atom>): (r: seq<T>)
    ensures forall x :: x in r <==> x in m.Values && p(x)
    ensures forall i, j :: 0 <= i < j < |r| ==> KeyLe(key(r[i]), key(r[j]))
    decreases |m|
  {
    if m == map[] then []
    else
      var k := MaxKey(m.Keys);
      ValuesRemove(m, k);
      var t := Select(m - {k}, p, key);
      if p(m[k]) then
        InsertSorted(m[k], t, key);
        InsertMembers(m[k], t, key);
        Insert(m[k], t, key)
      else t
  }

  /** The largest key of a non-empty table. */
  function MaxKey(s: set<nat>): (k: nat)
    requires s != {}
    ensures IsMaxOf(k, s)
  {
    MaxExists(s);
    var k :| IsMaxOf(k, s);
    k
  }

  /** The ids of the records a WHERE clause accepts. */
  ghost function SelectedIds<T>(m: map<nat, T>, p: T -> bool): set<nat> {
    set k | k in m && p(m[k])
  }

  /** A query returns one row per record its WHERE clause accepts. */
  lemma {:induction false} SelectCount<T(!new)>(m: map<nat, T>, p: T -> bool, key: T -> seq<Atom>)
    ensures |Select(m, p, key)| == |SelectedIds(m, p)|
    decreases |m|
  {
    var ks := SelectedIds(m, p);
    if m == map[] {
      assert ks == {};
    } else {
      var k := MaxKey(m.Keys);
      var rest := m - {k};
      var t := Select(rest, p, key);
      assert Select(m, p, key) == if p(m[k]) then Insert(m[k], t, key) else t;
      SelectCount(rest, p, key);
      var restKs := SelectedIds(rest, p);
      SelectedIdsRemove(m, p, k);
      if p(m[k]) {
        InsertLength(m[k], t, key);
        assert k in ks;
      } else {
        assert ks == restKs;
      }
    }
  }

  lemma SelectedIdsRemove<T>(m: map<nat, T>, p: T -> bool, k: nat)
    ensures SelectedIds(m - {k}, p) == SelectedIds(m, p) - {k}
  {
    var rest := m - {k};
    forall j ensures j in SelectedIds(rest, p) <==> j in SelectedIds(m, p) - {k} {
      if j in rest {
        assert rest[j] == m[j];
      }
    }
  }

  /** Insertion adds one row. */
  lemma InsertLength<T(!new)>(x: T, s: seq<T>, key: T -> seq<Atom>)
    ensures |Insert(x, s, key)| == |s| + 1
  {
    assert |multiset(Insert(x, s, key))| == |multiset(s)| + 1;
  }
}

=== FILE: tables.dfy ===
/**
 * The SQLite store: one map per table from row id to record, the
 * AUTOINCREMENT high-water mark of each table, the UNIQUE and CHECK
 * constraints of the schema as the invariant `Valid`, and the two triggers.
 *
 * Foreign keys are declared in the schema but only switched on for the
 * connection that creates it; every later statement runs on a fresh
 * connection where they are off, so no reference is checked and no delete
 * cascades. The model therefore has no referential constraint.
 */
module Tables {
  import opened Wrappers
  import opened Models

  /** The UNIQUE(client_id, annee, nature) key of a budget. */
  function BudgetKey(b: Budget): (nat, int, string) {
    (b.clientId, b.annee, b.nature)
  }

  /**
   * A budget row as stored by INSERT and the `update_budget_disponible`
   * trigger: the next id, and the available amount computed from the others.
   */
  function InsertedBudget(b: Budget, id: nat): (row: Budget)
    ensures Balanced(row) && row.id == id && BudgetKey(row) == BudgetKey(b)
    ensures row.montantInitial == b.montantInitial && row.montantConsomme == b.montantConsomme
    ensures row.serviceDemandeur == b.serviceDemandeur
  {
    b.(id := id, montantDisponible := b.montantInitial - b.montantConsomme)
  }

  /** The budgets that the imputation trigger debits for a purchase order. */
  predicate ImputedBy(b: Budget, clientId: nat, nature: string, annee: int) {
    b.clientId == clientId && b.nature == nature && b.annee == annee
  }

  /** A budget after `montant` has been spent from it. */
  function Debit(b: Budget, montant: real): (d: Budget)
    ensures d.montantConsomme == b.montantConsomme + montant
    ensures Balanced(d)
    ensures d.montantInitial == b.montantInitial && BudgetKey(d) == BudgetKey(b)
    ensures d.id == b.id && d.serviceDemandeur == b.serviceDemandeur
  {
    b.(montantConsomme := b.montantConsomme + montant,
       montantDisponible := b.montantInitial - (b.montantConsomme + montant))
  }

  /**
   * The body of the `imputer_bc_au_budget` trigger: every budget of the
   * order's client and nature for the given year is debited by the order's
   * amount; nothing checks that the available amount stays non-negative.
   */
  function Impute(budgets: map<nat, Budget>, clientId: nat, nature: string, annee: int, montant: real)
    : (r: map<nat, Budget>)
    ensures r.Keys == budgets.Keys
    ensures forall k :: k in budgets && ImputedBy(budgets[k], clientId, nature, annee) ==>
              r[k].montantConsomme == budgets[k].montantConsomme + montant && Balanced(r[k])
              && r[k].montantInitial == budgets[k].montantInitial && BudgetKey(r[k]) == BudgetKey(budgets[k])
    ensures forall k :: k in budgets && !ImputedBy(budgets[k], clientId, nature, annee) ==> r[k] == budgets[k]
    ensures forall k :: k in budgets ==> r[k].id == budgets[k].id
  {
    map k | k in budgets :: if ImputedBy(budgets[k], clientId, nature, annee) then Debit(budgets[k], montant) else budgets[k]
  }

  /** When no budget matches, the trigger changes no budget. */
  lemma ImputeNoMatch(budgets: map<nat, Budget>, clientId: nat, nature: string, annee: int, montant: real)
    requires forall k :: k in budgets ==> !ImputedBy(budgets[k], clientId, nature, annee)
    ensures Impute(budgets, clientId, nature, annee, montant) == budgets
  {
  }

  /** The trigger will debit a budget below zero: it has no guard of its own. */
  lemma ImputeMayOverdraw()
    ensures Impute(map[1 := Budget(1, 7, 2025, "Fonctionnement", 100.0, 0.0, 100.0, "")],
                   7, "Fonctionnement", 2025, 150.0)[1].montantDisponible == -50.0
  {
  }

  // ---------------------------------------------------------------- per-table constraints
  // In each table every key lies in 1..last (the AUTOINCREMENT high-water
  // mark) and the record stored under it carries that id; then come the
  // table's UNIQUE and CHECK constraints.

  ghost predicate ClientsOk(m: map<nat, Client>, last: nat) {
    (forall k :: k in m ==> 1 <= k <= last && m[k].id == k)
    && (forall i, j :: i in m && j in m && m[i].nom == m[j].nom ==> i == j)
  }

  ghost predicate ContactsOk(m: map<nat, Contact>, last: nat) {
    forall k :: k in m ==> 1 <= k <= last && m[k].id == k
  }

  ghost predicate ContratsOk(m: map<nat, Contrat>, last: nat) {
    (forall k :: k in m ==> 1 <= k <= last && m[k].id == k && m[k].statut in StatutsContrat)
    && (forall i, j :: i in m && j in m && m[i].numeroContrat == m[j].numeroContrat ==> i == j)
  }

  ghost predicate BudgetsOk(m: map<nat, Budget>, last: nat) {
    (forall k :: k in m ==> 1 <= k <= last && m[k].id == k && m[k].nature in Natures)
    && (forall i, j :: i in m && j in m && BudgetKey(m[i]) == BudgetKey(m[j]) ==> i == j)
  }

  ghost predicate BcsOk(m: map<nat, BonCommande>, last: nat) {
    (forall k :: k in m ==> 1 <= k <= last && m[k].id == k && m[k].nature in Natures && m[k].kind in TypesBc)
    && (forall i, j :: i in m && j in m && m[i].numeroBc == m[j].numeroBc ==> i == j)
  }

  ghost predicate ProjetsOk(m: map<nat, Projet>, last: nat) {
    (forall k :: k in m ==> 1 <= k <= last && m[k].id == k && m[k].statut in StatutsProjet)
    && (forall i, j :: i in m && j in m && m[i].nomProjet == m[j].nomProjet ==> i == j)
  }

  ghost predicate InvestissementsOk(m: map<nat, InvestissementProjet>, last: nat) {
    forall k :: k in m ==> 1 <= k <= last && m[k].id == k && m[k].kind in TypesInvestissement
  }

  ghost predicate SourcingOk(m: map<nat, ContactSourcing>, last: nat) {
    forall k :: k in m ==> 1 <= k <= last && m[k].id == k
  }

  ghost predicate TodosOk(m: map<nat, TodoItem>, last: nat) {
    forall k :: k in m ==> 1 <= k <= last && m[k].id == k && m[k].priorite in Priorites
  }

  /** The imputation keeps every budget's id, key and nature, so the constraints still hold. */
  lemma ImputeKeepsConstraints(budgets: map<nat, Budget>, last: nat, clientId: nat, nature: string, annee: int, montant: real)
    requires BudgetsOk(budgets, last)
    ensures BudgetsOk(Impute(budgets, clientId, nature, annee, montant), last)
  {
    var r := Impute(budgets, clientId, nature, annee, montant);
    assert forall k :: k in r ==> BudgetKey(r[k]) == BudgetKey(budgets[k]);
  }

  /** Stamping an order as validated keeps its id, number, nature and type. */
  lemma StampKeepsConstraints(bcs: map<nat, BonCommande>, last: nat, id: nat, now: Timestamp)
    requires BcsOk(bcs, last) && id in bcs
    ensures BcsOk(bcs[id := bcs[id].(valide := true, dateValidation := Some(now))], last)
  {
  }

  class Database {
    var clients: map<nat, Client>
    var contacts: map<nat, Contact>
    var contrats: map<nat, Contrat>
    var budgets: map<nat, Budget>
    var bcs: map<nat, BonCommande>
    var projets: map<nat, Projet>
    var investissements: map<nat, InvestissementProjet>
    var sourcing: map<nat, ContactSourcing>
    var todos: map<nat, TodoItem>

    // The largest id each table has ever handed out (SQLite's sqlite_sequence).
    var lastClient: nat
    var lastContact: nat
    var lastContrat: nat
    var lastBudget: nat
    var lastBc: nat
    var lastProjet: nat
    var lastInvestissement: nat
    var lastSourcing: nat
    var lastTodo: nat

    ghost predicate ValidClients() reads this`clients, this`lastClient { ClientsOk(clients, lastClient) }
    ghost predicate ValidContacts() reads this`contacts, this`lastContact { ContactsOk(contacts, lastContact) }
    ghost predicate ValidContrats() reads this`contrats, this`lastContrat { ContratsOk(contrats, lastContrat) }
    ghost predicate ValidBudgets() reads this`budgets, this`lastBudget { BudgetsOk(budgets, lastBudget) }
    ghost predicate ValidBcs() reads this`bcs, this`lastBc { BcsOk(bcs, lastBc) }
    ghost predicate ValidProjets() reads this`projets, this`lastProjet { ProjetsOk(projets, lastProjet) }
    ghost predicate ValidInvestissements() reads this`investissements, this`lastInvestissement { InvestissementsOk(investissements, lastInvestissement) }
    ghost predicate ValidSourcing() reads this`sourcing, this`lastSourcing { SourcingOk(sourcing, lastSourcing) }
    ghost predicate ValidTodos() reads this`todos, this`lastTodo { TodosOk(todos, lastTodo) }

    /** The schema's keys, UNIQUE and CHECK constraints hold. */
    ghost predicate Valid() reads this {
      ValidClients() && ValidContacts() && ValidContrats() && ValidBudgets() && ValidBcs()
      && ValidProjets() && ValidInvestissements() && ValidSourcing() && ValidTodos()
    }

    /** `initialize_database` on a new file: every table empty. */
    constructor ()
      ensures Valid()
      ensures clients == map[] && contacts == map[] && contrats == map[] && budgets == map[]
      ensures bcs == map[] && projets == map[] && investissements == map[] && sourcing == map[]
      ensures todos == map[]
    {
      clients, contacts, contrats, budgets, bcs := map[], map[], map[], map[], map[];
      projets, investissements, sourcing, todos := map[], map[], map[], map[];
      lastClient, lastContact, lastContrat, lastBudget, lastBc := 0, 0, 0, 0, 0;
      lastProjet, lastInvestissement, lastSourcing, lastTodo := 0, 0, 0, 0;
    }

    /**
     * INSERT INTO budgets followed by the `update_budget_disponible` trigger:
     * the new row gets the next id and `disponible = initial - consommé`.
     */
    method InsertBudget(b: Budget) returns (id: nat)
      requires ValidBudgets()
      requires b.nature in Natures
      requires forall k :: k in budgets ==> BudgetKey(budgets[k]) != BudgetKey(b)
      modifies this`budgets, this`lastBudget
      ensures ValidBudgets()
      ensures id == old(lastBudget) + 1 && id !in old(budgets) && lastBudget == id
      ensures budgets == old(budgets)[id := InsertedBudget(b, id)]
    {
      lastBudget := lastBudget + 1;
      id := lastBudget;
      budgets := budgets[id := InsertedBudget(b, id)];
    }

    // ------------------------------------------------------------ clients

    /** INSERT INTO clients: the next id; the name must be new (UNIQUE). */
    method InsertClient(c: Client) returns (id: nat)
      requires ValidClients()
      requires forall k :: k in clients ==> clients[k].nom != c.nom
      modifies this`clients, this`lastClient
      ensures ValidClients()
      ensures id == old(lastClient) + 1 && id !in old(clients) && lastClient == id
      ensures clients == old(clients)[id := c.(id := id)]
    {
      lastClient := lastClient + 1;
      id := lastClient;
      clients := clients[id := c.(id := id)];
    }

    /** UPDATE clients ... WHERE id = c.id, on an existing row. */
    method ReplaceClient(c: Client)
      requires ValidClients() && c.id in clients
      requires forall k :: k in clients && k != c.id ==> clients[k].nom != c.nom
      modifies this`clients
      ensures ValidClients()
      ensures clients == old(clients)[c.id := c]
    {
      clients := clients[c.id := c];
    }

    // ------------------------------------------------------------ contacts

    /** INSERT INTO contacts. */
    method InsertContact(c: Contact) returns (id: nat)
      requires ValidContacts()
      modifies this`contacts, this`lastContact
      ensures ValidContacts()
      ensures id == old(lastContact) + 1 && id !in old(contacts) && lastContact == id
      ensures contacts == old(contacts)[id := c.(id := id)]
    {
      lastContact := lastContact + 1;
      id := lastContact;
      contacts := contacts[id := c.(id := id)];
    }

    /** UPDATE contacts ... WHERE id = c.id, on an existing row. */
    method ReplaceContact(c: Contact)
      requires ValidContacts() && c.id in contacts
      modifies this`contacts
      ensures ValidContacts()
      ensures contacts == old(contacts)[c.id := c]
    {
      contacts := contacts[c.id := c];
    }

    /** DELETE FROM contacts WHERE id = ? (nothing happens for a missing id). */
    method RemoveContact(id: nat)
      requires ValidContacts()
      modifies this`contacts
      ensures ValidContacts()
      ensures contacts == old(contacts) - {id}
    {
      contacts := contacts - {id};
    }

    // ------------------------------------------------------------ contracts

    /** INSERT INTO contrats: the number must be new, the state one of the list. */
    method InsertContrat(c: Contrat) returns (id: nat)
      requires ValidContrats() && c.statut in StatutsContrat
      requires forall k :: k in contrats ==> contrats[k].numeroContrat != c.numeroContrat
      modifies this`contrats, this`lastContrat
      ensures ValidContrats()
      ensures id == old(lastContrat) + 1 && id !in old(contrats) && lastContrat == id
      ensures contrats == old(contrats)[id := c.(id := id)]
    {
      lastContrat := lastContrat + 1;
      id := lastContrat;
      contrats := contrats[id := c.(id := id)];
    }

    /** UPDATE contrats ... WHERE id = c.id, on an existing row. */
    method ReplaceContrat(c: Contrat)
      requires ValidContrats() && c.id in contrats && c.statut in StatutsContrat
      requires forall k :: k in contrats && k != c.id ==> contrats[k].numeroContrat != c.numeroContrat
      modifies this`contrats
      ensures ValidContrats()
      ensures contrats == old(contrats)[c.id := c]
    {
      contrats := contrats[c.id := c];
    }

    /** `UPDATE contrats SET alerte_6_mois = ? WHERE id = ?`, on an existing row. */
    method SetAlerte(id: nat, alerte: bool)
      requires ValidContrats() && id in contrats
      modifies this`contrats
      ensures ValidContrats()
      ensures contrats == old(contrats)[id := old(contrats)[id].(alerte6Mois := alerte)]
    {
      contrats := contrats[id := contrats[id].(alerte6Mois := alerte)];
    }

    /** DELETE FROM contrats WHERE id = ?. */
    method RemoveContrat(id: nat)
      requires ValidContrats()
      modifies this`contrats
      ensures ValidContrats()
      ensures contrats == old(contrats) - {id}
    {
      contrats := contrats - {id};
    }

    // ------------------------------------------------------------ budgets

    /** UPDATE budgets ... WHERE id = b.id, on an existing row. */
    method ReplaceBudget(b: Budget)
      requires ValidBudgets() && b.id in budgets && b.nature in Natures
      requires forall k :: k in budgets && k != b.id ==> BudgetKey(budgets[k]) != BudgetKey(b)
      modifies this`budgets
      ensures ValidBudgets()
      ensures budgets == old(budgets)[b.id := b]
    {
      budgets := budgets[b.id := b];
    }

    /** DELETE FROM budgets WHERE id = ?. */
    method RemoveBudget(id: nat)
      requires ValidBudgets()
      modifies this`budgets
      ensures ValidBudgets()
      ensures budgets == old(budgets) - {id}
    {
      budgets := budgets - {id};
    }

    // ------------------------------------------------------------ purchase orders

    /** INSERT INTO bons_commande: a new number, nature and type from their lists. */
    method InsertBc(bc: BonCommande) returns (id: nat)
      requires ValidBcs() && bc.nature in Natures && bc.kind in TypesBc
      requires forall k :: k in bcs ==> bcs[k].numeroBc != bc.numeroBc
      modifies this`bcs, this`lastBc
      ensures ValidBcs()
      ensures id == old(lastBc) + 1 && id !in old(bcs) && lastBc == id
      ensures bcs == old(bcs)[id := bc.(id := id)]
    {
      lastBc := lastBc + 1;
      id := lastBc;
      bcs := bcs[id := bc.(id := id)];
    }

    /** UPDATE bons_commande ... WHERE id = bc.id, on an existing row. */
    method ReplaceBc(bc: BonCommande)
      requires ValidBcs() && bc.id in bcs && bc.nature in Natures && bc.kind in TypesBc
      requires bc.numeroBc == bcs[bc.id].numeroBc
      modifies this`bcs
      ensures ValidBcs()
      ensures bcs == old(bcs)[bc.id := bc]
    {
      bcs := bcs[bc.id := bc];
    }

    /** DELETE FROM bons_commande WHERE id = ?. */
    method RemoveBc(id: nat)
      requires ValidBcs()
      modifies this`bcs
      ensures ValidBcs()
      ensures bcs == old(bcs) - {id}
    {
      bcs := bcs - {id};
    }

    // ------------------------------------------------------------ projects

    /** INSERT INTO projets: the name must be new, the state one of the list. */
    method InsertProjet(p: Projet) returns (id: nat)
      requires ValidProjets() && p.statut in StatutsProjet
      requires forall k :: k in projets ==> projets[k].nomProjet != p.nomProjet
      modifies this`projets, this`lastProjet
      ensures ValidProjets()
      ensures id == old(lastProjet) + 1 && id !in old(projets) && lastProjet == id
      ensures projets == old(projets)[id := p.(id := id)]
    {
      lastProjet := lastProjet + 1;
      id := lastProjet;
      projets := projets[id := p.(id := id)];
    }

    /** UPDATE projets ... WHERE id = p.id, on an existing row. */
    method ReplaceProjet(p: Projet)
      requires ValidProjets() && p.id in projets && p.statut in StatutsProjet
      requires forall k :: k in projets && k != p.id ==> projets[k].nomProjet != p.nomProjet
      modifies this`projets
      ensures ValidProjets()
      ensures projets == old(projets)[p.id := p]
    {
      projets := projets[p.id := p];
    }

    /** DELETE FROM projets WHERE id = ? (investments and sourcing contacts stay). */
    method RemoveProjet(id: nat)
      requires ValidProjets()
      modifies this`projets
      ensures ValidProjets()
      ensures projets == old(projets) - {id}
    {
      projets := projets - {id};
    }

    /** INSERT INTO investissements_projet: the type must be one of the list. */
    method InsertInvestissement(inv: InvestissementProjet) returns (id: nat)
      requires ValidInvestissements() && inv.kind in TypesInvestissement
      modifies this`investissements, this`lastInvestissement
      ensures ValidInvestissements()
      ensures id == old(lastInvestissement) + 1 && id !in old(investissements) && lastInvestissement == id
      ensures investissements == old(investissements)[id := inv.(id := id)]
    {
      lastInvestissement := lastInvestissement + 1;
      id := lastInvestissement;
      investissements := investissements[id := inv.(id := id)];
    }

    /** INSERT INTO contacts_sourcing. */
    method InsertSourcing(c: ContactSourcing) returns (id: nat)
      requires ValidSourcing()
      modifies this`sourcing, this`lastSourcing
      ensures ValidSourcing()
      ensures id == old(lastSourcing) + 1 && id !in old(sourcing) && lastSourcing == id
      ensures sourcing == old(sourcing)[id := c.(id := id)]
    {
      lastSourcing := lastSourcing + 1;
      id := lastSourcing;
      sourcing := sourcing[id := c.(id := id)];
    }

    // ------------------------------------------------------------ to-do items

    /** INSERT INTO todo_list: the priority must be one of the list. */
    method InsertTodo(t: TodoItem) returns (id: nat)
      requires ValidTodos() && t.priorite in Priorites
      modifies this`todos, this`lastTodo
      ensures ValidTodos()
      ensures id == old(lastTodo) + 1 && id !in old(todos) && lastTodo == id
      ensures todos == old(todos)[id := t.(id := id)]
    {
      lastTodo := lastTodo + 1;
      id := lastTodo;
      todos := todos[id := t.(id := id)];
    }

    /** UPDATE todo_list ... WHERE id = t.id, on an existing row. */
    method ReplaceTodo(t: TodoItem)
      requires ValidTodos() && t.id in todos && t.priorite in Priorites
      modifies this`todos
      ensures ValidTodos()
      ensures todos == old(todos)[t.id := t]
    {
      todos := todos[t.id := t];
    }

    /** DELETE FROM todo_list WHERE id = ?. */
    method RemoveTodo(id: nat)
      requires ValidTodos()
      modifies this`todos
      ensures ValidTodos()
      ensures todos == old(todos) - {id}
    {
      todos := todos - {id};
    }

    /**
     * `UPDATE bons_commande SET valide = 1 WHERE id = ?` with the
     * `imputer_bc_au_budget` trigger, which fires only on the 0 -> 1 change:
     * it debits the order's budgets for `currentYear` and stamps the order.
     */
    method SetValide(id: nat, currentYear: int, now: Timestamp)
      requires ValidBudgets() && ValidBcs() && id in bcs
      modifies this`bcs, this`budgets
      ensures ValidBudgets() && ValidBcs()
      ensures old(bcs[id].valide) ==>
                budgets == old(budgets) && bcs == old(bcs)
      ensures !old(bcs[id].valide) ==>
                budgets == Impute(old(budgets), old(bcs[id].clientId), old(bcs[id].nature), currentYear, old(bcs[id].montant))
                && bcs == old(bcs)[id := old(bcs[id]).(valide := true, dateValidation := Some(now))]
    {
      var bc := bcs[id];
      if !bc.valide {
        ImputeKeepsConstraints(budgets, lastBudget, bc.clientId, bc.nature, currentYear, bc.montant);
        StampKeepsConstraints(bcs, lastBc, id, now);
        budgets := Impute(budgets, bc.clientId, bc.nature, currentYear, bc.montant);
        bcs := bcs[id := bc.(valide := true, dateValidation := Some(now))];
      }
    }
  }
}

=== FILE: text.dfy ===
/**
 * Character classes and string primitives used by the validators and
 * formatters: Python's `str.isdigit`, `str.isspace`, `str.strip`,
 * `str.lower`, decimal rendering of integers (`f"{n}"`, `f"{n:04d}"`),
 * `int()` on a string of digits and slicing `s[:k]`.
 * Only the ASCII part of Python's Unicode tables is modelled.
 */
module Text {
  import opened Wrappers

  predicate IsDigit(c: char) {
    '0' <= c <= '9'
  }

  predicate IsAsciiLetter(c: char) {
    ('a' <= c <= 'z') || ('A' <= c <= 'Z')
  }

  /** `str.isspace` on ASCII: space, \t \n \v \f \r and the separators \x1c-\x1f. */
  predicate IsSpace(c: char) {
    c == ' ' || (9 <= c as int <= 13) || (28 <= c as int <= 31)
  }

  predicate AllDigits(s: string) {
    forall i :: 0 <= i < |s| ==> IsDigit(s[i])
  }

  predicate AllSpace(s: string) {
    forall i :: 0 <= i < |s| ==> IsSpace(s[i])
  }

  /** Number of decimal digits in `s` (the length of `re.sub(r'\D', '', s)`). */
  function CountDigits(s: string): (n: nat)
    ensures n <= |s|
  {
    if s == [] then 0 else CountDigits(s[..|s| - 1]) + (if IsDigit(s[|s| - 1]) then 1 else 0)
  }

  /** The digits of `s`, in order (`''.join(filter(str.isdigit, s))`). */
  function Digits(s: string): (d: string)
    ensures AllDigits(d) && |d| == CountDigits(s)
  {
    if s == [] then []
    else Digits(s[..|s| - 1]) + (if IsDigit(s[|s| - 1]) then [s[|s| - 1]] else [])
  }

  /** Keeping the digits distributes over concatenation. */
  lemma {:induction false} DigitsAppend(a: string, b: string)
    ensures Digits(a + b) == Digits(a) + Digits(b)
    decreases |b|
  {
    if b != [] {
      var b' := b[..|b| - 1];
      assert (a + b)[..|a + b| - 1] == a + b';
      DigitsAppend(a, b');
    } else {
      assert a + b == a;
    }
  }

  /** The digits of a single character. */
  lemma DigitsOfChar(c: char)
    ensures Digits([c]) == if IsDigit(c) then [c] else []
  {
    assert [c][..0] == [];
  }

  /** A string made of digits only is its own digit string. */
  lemma {:induction false} DigitsOfDigits(s: string)
    requires AllDigits(s)
    ensures Digits(s) == s
    decreases |s|
  {
    if s != [] {
      DigitsOfDigits(s[..|s| - 1]);
      assert s == s[..|s| - 1] + [s[|s| - 1]];
    }
  }

  // ---------------------------------------------------------------- strip

  function TrimLeft(s: string): (r: string)
    ensures |r| <= |s| && r == s[|s| - |r|..]
    ensures r != [] ==> !IsSpace(r[0])
    ensures AllSpace(s[..|s| - |r|])
  {
    if s != [] && IsSpace(s[0]) then
      var r := TrimLeft(s[1..]);
      assert s[1..][..|s| - 1 - |r|] == s[1..|s| - |r|];
      r
    else s
  }

  function TrimRight(s: string): (r: string)
    ensures |r| <= |s| && r == s[..|r|]
    ensures r != [] ==> !IsSpace(r[|r| - 1])
    ensures AllSpace(s[|r|..])
  {
    if s != [] && IsSpace(s[|s| - 1]) then
      var r := TrimRight(s[..|s| - 1]);
      assert s[..|s| - 1][|r|..] + [s[|s| - 1]] == s[|r|..];
      r
    else s
  }

  /**
   * `r` is `s` less a prefix and a suffix of white space, and neither
   * starts nor ends with white space itself.
   */
  predicate IsStripOf(s: string, r: string) {
    (r != [] ==> !IsSpace(r[0]) && !IsSpace(r[|r| - 1]))
    && exists i, j :: 0 <= i <= j <= |s| && r == s[i..j] && AllSpace(s[..i]) && AllSpace(s[j..])
  }

  /** `r` is the slice `s[i..j]` with white space only around it. */
  lemma StripOfAt(s: string, r: string, i: nat, j: nat)
    requires i <= j <= |s| && r == s[i..j] && AllSpace(s[..i]) && AllSpace(s[j..])
    requires r != [] ==> !IsSpace(r[0]) && !IsSpace(r[|r| - 1])
    ensures IsStripOf(s, r)
  {
  }

  /** Python's `s.strip()`. */
  function Strip(s: string): (r: string)
    ensures |r| <= |s|
    ensures r != [] ==> !IsSpace(r[0]) && !IsSpace(r[|r| - 1])
  {
    var l := TrimLeft(s);
    var r := TrimRight(l);
    assert r != [] ==> r[0] == l[0];
    r
  }

  /** `s.strip()` removes white space only, from both ends, and leaves none at either end. */
  lemma StripIsStripOf(s: string)
    ensures IsStripOf(s, Strip(s))
  {
    var l := TrimLeft(s);
    var r := TrimRight(l);
    var i := |s| - |l|;
    var k := |r|;
    assert Strip(s) == r;
    assert l == s[i..];
    assert l[..k] == s[i..i + k];
    assert l[k..] == s[i + k..];
    StripOfAt(s, r, i, i + k);
  }

  /** The characterisation of `strip` has a single solution: any such `r` is `s.strip()`. */
  lemma StripUnique(s: string, r: string)
    requires IsStripOf(s, r)
    ensures r == Strip(s)
  {
    StripIsStripOf(s);
    StripOfUnique(s, r, Strip(s));
  }

  /** Two texts that both satisfy the characterisation of `strip` are equal. */
  lemma StripOfUnique(s: string, r: string, t: string)
    requires IsStripOf(s, r) && IsStripOf(s, t)
    ensures r == t
  {
    var i, j :| 0 <= i <= j <= |s| && r == s[i..j] && AllSpace(s[..i]) && AllSpace(s[j..]);
    var i', j' :| 0 <= i' <= j' <= |s| && t == s[i'..j'] && AllSpace(s[..i']) && AllSpace(s[j'..]);
    StripSlicesAgree(s, r, i, j, t, i', j');
  }

  /** Two slices that each have only white space around them and none at their ends are equal. */
  lemma StripSlicesAgree(s: string, r: string, i: nat, j: nat, t: string, i': nat, j': nat)
    requires i <= j <= |s| && r == s[i..j] && AllSpace(s[..i]) && AllSpace(s[j..])
    requires r != [] ==> !IsSpace(r[0]) && !IsSpace(r[|r| - 1])
    requires i' <= j' <= |s| && t == s[i'..j'] && AllSpace(s[..i']) && AllSpace(s[j'..])
    requires t != [] ==> !IsSpace(t[0]) && !IsSpace(t[|t| - 1])
    ensures r == t
  {
    if r == [] || t == [] {
      EmptyStripBoth(s, r, i, j, t, i', j');
      EmptyStripBoth(s, t, i', j', r, i, j);
    } else {
      StripBoundsAgree(s, r, i, j, t, i', j');
      StripBoundsAgree(s, t, i', j', r, i, j);
      assert i == i' && j == j';
    }
  }

  /** Two non-empty candidate strips cannot start earlier or end later than one another. */
  lemma StripBoundsAgree(s: string, r: string, i: nat, j: nat, t: string, i': nat, j': nat)
    requires i < j <= |s| && r == s[i..j] && !IsSpace(r[0]) && !IsSpace(r[|r| - 1])
    requires i' < j' <= |s| && t == s[i'..j'] && AllSpace(s[..i']) && AllSpace(s[j'..])
    ensures i' <= i && j <= j'
  {
    if i < i' {
      assert false;
    }
    if j' < j {
      assert false;
    }
  }

  /** When one candidate strip is empty, `s` is all white space and the other is empty too. */
  lemma EmptyStripBoth(s: string, r: string, i: nat, j: nat, t: string, i': nat, j': nat)
    requires i <= j <= |s| && r == s[i..j] && AllSpace(s[..i]) && AllSpace(s[j..])
    requires i' <= j' <= |s| && t == s[i'..j'] && (t != [] ==> !IsSpace(t[0]))
    ensures r == [] ==> t == []
  {
    if r == [] && t != [] {
      assert false;
    }
  }

  lemma {:induction false} TrimLeftNoLeadingSpace(s: string)
    requires s == [] || !IsSpace(s[0])
    ensures TrimLeft(s) == s
  {
  }

  lemma {:induction false} TrimRightNoTrailingSpace(s: string)
    requires s == [] || !IsSpace(s[|s| - 1])
    ensures TrimRight(s) == s
  {
  }

  /** A string that neither starts nor ends with white space is its own strip. */
  lemma StripNoSurroundingSpace(s: string)
    requires s == [] || (!IsSpace(s[0]) && !IsSpace(s[|s| - 1]))
    ensures Strip(s) == s
  {
    TrimLeftNoLeadingSpace(s);
    TrimRightNoTrailingSpace(s);
  }

  /** Stripping white space added around a text that has none at its ends gives the text back. */
  lemma StripPadded(a: string, t: string, b: string)
    requires AllSpace(a) && AllSpace(b)
    requires t == [] || (!IsSpace(t[0]) && !IsSpace(t[|t| - 1]))
    ensures Strip(a + t + b) == t
  {
    var s := a + t + b;
    assert s[..|a|] == a && s[|a|..|a| + |t|] == t && s[|a| + |t|..] == b;
    StripUnique(s, t);
  }

  /** `strip` is idempotent. */
  lemma StripIdempotent(s: string)
    ensures Strip(Strip(s)) == Strip(s)
  {
    StripNoSurroundingSpace(Strip(s));
  }

  /** `s.strip()` is empty exactly when every character of `s` is white space. */
  lemma {:induction false} StripEmptyIffAllSpace(s: string)
    ensures Strip(s) == [] <==> AllSpace(s)
  {
    var l := TrimLeft(s);
    var r := TrimRight(l);
    forall j | 0 <= j < |s| - |l|
      ensures IsSpace(s[j])
    {
      assert s[..|s| - |l|][j] == s[j];
    }
    forall j | |r| <= j < |l|
      ensures IsSpace(l[j])
    {
      assert l[|r|..][j - |r|] == l[j];
    }
    forall j | |s| - |l| <= j < |s|
      ensures s[j] == l[j - (|s| - |l|)]
    {
    }
    if l != [] {
      assert l[0] == s[|s| - |l|];
    }
  }

  // ---------------------------------------------------------------- case

  function LowerChar(c: char): (l: char)
    ensures !('A' <= l <= 'Z')
    ensures IsSpace(l) <==> IsSpace(c)
    ensures !('A' <= c <= 'Z') ==> l == c
  {
    if 'A' <= c <= 'Z' then (c as int + 32) as char else c
  }

  /** Python's `s.lower()` on ASCII letters; other characters are kept. */
  function Lower(s: string): (r: string)
    ensures |r| == |s|
    ensures forall i :: 0 <= i < |s| ==> r[i] == LowerChar(s[i])
  {
    seq(|s|, i requires 0 <= i < |s| => LowerChar(s[i]))
  }

  /** Text without upper-case ASCII letters is its own lower case. */
  lemma LowerNoUpper(s: string)
    requires forall i :: 0 <= i < |s| ==> !('A' <= s[i] <= 'Z')
    ensures Lower(s) == s
  {
    var l := Lower(s);
    assert forall i :: 0 <= i < |s| ==> l[i] == s[i];
  }

  // ---------------------------------------------------------------- numbers

  function DigitChar(d: nat): (c: char)
    requires d < 10
    ensures IsDigit(c)
  {
    ('0' as int + d) as char
  }

  function DigitValue(c: char): (d: nat)
    requires IsDigit(c)
    ensures d < 10
  {
    c as int - '0' as int
  }

  /** `str(n)` for a natural number: its decimal digits, without leading zeros. */
  function NatToString(n: nat): (r: string)
    ensures |r| >= 1 && AllDigits(r)
    decreases n
  {
    if n < 10 then [DigitChar(n)] else NatToString(n / 10) + [DigitChar(n % 10)]
  }

  /** `f"{i}"` for any integer. */
  function IntToString(i: int): (r: string)
    ensures |r| >= 1
  {
    if i < 0 then "-" + NatToString(-i) else NatToString(i)
  }

  /** `f"{n:0wd}"` for a natural number: zeros on the left up to width `w`. */
  function ZeroPad(n: nat, w: nat): (r: string)
    ensures AllDigits(r) && |r| >= w && |r| >= 1
  {
    var d := NatToString(n);
    if |d| >= w then d else seq(w - |d|, _ => '0') + d
  }

  /** `f"{i:04d}"`: the sign counts towards the width. */
  function Format04d(i: int): (r: string)
    ensures |r| >= 4
  {
    if i < 0 then "-" + ZeroPad(-i, 3) else ZeroPad(i, 4)
  }

  /** Value of a string of decimal digits (most significant first). */
  function DigitsValue(s: string): nat
    requires AllDigits(s)
  {
    if s == [] then 0 else DigitsValue(s[..|s| - 1]) * 10 + DigitValue(s[|s| - 1])
  }

  /** `int(s)` for a non-empty string of ASCII digits; `None` where Python raises. */
  function ParseNat(s: string): (r: Option<nat>)
    ensures r.Some? <==> s != [] && AllDigits(s)
  {
    if s != [] && AllDigits(s) then Some(DigitsValue(s)) else None
  }

  lemma {:induction false} DigitsValueOfNatToString(n: nat)
    ensures DigitsValue(NatToString(n)) == n
    decreases n
  {
    if n >= 10 {
      var s := NatToString(n);
      assert s[..|s| - 1] == NatToString(n / 10);
      DigitsValueOfNatToString(n / 10);
    }
  }

  /** Leading zeros do not change the value of a digit string. */
  lemma {:induction false} DigitsValueLeadingZeros(k: nat, s: string)
    requires AllDigits(s)
    ensures AllDigits(seq(k, _ => '0') + s)
    ensures DigitsValue(seq(k, _ => '0') + s) == DigitsValue(s)
    decreases |s|
  {
    var z := seq(k, _ => '0');
    if s == [] {
      assert z + s == z;
      ZerosValue(k);
    } else {
      assert (z + s)[..|z + s| - 1] == z + s[..|s| - 1];
      DigitsValueLeadingZeros(k, s[..|s| - 1]);
    }
  }

  lemma {:induction false} ZerosValue(k: nat)
    ensures DigitsValue(seq(k, _ => '0')) == 0
  {
    if k > 0 {
      assert seq(k, _ => '0')[..k - 1] == seq(k - 1, _ => '0');
      ZerosValue(k - 1);
    }
  }

  /** `int(f"{n:0wd}") == n`. */
  lemma ParseZeroPad(n: nat, w: nat)
    ensures ParseNat(ZeroPad(n, w)) == Some(n)
  {
    var d := NatToString(n);
    DigitsValueOfNatToString(n);
    if |d| < w {
      DigitsValueLeadingZeros(w - |d|, d);
    }
  }

  /** `int(str(n)) == n`. */
  lemma ParseNatToString(n: nat)
    ensures ParseNat(NatToString(n)) == Some(n)
  {
    DigitsValueOfNatToString(n);
  }

  /** Digit strings of at most 4 characters have values below 10000. */
  lemma {:induction false} DigitsValueBound(s: string)
    requires AllDigits(s)
    ensures |s| <= 4 ==> DigitsValue(s) < 10000
    ensures |s| <= 3 ==> DigitsValue(s) < 1000
    ensures |s| <= 2 ==> DigitsValue(s) < 100
    ensures |s| <= 1 ==> DigitsValue(s) < 10
    decreases |s|
  {
    if s != [] {
      DigitsValueBound(s[..|s| - 1]);
    }
  }

  /** `str(n)` has exactly four characters for four-digit numbers. */
  lemma {:induction false} NatToStringLength4(n: nat)
    requires 1000 <= n <= 9999
    ensures |NatToString(n)| == 4
  {
    assert NatToString(n) == NatToString(n / 10) + [DigitChar(n % 10)];
    assert NatToString(n / 10) == NatToString(n / 100) + [DigitChar(n / 10 % 10)];
    assert NatToString(n / 100) == NatToString(n / 1000) + [DigitChar(n / 100 % 10)];
  }

  /** `str(n)` has at most `k` characters when `n < 10^k`, for k up to 4. */
  lemma {:induction false} NatToStringShort(n: nat)
    ensures n < 10 ==> |NatToString(n)| == 1
    ensures n < 100 ==> |NatToString(n)| <= 2
    ensures n < 1000 ==> |NatToString(n)| <= 3
    ensures n < 10000 ==> |NatToString(n)| <= 4
    decreases n
  {
    if n >= 10 {
      NatToStringShort(n / 10);
    }
  }

  lemma DigitsValue2(t: string)
    requires |t| == 2 && AllDigits(t)
    ensures DigitsValue(t) == DigitValue(t[0]) * 10 + DigitValue(t[1])
  {
    assert t[..1] == [t[0]];
    assert [t[0]][..0] == [];
    assert DigitsValue([t[0]]) == DigitValue(t[0]);
  }

  lemma ZerosAppend(k: nat)
    ensures seq(k, _ => '0') + "0" == seq(k + 1, _ => '0')
  {
  }

  /** Appending a digit to a positive number appends it to its padded rendering. */
  lemma {:induction false} ZeroPadAppend(v: nat, d: nat, w: nat)
    requires v > 0 && d < 10
    ensures ZeroPad(v * 10 + d, w + 1) == ZeroPad(v, w) + [DigitChar(d)]
  {
    var n := v * 10 + d;
    assert n / 10 == v && n % 10 == d;
    assert NatToString(n) == NatToString(v) + [DigitChar(d)];
    var k := |NatToString(v)|;
    if k < w {
      assert ZeroPad(n, w + 1) == seq(w - k, _ => '0') + (NatToString(v) + [DigitChar(d)]);
    }
  }

  /** A string of digits is the zero-padded rendering of its own value. */
  lemma {:induction false} ZeroPadOfValue(t: string)
    requires AllDigits(t) && t != []
    ensures ZeroPad(DigitsValue(t), |t|) == t
    decreases |t|
  {
    var n := |t|;
    var d := DigitValue(t[n - 1]);
    assert DigitChar(d) == t[n - 1];
    if n > 1 {
      var u := t[..n - 1];
      ZeroPadOfValue(u);
      var v' := DigitsValue(u);
      assert t == u + [t[n - 1]];
      if v' == 0 {
        assert DigitsValue(t) == d;
        ZeroPadZeros(n - 1);
        ZeroPadDigit(d, n);
      } else {
        ZeroPadAppend(v', d, n - 1);
      }
    }
  }

  /** Zero padded to `w` places is `w` zeros. */
  lemma ZeroPadZeros(w: nat)
    requires w >= 1
    ensures ZeroPad(0, w) == seq(w, _ => '0')
  {
    assert NatToString(0) == "0";
    if w > 1 {
      assert ZeroPad(0, w) == seq(w - 1, _ => '0') + "0";
      ZerosAppend(w - 1);
    }
  }

  /** A single digit padded to `w` places is `w - 1` zeros and the digit. */
  lemma ZeroPadDigit(d: nat, w: nat)
    requires d < 10 && w >= 1
    ensures ZeroPad(d, w) == seq(w - 1, _ => '0') + [DigitChar(d)]
  {
    assert NatToString(d) == [DigitChar(d)];
  }

  function Pow10(k: nat): (p: nat)
    ensures p >= 1
  {
    if k == 0 then 1 else 10 * Pow10(k - 1)
  }

  /** A string of `k` digits is worth less than `10^k`. */
  lemma {:induction false} DigitsValueBelow(t: string)
    requires AllDigits(t)
    ensures DigitsValue(t) < Pow10(|t|)
    decreases |t|
  {
    if t != [] {
      DigitsValueBelow(t[..|t| - 1]);
    }
  }

  /** The leading digit of a digit string weighs `10^k`, where `k` digits follow it. */
  lemma {:induction false} DigitsValueCons(c: char, t: string)
    requires IsDigit(c) && AllDigits(t)
    ensures AllDigits([c] + t)
    ensures DigitsValue([c] + t) == DigitValue(c) * Pow10(|t|) + DigitsValue(t)
    decreases |t|
  {
    var s := [c] + t;
    if t == [] {
      assert s[..0] == [];
    } else {
      var t' := t[..|t| - 1];
      assert s[..|s| - 1] == [c] + t';
      DigitsValueCons(c, t');
      var d, p, v, e := DigitValue(c), Pow10(|t'|), DigitsValue(t'), DigitValue(t[|t| - 1]);
      assert DigitsValue(s) == DigitsValue([c] + t') * 10 + e;
      assert DigitsValue(t) == v * 10 + e;
      assert Pow10(|t|) == 10 * p;
      ShiftDigit(d, p, v, e);
    }
  }

  /** Appending a digit multiplies the leading digit's weight by ten. */
  lemma ShiftDigit(d: nat, p: nat, v: nat, e: nat)
    ensures (d * p + v) * 10 + e == d * (10 * p) + (v * 10 + e)
  {
    calc {
      (d * p + v) * 10 + e;
      d * p * 10 + v * 10 + e;
      d * (10 * p) + (v * 10 + e);
    }
  }

  /** A smaller leading digit outweighs whatever follows it. */
  lemma LeadingDigitLess(a: nat, b: nat, p: nat, u: nat, v: nat)
    requires a < b && u < p
    ensures a * p + u < b * p + v
  {
    calc {
      b * p + v;
    >=
      b * p;
    ==
      (a + 1) * p + (b - a - 1) * p;
    >=  { assert (b - a - 1) * p >= 0; }
      (a + 1) * p;
    ==
      a * p + p;
    >
      a * p + u;
    }
  }

  /** On digit strings of one length, text order is the order of their values. */
  lemma {:induction false} StrLeDigits(x: string, y: string)
    requires |x| == |y| && AllDigits(x) && AllDigits(y) && StrLe(x, y)
    ensures DigitsValue(x) <= DigitsValue(y)
    decreases |x|
  {
    if x != [] {
      var x', y' := x[1..], y[1..];
      assert x == [x[0]] + x' && y == [y[0]] + y';
      DigitsValueCons(x[0], x');
      DigitsValueCons(y[0], y');
      if x[0] == y[0] {
        StrLeDigits(x', y');
      } else {
        DigitsValueBelow(x');
        LeadingDigitLess(DigitValue(x[0]), DigitValue(y[0]), Pow10(|x'|), DigitsValue(x'), DigitsValue(y'));
      }
    }
  }

  // ---------------------------------------------------------------- slicing

  /** Python's `s[:k]`, where a negative `k` counts from the end. */
  function SliceTo(s: string, k: int): (r: string)
    ensures |r| == if k >= 0 then (if k <= |s| then k else |s|)
                   else (if |s| + k >= 0 then |s| + k else 0)
    ensures r == s[..|r|]
  {
    if k >= 0 then (if k <= |s| then s[..k] else s)
    else (if |s| + k >= 0 then s[..|s| + k] else [])
  }

  // ---------------------------------------------------------------- ordering

  /**
   * Code-point lexicographic order, which is how SQLite's default BINARY
   * collation orders UTF-8 text.
   */
  predicate StrLe(a: string, b: string)
    decreases |a|
  {
    a == [] || (b != [] && (a[0] < b[0] || (a[0] == b[0] && StrLe(a[1..], b[1..]))))
  }

  lemma {:induction false} StrLeTotal(a: string, b: string)
    ensures StrLe(a, b) || StrLe(b, a)
    decreases |a|
  {
    if a != [] && b != [] && a[0] == b[0] {
      StrLeTotal(a[1..], b[1..]);
    }
  }

  lemma {:induction false} StrLeAntisymmetric(a: string, b: string)
    requires StrLe(a, b) && StrLe(b, a)
    ensures a == b
    decreases |a|
  {
    if a != [] {
      StrLeAntisymmetric(a[1..], b[1..]);
      assert a == [a[0]] + a[1..];
      assert b == [b[0]] + b[1..];
    }
  }

  lemma {:induction false} StrLeTransitive(a: string, b: string, c: string)
    requires StrLe(a, b) && StrLe(b, c)
    ensures StrLe(a, c)
    decreases |a|
  {
    if a != [] && a[0] == b[0] && b[0] == c[0] {
      StrLeTransitive(a[1..], b[1..], c[1..]);
    }
  }

  /** A common prefix does not change the text order of two strings. */
  lemma {:induction false} StrLeCommonPrefix(p: string, x: string, y: string)
    ensures StrLe(p + x, p + y) <==> StrLe(x, y)
    decreases |p|
  {
    if p != [] {
      assert (p + x)[1..] == p[1..] + x && (p + y)[1..] == p[1..] + y;
      StrLeCommonPrefix(p[1..], x, y);
    } else {
      assert p + x == x && p + y == y;
    }
  }

  lemma StrLeReflexive(a: string)
    ensures StrLe(a, a)
  {
  }
}

=== FILE: todo_manager.dfy ===
/**
 * The to-do list: tasks with a priority and an optional due date, which
 * are ticked off and reopened, and the synchronisation that turns every
 * flagged contract into a "Renouvellement contrat ..." task unless an open
 * task for that contract already exists.
 */
module TodoManager {
  import opened Wrappers
  import opened Text
  import opened Dates
  import opened Validators
  import opened Models
  import opened Sorting
  import opened Tables
  import opened ContratManager

  // ---------------------------------------------------------------- listing

  /** `CASE priorite WHEN 'Urgente' THEN 1 WHEN 'Haute' THEN 2 WHEN 'Normale' THEN 3 ELSE 4 END`. */
  function PrioriteRank(p: string): (r: int)
    ensures 1 <= r <= 4
    ensures r == 1 <==> p == "Urgente"
    ensures r == 2 <==> p == "Haute"
    ensures r == 3 <==> p == "Normale"
  {
    if p == "Urgente" then 1 else if p == "Haute" then 2 else if p == "Normale" then 3 else 4
  }

  /** `ORDER BY` the priority rank, then `date_echeance`, then the row id. */
  function TodoListKey(t: TodoItem): seq<Atom> {
    [Num(PrioriteRank(t.priorite)), Num(DateRank(t.dateEcheance)), Num(t.id)]
  }

  lemma TodoListKeyOrder(x: TodoItem, y: TodoItem)
    requires KeyLe(TodoListKey(x), TodoListKey(y))
    ensures PrioriteRank(x.priorite) <= PrioriteRank(y.priorite)
    ensures PrioriteRank(x.priorite) == PrioriteRank(y.priorite) ==> NoLater(x.dateEcheance, y.dateEcheance)
  {
    var kx := TodoListKey(x);
    var ky := TodoListKey(y);
    if kx[0] == ky[0] {
      assert kx[1..][0] == kx[1] && ky[1..][0] == ky[1];
      DateRankOrder(x.dateEcheance, y.dateEcheance);
    }
  }

  /** `get_all_todos(complete)`: `complete` filters only when given. */
  predicate TodoListed(t: TodoItem, complete: Option<bool>) {
    complete.None? || t.complete == complete.value
  }

  /**
   * `get_all_todos(complete)`: urgent tasks first, then high, then normal,
   * then the rest; within a priority, the earliest due date first.
   */
  function GetAllTodos(todos: map<nat, TodoItem>, complete: Option<bool>): (r: seq<TodoItem>)
    ensures forall t :: t in r <==> t in todos.Values && TodoListed(t, complete)
    ensures forall i, j :: 0 <= i < j < |r| ==> PrioriteRank(r[i].priorite) <= PrioriteRank(r[j].priorite)
    ensures forall i, j :: 0 <= i < j < |r| && r[i].priorite == r[j].priorite ==>
              NoLater(r[i].dateEcheance, r[j].dateEcheance)
  {
    var r := Select(todos, (t: TodoItem) => TodoListed(t, complete), TodoListKey);
    forall i, j | 0 <= i < j < |r|
      ensures PrioriteRank(r[i].priorite) <= PrioriteRank(r[j].priorite)
      ensures r[i].priorite == r[j].priorite ==> NoLater(r[i].dateEcheance, r[j].dateEcheance)
    {
      TodoListKeyOrder(r[i], r[j]);
    }
    r
  }

  // ---------------------------------------------------------------- create, update, delete

  /** The checks of `create_todo`, in their order. */
  function CreateTodoCheck(t: TodoItem): (e: Option<Error>)
    ensures e.None? <==> (exists i :: 0 <= i < |t.motif| && !IsSpace(t.motif[i])) && t.priorite in Priorites
    ensures t.motif == "" ==> e == Some(FieldRequired("Motif"))
  {
    if !ValidateRequiredField(t.motif) then Some(FieldRequired("Motif"))
    else if t.priorite !in Priorites then Some(InvalidPriorite)
    else None
  }

  /** The row `create_todo` inserts: the given fields, open, never completed. */
  function NewTodo(t: TodoItem, id: nat): (row: TodoItem)
    ensures row.id == id && !row.complete && row.dateCompletion.None?
    ensures row.motif == t.motif && row.description == t.description && row.contratId == t.contratId
    ensures row.dateEcheance == t.dateEcheance && row.priorite == t.priorite
  {
    t.(id := id, complete := false, dateCompletion := None)
  }

  /** `create_todo`: a task is always created open, whatever `complete` says. */
  method CreateTodo(db: Database, t: TodoItem) returns (o: Outcome)
    requires db.ValidTodos()
    modifies db`todos, db`lastTodo
    ensures db.ValidTodos()
    ensures CreateTodoCheck(t).Some? ==>
              o == Failed(CreateTodoCheck(t).value) && db.todos == old(db.todos) && db.lastTodo == old(db.lastTodo)
    ensures CreateTodoCheck(t).None? ==>
              o == Created(old(db.lastTodo) + 1) && o.id !in old(db.todos)
              && db.todos == old(db.todos)[o.id := NewTodo(t, o.id)] && db.lastTodo == o.id
  {
    var e := CreateTodoCheck(t);
    if e.Some? {
      return Failed(e.value);
    }
    var id := db.InsertTodo(NewTodo(t, 0));
    assert NewTodo(t, 0).(id := id) == NewTodo(t, id);
    o := Created(id);
  }

  /** The checks of `update_todo`, in their order. */
  function UpdateTodoCheck(t: TodoItem): (e: Option<Error>)
    ensures e.None? <==> t.id != 0 && CreateTodoCheck(t).None?
    ensures t.id == 0 ==> e == Some(IdRequired)
  {
    if t.id == 0 then Some(IdRequired) else CreateTodoCheck(t)
  }

  /** The row after `update_todo`'s UPDATE: the completion state is not written. */
  function EditedTodo(row: TodoItem, t: TodoItem): (r: TodoItem)
    ensures r.id == row.id && r.complete == row.complete && r.dateCompletion == row.dateCompletion
    ensures r.motif == t.motif && r.description == t.description && r.contratId == t.contratId
    ensures r.dateEcheance == t.dateEcheance && r.priorite == t.priorite
  {
    row.(motif := t.motif, description := t.description, contratId := t.contratId,
         dateEcheance := t.dateEcheance, priorite := t.priorite)
  }

  /** `update_todo`: an id with no row is a success that changes nothing. */
  method UpdateTodo(db: Database, t: TodoItem) returns (o: Outcome)
    requires db.ValidTodos()
    modifies db`todos
    ensures db.ValidTodos()
    ensures UpdateTodoCheck(t).Some? ==> o == Failed(UpdateTodoCheck(t).value) && db.todos == old(db.todos)
    ensures UpdateTodoCheck(t).None? && t.id in old(db.todos) ==>
              o == Done && db.todos == old(db.todos)[t.id := EditedTodo(old(db.todos)[t.id], t)]
    ensures UpdateTodoCheck(t).None? && t.id !in old(db.todos) ==> o == Done && db.todos == old(db.todos)
  {
    var e := UpdateTodoCheck(t);
    if e.Some? {
      return Failed(e.value);
    }
    if t.id in db.todos {
      db.ReplaceTodo(EditedTodo(db.todos[t.id], t));
    }
    o := Done;
  }

  /** The task after `toggle_complete` at time `now`: the state flips, and the completion time goes with it. */
  function Toggled(t: TodoItem, now: Timestamp): (r: TodoItem)
    ensures r.complete == !t.complete
    ensures r.dateCompletion.Some? <==> r.complete
    ensures r.complete ==> r.dateCompletion == Some(now)
    ensures r.(complete := t.complete, dateCompletion := t.dateCompletion) == t
  {
    t.(complete := !t.complete, dateCompletion := if !t.complete then Some(now) else None)
  }

  /** Completing an open task and reopening it gives the task back. */
  lemma ToggledTwice(t: TodoItem, now1: Timestamp, now2: Timestamp)
    requires !t.complete && t.dateCompletion.None?
    ensures Toggled(Toggled(t, now1), now2) == t
  {
  }

  /** `toggle_complete(id)` at time `now`. */
  method ToggleComplete(db: Database, id: nat, now: Timestamp) returns (o: Outcome)
    requires db.ValidTodos()
    modifies db`todos
    ensures db.ValidTodos()
    ensures id !in old(db.todos) ==> o == Failed(NotFound) && db.todos == old(db.todos)
    ensures id in old(db.todos) ==> o == Done && db.todos == old(db.todos)[id := Toggled(old(db.todos)[id], now)]
  {
    if id !in db.todos {
      return Failed(NotFound);
    }
    db.ReplaceTodo(Toggled(db.todos[id], now));
    o := Done;
  }

  /** `delete_todo`: no check, a missing id changes nothing. */
  method DeleteTodo(db: Database, id: nat) returns (o: Outcome)
    requires db.ValidTodos()
    modifies db`todos
    ensures db.ValidTodos()
    ensures o == Done && db.todos == old(db.todos) - {id}
  {
    db.RemoveTodo(id);
    o := Done;
  }

  // ---------------------------------------------------------------- synchronisation with the contracts

  /** `str(date)` of an optional date, as an f-string writes it. */
  function DateText(d: Option<Date>): (s: string)
    ensures d.Some? ==> s == Isoformat(d.value)
    ensures d.None? ==> s == "None"
  {
    if d.Some? then Isoformat(d.value) else "None"
  }

  /** The title of the renewal task of contract number `numero`. */
  function RenewalMotif(numero: string): string {
    "Renouvellement contrat " + numero
  }

  /** The description of the renewal task of contract `c`. */
  function RenewalDescription(c: Contrat): string {
    "Le contrat " + c.numeroContrat + " expire le " + DateText(c.dateFin) + ". Action requise."
  }

  /** The task the synchronisation creates for contract `c`: high priority, due when the contract ends. */
  function RenewalTodo(c: Contrat): (t: TodoItem)
    ensures t.contratId == c.id && t.dateEcheance == c.dateFin && !t.complete
  {
    TodoItem(0, RenewalMotif(c.numeroContrat), RenewalDescription(c), c.id, c.dateFin, "Haute", false, None)
  }

  /** The renewal task always passes the checks of `create_todo`. */
  lemma RenewalTodoValid(c: Contrat)
    ensures CreateTodoCheck(RenewalTodo(c)).None?
    ensures RenewalTodo(c).priorite == "Haute"
  {
    var m := RenewalTodo(c).motif;
    assert m[0] == 'R';
    assert !IsSpace(m[0]);
  }

  /** Some open task references contract `contratId`. */
  predicate HasOpenTodo(todos: map<nat, TodoItem>, contratId: nat) {
    exists k :: k in todos && todos[k].contratId == contratId && !todos[k].complete
  }

  /** The ids of the contracts in `cs`. */
  ghost function IdsOf(cs: seq<Contrat>): set<nat> {
    set c | c in cs :: c.id
  }

  /** The flagged contracts. */
  ghost function Flagged(contrats: map<nat, Contrat>): set<nat> {
    set k | k in contrats && contrats[k].alerte6Mois
  }

  /** The contracts some open task references. */
  ghost function OpenIds(todos: map<nat, TodoItem>): set<nat> {
    set k | k in todos && !todos[k].complete :: todos[k].contratId
  }

  lemma OpenIdsHas(todos: map<nat, TodoItem>, contratId: nat)
    ensures contratId in OpenIds(todos) <==> HasOpenTodo(todos, contratId)
  {
    if HasOpenTodo(todos, contratId) {
      var k :| k in todos && todos[k].contratId == contratId && !todos[k].complete;
      assert todos[k].contratId in OpenIds(todos);
    }
  }

  /** The contracts among `ids` with no open task in `todos`: those the synchronisation serves. */
  ghost function Missing(todos: map<nat, TodoItem>, ids: set<nat>): set<nat> {
    ids - OpenIds(todos)
  }

  /** `row`, stored under `k`, is the renewal task of the contract it references. */
  ghost predicate RenewalRow(row: TodoItem, k: nat, contrats: map<nat, Contrat>) {
    row.contratId in contrats && row == NewTodo(RenewalTodo(contrats[row.contratId]), k)
  }

  /** Every row of `before` is still in `todos`, unchanged. */
  ghost predicate Kept(before: map<nat, TodoItem>, todos: map<nat, TodoItem>) {
    forall k :: k in before ==> k in todos && todos[k] == before[k]
  }

  /** The rows the synchronisation may have added so far: renewal tasks of contracts in `ids`. */
  ghost predicate AddedRenewals(before: map<nat, TodoItem>, todos: map<nat, TodoItem>,
                                contrats: map<nat, Contrat>, ids: set<nat>)
  {
    forall k :: k in todos && k !in before ==> todos[k].contratId in ids && RenewalRow(todos[k], k, contrats)
  }

  /**
   * The state of the synchronisation once the contracts `ids` are handled,
   * starting from the tasks `before` and the counter `last`: old tasks are
   * untouched, new ones are renewals of handled contracts, every handled
   * contract has an open task, and `count` tasks were added, one per
   * handled contract that had none.
   */
  ghost predicate Synced(before: map<nat, TodoItem>, last: nat, todos: map<nat, TodoItem>, lastTodo: nat,
                         contrats: map<nat, Contrat>, ids: set<nat>, count: nat)
  {
    Kept(before, todos)
    && AddedRenewals(before, todos, contrats, ids)
    && ids <= OpenIds(todos)
    && count == |Missing(before, ids)|
    && |todos| == |before| + count && lastTodo == last + count
  }

  lemma SyncedStart(todos: map<nat, TodoItem>, last: nat, contrats: map<nat, Contrat>)
    ensures Synced(todos, last, todos, last, contrats, {}, 0)
  {
    assert Missing(todos, {}) == {};
  }

  /** While no task is changed, the open tasks only grow, and only by tasks of the handled contracts. */
  lemma OpenIdsBetween(before: map<nat, TodoItem>, todos: map<nat, TodoItem>, contrats: map<nat, Contrat>, ids: set<nat>)
    requires Kept(before, todos)
    requires AddedRenewals(before, todos, contrats, ids)
    ensures OpenIds(before) <= OpenIds(todos) <= OpenIds(before) + ids
  {
    forall j | j in OpenIds(before) ensures j in OpenIds(todos) {
      var k :| k in before && !before[k].complete && before[k].contratId == j;
      assert todos[k] == before[k];
    }
    forall j | j in OpenIds(todos) ensures j in OpenIds(before) + ids {
      var k :| k in todos && !todos[k].complete && todos[k].contratId == j;
      if k in before {
        assert before[k] == todos[k];
      }
    }
  }

  /** A contract that already has an open task is handled without adding one. */
  lemma SyncSkip(before: map<nat, TodoItem>, last: nat, todos: map<nat, TodoItem>, lastTodo: nat,
                 contrats: map<nat, Contrat>, ids: set<nat>, count: nat, id: nat)
    requires Synced(before, last, todos, lastTodo, contrats, ids, count)
    requires id in OpenIds(todos)
    ensures Synced(before, last, todos, lastTodo, contrats, ids + {id}, count)
  {
    OpenIdsBetween(before, todos, contrats, ids);
    MissingSkip(before, ids, id);
    AddedGrow(before, todos, contrats, ids, ids + {id});
  }

  /** A contract that already had an open task, or was handled, adds nothing missing. */
  lemma MissingSkip(before: map<nat, TodoItem>, ids: set<nat>, id: nat)
    requires id in OpenIds(before) || id in ids
    ensures Missing(before, ids + {id}) == Missing(before, ids)
  {
  }

  /** The added tasks stay accounted for when more contracts are handled. */
  lemma AddedGrow(before: map<nat, TodoItem>, todos: map<nat, TodoItem>, contrats: map<nat, Contrat>,
                  ids: set<nat>, ids': set<nat>)
    requires AddedRenewals(before, todos, contrats, ids) && ids <= ids'
    ensures AddedRenewals(before, todos, contrats, ids')
  {
  }

  /** Inserting an open task under a new key adds its contract to the open ones. */
  lemma OpenIdsInsert(todos: map<nat, TodoItem>, k: nat, row: TodoItem)
    requires k !in todos && !row.complete
    ensures OpenIds(todos[k := row]) == OpenIds(todos) + {row.contratId}
  {
    var todos' := todos[k := row];
    assert todos'[k] == row;
    forall j | j in OpenIds(todos) ensures j in OpenIds(todos') {
      var w :| w in todos && !todos[w].complete && todos[w].contratId == j;
      assert todos'[w] == todos[w];
    }
  }

  /** Inserting under a new key keeps the rows already there. */
  lemma KeptInsert(before: map<nat, TodoItem>, todos: map<nat, TodoItem>, k: nat, row: TodoItem)
    requires Kept(before, todos) && k !in todos
    ensures Kept(before, todos[k := row])
  {
  }

  /** Inserting a renewal task under a new key keeps the renewals already there. */
  lemma AddedInsert(before: map<nat, TodoItem>, todos: map<nat, TodoItem>, contrats: map<nat, Contrat>,
                    ids: set<nat>, k: nat, row: TodoItem)
    requires AddedRenewals(before, todos, contrats, ids)
    requires k !in before && RenewalRow(row, k, contrats)
    ensures AddedRenewals(before, todos[k := row], contrats, ids + {row.contratId})
  {
  }

  /** Inserting the renewal task of a contract that had none serves one more contract. */
  lemma AddServesOne(before: map<nat, TodoItem>, todos: map<nat, TodoItem>, ids: set<nat>, id: nat)
    requires OpenIds(before) <= OpenIds(todos) && ids <= OpenIds(todos)
    requires id !in OpenIds(todos)
    ensures |Missing(before, ids + {id})| == |Missing(before, ids)| + 1
  {
    assert Missing(before, ids + {id}) == Missing(before, ids) + {id};
  }

  /** A contract with no open task is handled by inserting its renewal task under the next id. */
  lemma SyncAdd(before: map<nat, TodoItem>, last: nat, todos: map<nat, TodoItem>, lastTodo: nat,
                contrats: map<nat, Contrat>, ids: set<nat>, count: nat, c: Contrat,
                k: nat, todos': map<nat, TodoItem>, lastTodo': nat)
    requires Synced(before, last, todos, lastTodo, contrats, ids, count)
    requires TodosOk(todos, lastTodo)
    requires c.id !in OpenIds(todos) && c.id in contrats && contrats[c.id] == c
    requires k == lastTodo + 1 && todos' == todos[k := NewTodo(RenewalTodo(c), k)] && lastTodo' == k
    ensures Synced(before, last, todos', lastTodo', contrats, ids + {c.id}, count + 1)
  {
    var row := NewTodo(RenewalTodo(c), k);
    assert k !in todos && k !in before;
    OpenIdsBetween(before, todos, contrats, ids);
    AddServesOne(before, todos, ids, c.id);
    assert RenewalRow(row, k, contrats);
    KeptInsert(before, todos, k, row);
    AddedInsert(before, todos, contrats, ids, k, row);
    OpenIdsInsert(todos, k, row);
  }

  /** A contract listed from the table is the row stored under its id. */
  lemma ListedContrat(contrats: map<nat, Contrat>, last: nat, c: Contrat)
    requires ContratsOk(contrats, last) && c in contrats.Values
    ensures c.id in contrats && contrats[c.id] == c
  {
    var k :| k in contrats && contrats[k] == c;
  }

  /** The contracts the synchronisation reads are exactly the flagged ones. */
  lemma IdsOfFlagged(contrats: map<nat, Contrat>, last: nat, cs: seq<Contrat>)
    requires ContratsOk(contrats, last)
    requires forall c :: c in cs <==> c in contrats.Values && c.alerte6Mois
    ensures IdsOf(cs) == Flagged(contrats)
  {
    forall k ensures k in IdsOf(cs) <==> k in Flagged(contrats) {
      if k in Flagged(contrats) {
        assert contrats[k] in cs;
      }
    }
  }

  /** `cs[..i + 1]` adds the ids of `cs[..i]` and the id of `cs[i]`. */
  lemma IdsOfStep(cs: seq<Contrat>, i: nat)
    requires i < |cs|
    ensures IdsOf(cs[..i + 1]) == IdsOf(cs[..i]) + {cs[i].id}
  {
    assert cs[..i + 1] == cs[..i] + [cs[i]];
    assert forall c :: c in cs[..i + 1] <==> c in cs[..i] || c == cs[i];
  }

  /** Once every contract in `ids` has an open task, none of them is missing one. */
  lemma NoneMissing(todos: map<nat, TodoItem>, ids: set<nat>)
    requires forall k :: k in ids ==> HasOpenTodo(todos, k)
    ensures Missing(todos, ids) == {}
  {
    forall k | k in ids ensures k in OpenIds(todos) {
      OpenIdsHas(todos, k);
    }
  }

  /** What the state after handling every contract of `cs`, the flagged ones, says about the tasks. */
  lemma SyncedAll(before: map<nat, TodoItem>, last: nat, todos: map<nat, TodoItem>, lastTodo: nat,
                  contrats: map<nat, Contrat>, lastContrat: nat, cs: seq<Contrat>, ids: set<nat>, count: nat)
    requires ContratsOk(contrats, lastContrat)
    requires forall c :: c in cs <==> c in contrats.Values && c.alerte6Mois
    requires ids == IdsOf(cs)
    requires Synced(before, last, todos, lastTodo, contrats, ids, count)
    ensures forall k :: k in before ==> k in todos && todos[k] == before[k]
    ensures AddedRenewals(before, todos, contrats, Flagged(contrats))
    ensures forall k :: k in Flagged(contrats) ==> HasOpenTodo(todos, k)
    ensures count == |Missing(before, Flagged(contrats))|
    ensures |todos| == |before| + count && lastTodo == last + count
  {
    IdsOfFlagged(contrats, lastContrat, cs);
    forall k | k in ids ensures HasOpenTodo(todos, k) {
      OpenIdsHas(todos, k);
    }
  }

  /**
   * One round of `sync_contrats_to_todo`'s loop, for the flagged contract
   * `c`: a renewal task is created unless an open task for `c` exists, and
   * the count goes up by the tasks created.
   */
  method SyncOne(db: Database, c: Contrat, ghost before: map<nat, TodoItem>, ghost last: nat,
                 ghost handled: set<nat>, count: nat) returns (count': nat)
    requires db.ValidTodos() && c.id in db.contrats && db.contrats[c.id] == c
    requires Synced(before, last, db.todos, db.lastTodo, db.contrats, handled, count)
    modifies db`todos, db`lastTodo
    ensures db.ValidTodos()
    ensures Synced(before, last, db.todos, db.lastTodo, db.contrats, handled + {c.id}, count')
  {
    OpenIdsHas(db.todos, c.id);
    if HasOpenTodo(db.todos, c.id) {
      SyncSkip(before, last, db.todos, db.lastTodo, db.contrats, handled, count, c.id);
      return count;
    }
    ghost var todos, lastTodo := db.todos, db.lastTodo;
    var id := CreateRenewal(db, c);
    count' := count + 1;
    SyncAdd(before, last, todos, lastTodo, db.contrats, handled, count, c, id, db.todos, db.lastTodo);
  }

  /** `create_todo` on the renewal task of `c`, which always passes the checks. */
  method CreateRenewal(db: Database, c: Contrat) returns (id: nat)
    requires db.ValidTodos()
    modifies db`todos, db`lastTodo
    ensures db.ValidTodos()
    ensures id == old(db.lastTodo) + 1 && id !in old(db.todos)
    ensures db.todos == old(db.todos)[id := NewTodo(RenewalTodo(c), id)] && db.lastTodo == id
  {
    RenewalTodoValid(c);
    var o := CreateTodo(db, RenewalTodo(c));
    id := o.id;
  }

  /** The loop of `sync_contrats_to_todo` over the contracts `cs`, in order. */
  method SyncEach(db: Database, cs: seq<Contrat>) returns (count: nat)
    requires db.ValidTodos()
    requires forall c :: c in cs ==> c.id in db.contrats && db.contrats[c.id] == c
    modifies db`todos, db`lastTodo
    ensures db.ValidTodos()
    ensures Synced(old(db.todos), old(db.lastTodo), db.todos, db.lastTodo, db.contrats, IdsOf(cs), count)
  {
    ghost var before := db.todos;
    ghost var last := db.lastTodo;
    count := 0;
    ghost var handled: set<nat> := {};
    SyncedStart(before, last, db.contrats);
    assert IdsOf(cs[..0]) == {};
    for i := 0 to |cs|
      invariant db.ValidTodos()
      invariant handled == IdsOf(cs[..i])
      invariant Synced(before, last, db.todos, db.lastTodo, db.contrats, handled, count)
    {
      IdsOfStep(cs, i);
      count := SyncOne(db, cs[i], before, last, handled, count);
      handled := handled + {cs[i].id};
    }
    assert cs[..|cs|] == cs;
  }

  /**
   * `sync_contrats_to_todo`: every flagged contract ends up with an open
   * task; a new renewal task is created for each flagged contract that had
   * none, no existing task changes, and the result is the number of tasks
   * created.
   */
  method SyncContratsToTodo(db: Database) returns (count: nat)
    requires db.ValidTodos() && db.ValidContrats()
    modifies db`todos, db`lastTodo
    ensures db.ValidTodos()
    ensures forall k :: k in old(db.todos) ==> k in db.todos && db.todos[k] == old(db.todos)[k]
    ensures AddedRenewals(old(db.todos), db.todos, db.contrats, Flagged(db.contrats))
    ensures forall k :: k in Flagged(db.contrats) ==> HasOpenTodo(db.todos, k)
    ensures count == |Missing(old(db.todos), Flagged(db.contrats))|
    ensures |db.todos| == |old(db.todos)| + count && db.lastTodo == old(db.lastTodo) + count
  {
    var cs := GetContratsWithAlerts(db.contrats);
    forall c | c in cs ensures c.id in db.contrats && db.contrats[c.id] == c {
      ListedContrat(db.contrats, db.lastContrat, c);
    }
    count := SyncEach(db, cs);
    SyncedAll(old(db.todos), old(db.lastTodo), db.todos, db.lastTodo, db.contrats, db.lastContrat, cs, IdsOf(cs), count);
  }

  /** Run twice with nothing completed in between, the synchronisation creates nothing the second time. */
  method SyncTwice(db: Database) returns (first: nat, second: nat)
    requires db.ValidTodos() && db.ValidContrats()
    modifies db`todos, db`lastTodo
    ensures second == 0
  {
    first := SyncContratsToTodo(db);
    NoneMissing(db.todos, Flagged(db.contrats));
    second := SyncContratsToTodo(db);
  }
}

=== FILE: validators.dfy ===
/**
 * The field validators of the application and the purchase-order number
 * generator. Each regular expression is written out as the predicate it
 * recognises. Python's `re.match(p, s)` with a pattern ending in `$` also
 * accepts `s` followed by a single final newline, and that is modelled.
 */
module Validators {
  import opened Wrappers
  import opened Text
  import opened Dates

  // ---------------------------------------------------------------- e-mail

  /** `[a-zA-Z0-9._%+-]` */
  predicate IsLocalChar(c: char) {
    IsAsciiLetter(c) || IsDigit(c) || c == '.' || c == '_' || c == '%' || c == '+' || c == '-'
  }

  /** `[a-zA-Z0-9.-]` */
  predicate IsDomainChar(c: char) {
    IsAsciiLetter(c) || IsDigit(c) || c == '.' || c == '-'
  }

  /**
   * `[a-zA-Z0-9._%+-]+@[a-zA-Z0-9.-]+\.[a-zA-Z]{2,}` matching all of `t`:
   * some '@' after a non-empty local part, and some '.' after a non-empty
   * domain part, followed by at least two letters up to the end.
   */
  predicate EmailShape(t: string) {
    exists at, dot | 0 < at && at + 1 < dot && dot + 2 < |t| ::
      t[at] == '@' && t[dot] == '.'
      && (forall k | 0 <= k < at :: IsLocalChar(t[k]))
      && (forall k | at < k < dot :: IsDomainChar(t[k]))
      && (forall k | dot < k < |t| :: IsAsciiLetter(t[k]))
  }

  /** `validate_email`: empty passes, anything else must have the e-mail shape. */
  function ValidateEmail(email: string): (ok: bool)
    ensures email == "" ==> ok
    ensures ok && email != [] && email[|email| - 1] != '\n' ==> EmailShape(email)
    ensures EmailShape(email) ==> ok
    ensures email != [] && email[|email| - 1] == '\n' && EmailShape(email[..|email| - 1]) ==> ok
  {
    email == ""
    || EmailShape(email)
    || (email[|email| - 1] == '\n' && EmailShape(email[..|email| - 1]))
  }

  // ---------------------------------------------------------------- telephone

  /** `[\d\s\+\-\(\)\.]` */
  predicate IsPhoneChar(c: char) {
    IsDigit(c) || IsSpace(c) || c == '+' || c == '-' || c == '(' || c == ')' || c == '.'
  }

  /**
   * `validate_telephone`: empty passes; otherwise only digits, white space
   * and `+ - ( ) .` may appear, and there must be at least ten digits.
   */
  function ValidateTelephone(telephone: string): (ok: bool)
    ensures ok <==> telephone == ""
                    || ((forall i | 0 <= i < |telephone| :: IsPhoneChar(telephone[i])) && |Digits(telephone)| >= 10)
    ensures ok && telephone != "" ==> |telephone| >= 10
  {
    telephone == ""
    || ((forall i | 0 <= i < |telephone| :: IsPhoneChar(telephone[i])) && CountDigits(telephone) >= 10)
  }

  // ---------------------------------------------------------------- numbers

  /** `validate_montant`: an amount is valid when it is not negative. */
  predicate ValidateMontant(montant: real) {
    montant >= 0.0
  }

  /** `validate_annee`: a year from 2000 up to ten years after the current one. */
  predicate ValidateAnnee(annee: int, currentYear: int) {
    2000 <= annee <= currentYear + 10
  }

  // ---------------------------------------------------------------- dates

  /** `validate_date`: empty passes; otherwise `strptime(s, "%Y-%m-%d")` must succeed. */
  function ValidateDate(dateStr: string): (ok: bool)
    ensures dateStr == "" ==> ok
    ensures dateStr != "" ==> (ok <==> Strptime(dateStr).Some?)
    ensures ok && dateStr != "" ==> 8 <= |dateStr| <= 10
    ensures ok && IsCanonical(dateStr) ==> Strptime(dateStr).Some? && Isoformat(Strptime(dateStr).value) == dateStr
  {
    var ok := dateStr == "" || Strptime(dateStr).Some?;
    if IsCanonical(dateStr) && ok then IsoformatStrptime(dateStr); ok else ok
  }

  /** Every date, printed as `date.isoformat()` does, passes `validate_date`. */
  lemma PrintedDateValid(d: Date)
    ensures ValidateDate(Isoformat(d))
  {
    StrptimeIsoformat(d);
  }

  /**
   * `validate_date_range`: when both dates are given the end may not come
   * before the start; a missing date always passes.
   */
  function ValidateDateRange(debut: Option<Date>, fin: Option<Date>): (ok: bool)
    ensures !ok <==> debut.Some? && fin.Some? && Ordinal(fin.value) < Ordinal(debut.value)
  {
    if debut.Some? && fin.Some? then
      OrdinalMonotonic(debut.value, fin.value);
      DateLe(debut.value, fin.value)
    else true
  }

  // ---------------------------------------------------------------- postal code

  predicate FiveDigits(t: string) {
    |t| == 5 && AllDigits(t)
  }

  /**
   * `validate_code_postal`: empty passes; otherwise `^\d{5}$`, five digits,
   * where `$` also matches before a final newline.
   */
  function ValidateCodePostal(codePostal: string): (ok: bool)
    ensures ok <==> codePostal == "" || exists d :: FiveDigits(d) && (codePostal == d || codePostal == d + "\n")
  {
    if codePostal == "" || FiveDigits(codePostal) then true
    else if |codePostal| == 6 && codePostal[5] == '\n' && FiveDigits(codePostal[..5]) then
      assert codePostal == codePostal[..5] + "\n";
      true
    else false
  }

  // ---------------------------------------------------------------- generic fields

  /** `validate_required_field`: fails when the value is empty or only white space. */
  function ValidateRequiredField(value: string): (ok: bool)
    ensures ok <==> exists i :: 0 <= i < |value| && !IsSpace(value[i])
  {
    StripEmptyIffAllSpace(value);
    Strip(value) != ""
  }

  /**
   * A value taken from a list of allowed words, none of which starts with
   * white space, passes `validate_required_field`.
   */
  lemma RequiredFieldOfAllowed(value: string, allowed: seq<string>)
    requires forall i :: 0 <= i < |allowed| ==> allowed[i] != [] && !IsSpace(allowed[i][0])
    requires value in allowed
    ensures ValidateRequiredField(value)
  {
    var i :| 0 <= i < |allowed| && allowed[i] == value;
    assert !IsSpace(value[0]);
  }

  /**
   * `validate_unique_field`: fails when the value is already among the
   * existing ones. The managers' own duplicate tests agree with it
   * (`ClientManager.UniqueFieldIsNomFree`, `ProjetManager.UniqueFieldIsNomFree`).
   */
  function ValidateUniqueField(value: string, existing: seq<string>): (ok: bool)
    ensures ok <==> forall i :: 0 <= i < |existing| ==> existing[i] != value
  {
    value !in existing
  }

  // ---------------------------------------------------------------- purchase-order numbers

  /** `BC-\d{4}-\d{4}` matching all of `t`. */
  predicate NumeroBcShape(t: string) {
    |t| == 12 && t[..3] == "BC-" && AllDigits(t[3..7]) && t[7] == '-' && AllDigits(t[8..])
  }

  /** `validate_numero_bc`: the `BC-YYYY-NNNN` format. */
  function ValidateNumeroBc(numeroBc: string): (ok: bool)
    ensures ok <==> NumeroBcShape(numeroBc) || (|numeroBc| == 13 && numeroBc[12] == '\n' && NumeroBcShape(numeroBc[..12]))
    ensures ok ==> |numeroBc| == 12 || (|numeroBc| == 13 && numeroBc[12] == '\n')
    ensures ok ==> numeroBc[..3] == "BC-" && AllDigits(numeroBc[3..7]) && numeroBc[7] == '-' && AllDigits(numeroBc[8..12])
  {
    if |numeroBc| == 13 && numeroBc[12] == '\n' then
      var t := numeroBc[..12];
      assert t[..3] == numeroBc[..3] && t[3..7] == numeroBc[3..7] && t[8..] == numeroBc[8..12];
      NumeroBcShape(t)
    else NumeroBcShape(numeroBc)
  }

  /** `generate_numero_bc(annee, sequence)`: `f"BC-{annee}-{sequence:04d}"`. */
  function GenerateNumeroBc(annee: int, sequence: int): (numero: string)
    ensures |numero| >= 9 && numero[..3] == "BC-"
    ensures sequence >= 0 ==> |numero| >= |ZeroPad(sequence, 4)| + 4
    ensures sequence >= 0 ==> ParseNat(numero[|numero| - |ZeroPad(sequence, 4)|..]) == Some(sequence)
  {
    var head := "BC-" + IntToString(annee) + "-";
    var tail := Format04d(sequence);
    if sequence >= 0 then
      ParseZeroPad(sequence, 4);
      assert (head + tail)[|head|..] == tail;
      head + tail
    else head + tail
  }

  /**
   * A generated number with a four-digit year and a sequence of at most
   * four digits passes the format check, and its two fields read back as
   * the year and the sequence.
   */
  lemma GenerateNumeroBcValid(annee: int, sequence: int)
    requires 1000 <= annee <= 9999 && 0 <= sequence <= 9999
    ensures ValidateNumeroBc(GenerateNumeroBc(annee, sequence))
    ensures DigitsValue(GenerateNumeroBc(annee, sequence)[3..7]) == annee
    ensures DigitsValue(GenerateNumeroBc(annee, sequence)[8..12]) == sequence
  {
    var y := NatToString(annee);
    var z := ZeroPad(sequence, 4);
    NatToStringLength4(annee);
    NatToStringShort(sequence);
    var n := "BC-" + y + "-" + z;
    assert GenerateNumeroBc(annee, sequence) == n;
    NumeroBcOfFields(y, z);
    DigitsValueOfNatToString(annee);
    ParseZeroPad(sequence, 4);
  }

  /** `BC-`, a four-digit year, a dash and four digits make a well-formed number. */
  lemma NumeroBcOfFields(y: string, z: string)
    requires |y| == 4 && |z| == 4 && AllDigits(y) && AllDigits(z)
    ensures NumeroBcShape("BC-" + y + "-" + z)
    ensures ("BC-" + y + "-" + z)[3..7] == y && ("BC-" + y + "-" + z)[8..12] == z
  {
    var n := "BC-" + y + "-" + z;
    assert n[..3] == "BC-" && n[3..7] == y && n[7] == '-' && n[8..] == z && n[8..12] == z;
  }

  /**
   * Conversely every well-formed number whose year does not start with a
   * zero is the generator's output for its own two fields.
   */
  lemma NumeroBcIsGenerated(numeroBc: string)
    requires NumeroBcShape(numeroBc) && numeroBc[3] != '0'
    ensures GenerateNumeroBc(DigitsValue(numeroBc[3..7]), DigitsValue(numeroBc[8..])) == numeroBc
  {
    var y := numeroBc[3..7];
    var s := numeroBc[8..];
    ZeroPadOfValue(y);
    ZeroPadOfValue(s);
    FourDigitsAtLeast1000(y);
    NatToStringLength4(DigitsValue(y));
    DigitsValueBound(s);
    assert numeroBc == "BC-" + y + "-" + s;
  }

  lemma FourDigitsAtLeast1000(t: string)
    requires |t| == 4 && AllDigits(t) && t[0] != '0'
    ensures 1000 <= DigitsValue(t) <= 9999
  {
    DigitsValueBound(t);
    assert t[..3][..2] == t[..2] && t[..2][..1] == [t[0]] && [t[0]][..0] == [];
    assert DigitsValue([t[0]]) == DigitValue(t[0]) >= 1;
    assert DigitsValue(t[..2]) >= 10;
    assert DigitsValue(t[..3]) >= 100;
  }
}

=== FILE: wrappers.dfy ===
/** The optional value that Python expresses with `None`. */
module Wrappers {

  datatype Option<+T> = None | Some(value: T) {

    /** Returns the value, or `default` when there is none. */
    function GetOr(default: T): T {
      match this
      case Some(v) => v
      case None => default
    }
  }
}
